=== FILE: README.md ===
# Hublink-Node in Dafny

A model of the logic inside the Hublink-Node firmware, written as pure
functions and short methods over immutable records. Hublink-Node is an
Arduino library that lets a data-logging board share the files on its SD
card with a Bluetooth gateway. It has three engines:

- `Hublink`, the NimBLE engine in `src/Hublink.cpp`;
- `HublinkNode`, in `src/HublinkNode.cpp`;
- `HublinkNode_ESP32`, in `src/HublinkNode_ESP32.cpp`.

The model covers four parts of them.

- **Config upload** (`MetaUpload`). The gateway can replace `/meta.json` by
  sending numbered chunks, then an `EOF` chunk. The engine stages the chunks
  in a temporary file. On `EOF` it checks the staged text, backs up the old
  file, renames the new one into place and deletes the backup. A chunk out
  of sequence, or one that arrives after the timeout, aborts the upload.
- **Sync scheduling** (`Scheduler`). `sync` decides when to open an
  advertising window and counts failed windows against a retry budget, on
  the wrapping 32-bit millisecond clock. The `doBLE` polling loop is
  modelled one pass at a time (`Session`), together with the connection
  callbacks.
- **Catalog framing and the file filter** (`FileFilter`, `Transfer`,
  `Catalog`). The engines list the visible files with an accepted extension
  as `name|size;name|size;...`. They send that text in pieces of the
  negotiated size, followed by one `EOF` piece. A requested file is sent the
  same way.
- **Text and config parsing**:
  - `MetaPath`: path sanitising and `append_path` expansion;
  - `MetaConfig`: the policy update rules of `readMetaJson`;
  - `Gateway`: the `key=value;...` control string of the node engines;
  - `NodeFile`: the node file `/hublink.node`, one `key=value` setting per
    line;
  - `NodeSession`: the connection loop and callbacks of the two node
    engines.

Storage is a map from path to contents, plus the outcomes the card driver
reports. The radio is a set of per-attempt oracles `nat -> bool`, saying
whether the link holds and whether `sendIndication` reports success for an
indication. That success only means a status callback arrived, whatever its
code, so the lists of pieces in the model are the indications asked for,
not the ones the gateway received. A Dafny `char` stands for one byte of an
ASCII text. The clock is
an input. A JSON document is a map of sections, each a map from key to
scalar. The JSON well-formedness check is an abstract predicate on the
staged text. Integer widths are written out:

- `uint32` wrap-around (`Base.Wrap32`, `Sub32`, `Mul32`, `Add32`);
- the saturating `long` of Arduino's `toInt` (`Text.Atol`).

Some behaviour of the code, as modelled, is worth knowing:

- `HublinkNode::isValidFile` compares only the first three of its four
  extensions, so files ending in `.node` are never listed
  (`FileFilter.NodeNeverListsNodeFiles`).
- A negative number in a node file's `interval=` line is stored as a large
  unsigned interval (`NodeFile.NegativeIntervalWraps`).
- `HublinkNode::onDisconnect` keeps `allFilesSent`. A reconnecting gateway
  therefore gets no catalog until the radio is restarted
  (`NodeSession.NodeCatalogOncePerStartup`). `HublinkNode_ESP32` clears the
  flag on disconnect (`NodeSession.Esp32CatalogAfterReconnect`).
- In `Hublink::doBLE`, `handleFileTransfer` is reached only after the
  requested file opened. So the `NFF` (no file found) indication is never
  sent from the polling loop (`Session.MissingFileSendsNothing`), although
  `Catalog.HandleFileTransfer` models that branch.
- When the final rename of an upload fails, the old `/meta.json` is left
  only as `/meta.json.bak` and is not restored
  (`MetaUpload.FailedRenameKeepsOnlyBackup`).
- `cleanupMetaJsonTransfer` sets the temporary path to "". A later upload
  tries to open the path "", which the card driver may refuse
  (`MetaUpload.Cleanup`, then `MetaUpload.Begin` with `drv.openOk`).
- The catalog does not escape its separators. A long file name may contain
  ";", and a catalog listing such a file reads back as different entries.
  The round trip `Catalog.CatalogRoundTrip` holds only for names without
  ";" or "|".
- `sendAvailableFilenames` sets `allFilesSent` even when a piece failed and
  the loop broke off. A `doBLE` pass then counts the window successful if
  the link is still up when the pass checks it (`Session.Poll`).
- A file is sent in pieces of the size the last catalog negotiated:
  `updateMtuSize` runs only in the catalog branch, after the file branch of
  the same pass (`Session.ServeFile`).
- `readMetaJson` extends the upload path by `append_path` each time it
  reads the file. Without an `upload_path` to restart from, a second
  reading extends the path again; with one it changes nothing
  (`MetaConfig.ReadMetaJsonSettles`).

## Model

| member | source | states |
|---|---|---|
| Base.Sub32 | src/Hublink.cpp:604-607 | elapsed time on the wrapping `millis()` clock: the plain difference when the clock has not wrapped, the difference plus 2^32 when it has |
| Base.Add32 | src/Hublink.cpp:1245 | `lastMetaJsonId + 1` on a `uint32_t`: the plain sum below 2^32, and the sum minus 2^32 otherwise |
| Base.Wrap32Negative | src/HublinkNode.cpp:395-396 | a negative `long` stored into a `uint32_t` becomes 2^32 minus its magnitude |
| Text.IndexOf | src/HublinkNode.cpp:377 | `String::indexOf(c)` gives -1 exactly when `c` is absent, and otherwise the position of the first `c` |
| Text.Lower | src/HublinkNode.cpp:408-409 | `toLowerCase` keeps the length, lower-cases every character and leaves no upper-case letter |
| Text.Trim | src/Hublink.cpp:95-98 | `String::trim` leaves no white space at either end and adds no character |
| Text.TrimIsInfix | src/Hublink.cpp:95-98 | the trimmed text is a run of the original with only white space before and after it |
| Text.TrimUnique | src/Hublink.cpp:95-98 | any run of the text with only white space around it and none at its own ends is the trimmed text, so the two properties fix `trim` |
| Text.SplitJoinsBack | src/HublinkNode.cpp:31-48 | rejoining the pieces between the separators gives back the text |
| Text.SplitJoin | src/HublinkNode.cpp:31-48 | splitting separator-free pieces joined with the separator gives back the pieces |
| Text.Atol | src/HublinkNode.cpp:395-396 | `toInt` saturates to the `long` range and is positive only for text that does not begin with "-" |
| Text.AtolDecimal | src/HublinkNode.cpp:395-396 | `toInt` reads back the decimal text of any number in the `long` range |
| Text.AtolNegatedDecimal | src/HublinkNode.cpp:395-396 | `toInt` reads "-" followed by the decimal text of n as -n |
| MetaPath.KeepPathChars | src/Hublink.cpp:57-65 | the first step of `sanitizePath` keeps only letters, digits and `- _ + . /` |
| MetaPath.CollapseSlashes | src/Hublink.cpp:67-71 | the "//"-replacement loop leaves no "//" and adds no other character |
| MetaPath.StripTrailingSlashes | src/Hublink.cpp:73-77 | the trailing-"/" loop removes exactly the final run of "/" |
| MetaPath.SanitizePath | src/Hublink.cpp:55-80 | the result holds only path characters, no "//" and no trailing "/" |
| MetaPath.CollapseIsSqueeze | src/Hublink.cpp:67-71 | the replacement loop equals the reference definition that squeezes each run of "/" to one |
| MetaPath.SanitizeDoubledSlash | src/Hublink.cpp:55-80 | a doubled "/" anywhere sanitises like a single one |
| MetaPath.SanitizeIdempotent | src/Hublink.cpp:55-80 | sanitising a sanitised path changes nothing |
| MetaPath.SanitizeKeepsLeadingSlash | src/Hublink.cpp:55-80 | a path starting with "/" sanitises to "" or to a path starting with "/" |
| MetaPath.NestedValue | src/Hublink.cpp:82-102 | for a `parent:child` path split at the first ":", an existing entry gives its text trimmed; a path without ":", or whose section or key is missing, gives "" |
| MetaPath.AppendSegments | src/Hublink.cpp:108-127 | the segments of `append_path` hold no "/" |
| MetaPath.AppendSegmentsJoin | src/Hublink.cpp:108-127 | the segments joined with "/" give back `append_path`, up to one trailing "/" |
| MetaPath.ProcessAppendPath | src/Hublink.cpp:104-149 | the expanded upload path is a sanitised path |
| MetaPath.FoundValues | src/Hublink.cpp:128-138 | the values found for the segments are all non-empty |
| MetaPath.AppendValuesReference | src/Hublink.cpp:128-145 | the appending loop gives, after sanitising, the base path followed by "/" and each found value in order |
| MetaPath.ProcessAppendPathReference | src/Hublink.cpp:104-149 | `processAppendPath` equals the sanitised base path followed by "/v" for each non-empty value `v` of the segments, in order |
| MetaPath.AppendValuesExtends | src/Hublink.cpp:128-138 | the appending loop only extends the base path |
| MetaPath.AppendPathKeepsLeadingSlash | src/Hublink.cpp:104-149 | a base path starting with "/" expands to "" or to a path starting with "/" |
| MetaPath.SegmentWithoutValueSkipped | src/Hublink.cpp:82-138 | a segment without ":" or whose section or key is missing contributes nothing |
| MetaConfig.WithUploadPath | src/Hublink.cpp:187-200 | a non-empty `upload_path` becomes the upload path, with "/" put in front when it lacks one; otherwise the path is kept; nothing else changes |
| MetaConfig.WithAppendPath | src/Hublink.cpp:202-211 | a non-empty `append_path` replaces the upload path by its `processAppendPath` expansion, which keeps a leading "/" (or empties it); nothing else changes |
| MetaConfig.WithIntervals | src/Hublink.cpp:213-224 | when both keys are present with positive values both intervals take them; otherwise neither changes |
| MetaConfig.WithRetry | src/Hublink.cpp:227-251 | `try_reconnect` is taken as given; a present positive `reconnect_attempts` or `reconnect_every` is taken, and they change in no other case |
| MetaConfig.WithPaths | src/Hublink.cpp:187-211 | a non-empty `upload_path` ends as "" or a path starting with "/", and starts with "/" when there is no `append_path` |
| MetaConfig.ReadMetaJson | src/Hublink.cpp:151-267 | no file changes nothing; positive intervals and retry settings stay positive; the intervals and retry settings change only to positive values found under the `hublink` section; `disable` follows the file |
| MetaConfig.ReadMetaJsonAdopts | src/Hublink.cpp:177-257 | a present `advertise` and `try_reconnect` are taken; the upload path is the `upload_path` rule followed by the `append_path` expansion; positive interval and retry values are taken |
| MetaConfig.ReadMetaJsonSettles | src/Hublink.cpp:187-211 | reading the same file twice gives the policy of reading it once, provided the file sets an `upload_path` or has no `append_path` |
| MetaConfig.NoHublinkSectionNoChange | src/Hublink.cpp:177-257 | a document without a `hublink` section leaves the policy unchanged |
| FileFilter.EndsWithAny | src/Hublink.cpp:476-484 | a name matches the list exactly when it ends with one of its extensions |
| FileFilter.IsValidFile | src/Hublink.cpp:464-485 | a name starting with "." is rejected; any other is accepted exactly when its lower-cased form ends with a stored extension |
| FileFilter.NormalizeExtension | src/Hublink.cpp:916-927 | a stored extension starts with "." and is lower-case, and is the given one lower-cased, kept as it is when it already starts with "." and with a "." put in front otherwise |
| FileFilter.AddValidExtension | src/Hublink.cpp:916-927 | `addValidExtension` appends the normalised extension and keeps the others |
| FileFilter.ClearedAcceptsNothing | src/Hublink.cpp:929-932 | after `clearValidExtensions` no name is accepted |
| FileFilter.AddValidExtensions | src/Hublink.cpp:934-941 | `addValidExtensions` replaces the whole list with the normalised extensions, in order |
| FileFilter.AddValidExtensionAccepts | src/Hublink.cpp:916-927 | after adding an extension a name is accepted exactly when it was before, or it is visible and ends with the new extension |
| FileFilter.IsValidFileIgnoresCase | src/Hublink.cpp:464-485 | letter case in the name does not change the verdict |
| FileFilter.NodeIsValidFile | src/HublinkNode.cpp:257-278 | `HublinkNode` accepts a visible name exactly when its lower-cased form ends with one of the first three of its extensions |
| FileFilter.Esp32IsValidFile | src/HublinkNode_ESP32.cpp:180-201 | `HublinkNode_ESP32` accepts a visible name exactly when its lower-cased form ends with one of its three extensions |
| FileFilter.NodeNeverListsNodeFiles | src/HublinkNode.cpp:257-278 | `.node` is one of `HublinkNode`'s extensions, yet no name ending in it is accepted |
| FileFilter.Accepts | src/HublinkNode.cpp:257-278 | each engine's filter hides dot-files and accepts a visible name exactly when its lower-cased form ends with one of the compared extensions |
| Transfer.ChunksConcat | src/Hublink.cpp:388-399 | the `mtuSize` slices of a text concatenate back to the text |
| Transfer.ChunksShape | src/Hublink.cpp:388-399 | there are ceil(length / `mtuSize`) slices, each 1 to `mtuSize` long, all but the last exactly `mtuSize` |
| Transfer.SendIndication | src/Hublink.cpp:994-1030 | at most three attempts, each while connected; success exactly when the last attempt got a status callback, whatever its code; it stops early only when the link drops |
| Transfer.SendPieces | src/Hublink.cpp:388-399 | the pieces asked for are a prefix of the slices, each while connected and all but the last reported sent; the loop stops only at the end, a dropped link or a failure; with a steady link all slices are asked for |
| Transfer.SendPayload | src/Hublink.cpp:388-405 | the slices asked for are followed by exactly one `EOF` request, which the link state when it is due decides; with a steady link the slices are all of them and concatenate to the payload |
| Catalog.EntryInfoRoundTrip | src/Hublink.cpp:414 | a `name|size` entry parses back to its file when the name holds no "|" |
| Catalog.Accumulate | src/Hublink.cpp:410-420 | the accumulation loop only extends the string it has built: what it had is a prefix of what it returns |
| Catalog.AccumulateGrows | src/Hublink.cpp:410-420 | the loop leaves the string as it was when no remaining entry passes the filter, and lengthens it when one does |
| Catalog.CatalogEmpty | src/Hublink.cpp:408-421 | the catalog is empty exactly when no directory entry passes the filter |
| Catalog.ListedMembers | src/Hublink.cpp:410-420 | a file is listed exactly when it is in the directory and passes the filter |
| Catalog.CatalogIsJoin | src/Hublink.cpp:410-420 | the catalog is the ";"-join, in directory order, of `name|size` for the accepted files |
| Catalog.CatalogRoundTrip | src/Hublink.cpp:410-420 | when no name holds ";" or "|", the gateway parses the catalog back into exactly the accepted files, in order |
| Catalog.ReadCatalog | src/Hublink.cpp:380-421 | a complete directory listing gives exactly the catalog text |
| Catalog.SendAvailableFilenames | src/HublinkNode.cpp:171-217 | without the card nothing is sent; a link lost during the listing sends nothing and is reported; otherwise a prefix of the catalog's slices, then `EOF`, and `allFilesSent` is set even after a failed piece; with a steady link the slices are the whole catalog |
| Catalog.HandleFileTransfer | src/Hublink.cpp:424-462 | a file that did not open gets the single `NFF` request; an open file gets a prefix of its slices then `EOF`, the whole file with a steady link; a link down at the last request is reported |
| Catalog.NodeHandleFileTransfer | src/HublinkNode.cpp:219-255 | without the card or the file nothing is sent; otherwise a prefix of the file's slices then `EOF`, the whole file while the link holds; a link down at the end is reported |
| MetaUpload.Remove | src/Hublink.cpp:1169-1172 | removing a file deletes that path and leaves every other file as it was |
| MetaUpload.Rename | src/Hublink.cpp:1144-1149 | a rename moves the contents to the new path and leaves every other file as it was |
| MetaUpload.Cleanup | src/Hublink.cpp:1162-1181 | cleanup ends the upload, resets the id and time, removes the staged file, and sets the temporary path to "" |
| MetaUpload.Begin | src/Hublink.cpp:1032-1059 | an upload starts exactly when the card starts and the temporary file opens, with id 0 and nothing staged; only the temporary file changes |
| MetaUpload.Process | src/Hublink.cpp:1083-1101 | a chunk is appended to the staged text only during an open upload; a failed write cleans up |
| MetaUpload.BackUp | src/Hublink.cpp:1131-1141 | a backup moves `/meta.json` to `/meta.json.bak` and touches no other file |
| MetaUpload.Finalize | src/Hublink.cpp:1103-1160 | a commit succeeds only for a staged text that passes the check, read back and renamed; it then leaves `/meta.json` holding that text, no backup, no temporary file and every other file as it was; `/meta.json` changes only on a valid text; every attempt ends the upload |
| MetaUpload.HandleEof | src/Hublink.cpp:1198-1223 | `EOF` without an upload is ignored; `EOF` before any chunk cleans up; `EOF` always ends the upload |
| MetaUpload.HandleData | src/Hublink.cpp:1226-1262 | without an upload only id 1 starts one; during an upload any id but the next cleans up; an accepted chunk sets the last id and extends the staged text |
| MetaUpload.HandleChunk | src/Hublink.cpp:1183-1263 | a timed-out upload is cleaned up and the chunk dropped; the sequencing rules hold; `/meta.json` changes only on an `EOF` after at least one chunk, with valid staged text |
| MetaUpload.HandleChunkConsistent | src/Hublink.cpp:1183-1263 | every chunk keeps the upload fields consistent with each other |
| MetaUpload.HandleChunkPathsApart | src/Hublink.cpp:1183-1263 | every chunk keeps the temporary path apart from `/meta.json` and its backup |
| MetaUpload.OrderlyChunksStage | src/Hublink.cpp:1226-1257 | chunks 1..n, in time, leave the upload in progress at id n with their data staged in order, and change no other file |
| MetaUpload.OrderlyUploadCommits | src/Hublink.cpp:1103-1160 | an orderly upload of valid text followed by `EOF` makes `/meta.json` that text, with no backup or temporary file left and the upload ended |
| MetaUpload.FailedRenameKeepsOnlyBackup | src/Hublink.cpp:1134-1149 | when the final rename fails, `/meta.json` is gone and the old contents survive only in the backup |
| MetaUpload.OnlyValidUploadsCommit | src/Hublink.cpp:1183-1263 | over any chunk sequence, `/meta.json` changes only after an `EOF` whose staged text passed the check |
| MetaUpload.GapAborts | src/Hublink.cpp:1245-1250 | a chunk whose id skips ahead aborts the upload, resets the id and removes the staged file |
| Scheduler.AfterWindow | src/Hublink.cpp:811-842 | a failed, unforced window with retries enabled counts one retry (1 on the first failure); anything else clears the count |
| Scheduler.Sync | src/Hublink.cpp:762-876 | a window is opened exactly when sync is enabled, due, not out of retries and allowed by the retry interval; `disable` changes nothing; exhausted retries are cleared without a window; the retry rules; the policy is never changed |
| Scheduler.RetryBounded | src/Hublink.cpp:789-842 | the retry count stays between 1 and the configured attempts while a failure is pending, and is 0 otherwise |
| Scheduler.RunKeepsRetryInvariant | src/Hublink.cpp:762-876 | any sequence of `sync` calls keeps the policy and the retry bounds |
| Scheduler.ExhaustedRetriesSkipWindow | src/Hublink.cpp:789-796 | once the last retry has failed, the next due call opens no window and clears the failure |
| Scheduler.IntervalAcrossWrap | src/Hublink.cpp:774-777 | for every last-window time and every elapsed time below 2^32 ms, the interval test passes exactly when the elapsed time reaches `advertise_every` seconds, across the wrap of `millis()`; with no failure pending that is exactly when `sync` opens a window |
| Scheduler.ElapsedAcrossWrap | src/Hublink.cpp:774 | the 32-bit difference of two `millis()` readings is the elapsed time whenever it is below 2^32 ms |
| Session.OnConnect | src/Hublink.cpp:487-502 | `onConnect` marks the link up, records the time and restores the 10-second watchdog, and changes nothing else |
| Session.OnDisconnect | src/Hublink.cpp:504-508 | `onDisconnect` clears the link flag only |
| Session.ResetBLEState | src/Hublink.cpp:510-544 | the reset clears the link, request and catalog flags, closes the files and cleans up an upload in progress |
| Session.Watchdog | src/Hublink.cpp:606-637 | the watchdog fires exactly when connected and idle past the timeout; it then cleans up the upload and closes the files, and changes nothing otherwise |
| Session.ServeFile | src/Hublink.cpp:639-678 | a pending request is always cleared; the pass ends early when the card does not start; a file that opens is sent in pieces of the size the last catalog negotiated, ending with `EOF`; a link lost during it is seen by the rest of the pass |
| Session.SendRequestedFile | src/Hublink.cpp:659-677 | an opened file goes out as a prefix of its slices then `EOF`, the handle is closed, the request cleared, and the link flag is the link when `EOF` was due |
| Session.ServeCatalog | src/Hublink.cpp:680-722 | when connected, no file pending, not yet sent and requested, the piece size is negotiated and, with the card and the directory, the catalog goes out ending with `EOF`; a link lost during the listing or at `EOF` is seen afterwards; `allFilesSent` changes only when the catalog went out |
| Session.SendCatalog | src/Hublink.cpp:703-707 | from an open root directory, a complete listing sets `allFilesSent` and sends a prefix of the catalog's slices then `EOF`, all of them with a steady link; a broken listing sends nothing and leaves the link flag down |
| Session.Bookkeep | src/Hublink.cpp:723-728 | a pass counts as successful once the catalog has gone out and the link is up when checked, and `didConnect` records any connection |
| Session.ServeRest | src/Hublink.cpp:680-728 | the catalog branch then the bookkeeping, with the link flag as it reads at the end of the pass |
| Session.Serve | src/Hublink.cpp:639-728 | the file branch, then, unless the pass ended early, the catalog branch and the bookkeeping; a file served whole while the catalog is asked for is followed by the catalog in the same pass |
| Session.Poll | src/Hublink.cpp:604-729 | a pass never brings the link up and never forgets a successful window; it counts the window successful only when the catalog has gone out, the link is up at the end of the pass and was up when `EOF` was due; a catalog due with a working card and directory goes out, and all of it with a steady link |
| Session.FileThenCatalog | src/Hublink.cpp:639-722 | a file requested together with the catalog is served, and then the catalog, in the same pass, each closed by `EOF` |
| Session.CatalogPassSucceeds | src/Hublink.cpp:680-728 | when the catalog is due and the card, the directory and the link hold, the pieces asked for are exactly the catalog of the accepted files and the window counts as successful |
| Session.MissingFileSendsNothing | src/Hublink.cpp:659-677 | a requested file that does not open sends nothing, not even `NFF` |
| Gateway.PairValueShape | src/HublinkNode.cpp:325-336 | a pair gives a value only when it is `key=value` with the key free of "=" and the value non-empty |
| Gateway.PairValueOf | src/HublinkNode.cpp:325-336 | the pair `key=v` gives `v` for a key free of "=" and a non-empty `v` |
| Gateway.FirstValueMeaning | src/HublinkNode.cpp:308-356 | the lookup is "" exactly when no pair gives the key a value, and otherwise it is the value of the first pair that does |
| Gateway.Pairs | src/HublinkNode.cpp:322-340 | the pairs joined back with ";" give the control string |
| Gateway.ParseGateway | src/HublinkNode.cpp:308-356 | the `indexOf` scan, including the trailing pair and the empty string, returns the first value that the reference lookup over the ";"-pieces finds |
| Gateway.EmptyValueSkipped | src/HublinkNode_ESP32.cpp:248-296 | a pair with the key and an empty value is passed over, and a later pair with the key is used |
| Gateway.KeyWithEqualsNeverFound | src/HublinkNode.cpp:325-336 | a key containing "=" is never found |
| NodeFile.ApplyInterval | src/HublinkNode.cpp:387-404 | an `interval` value changes both numbers together and only to positive values, and nothing else |
| NodeFile.ApplySetting | src/HublinkNode.cpp:377-413 | `disable` changes only under its key, the name only under `advertise` and only in `HublinkNode`, the numbers only under `interval` |
| NodeFile.ApplyLine | src/HublinkNode_ESP32.cpp:366-398 | a line changes a setting only when it starts with that setting's key and "=" |
| NodeFile.DisableRule | src/HublinkNode.cpp:406-411 | `disable=v` sets the flag exactly when `v` lower-cased is "true" or `v` is "1" |
| NodeFile.IntervalRule | src/HublinkNode_ESP32.cpp:372-389 | `interval=a<sep>b` sets both numbers when both read as positive `uint32_t`, and otherwise leaves both |
| NodeFile.AdvertiseRule | src/HublinkNode.cpp:383-386 | `advertise=v` sets the configured name to `v` in `HublinkNode` and is ignored by `HublinkNode_ESP32` |
| NodeFile.NoEqualsNoChange | src/HublinkNode.cpp:377-378 | a line without "=" changes no setting |
| NodeFile.NegativeIntervalWraps | src/HublinkNode.cpp:395-401 | `interval=-n,m` stores 2^32-n as the interval, since `toInt` of "-n" is negative and wraps in a `uint32_t` |
| NodeFile.DisableOnlyFromLines | src/HublinkNode.cpp:406-411 | without a `disable=` line the flag keeps the value it had before the file was read |
| NodeFile.ProcessLine | src/HublinkNode.cpp:365-413 | an empty line changes nothing; a non-empty line is applied to the settings and appended to the content, after the engine's separator unless the content was empty |
| NodeFile.ProcessLineFolds | src/HublinkNode.cpp:365-375 | processing one more line appends it, after the separator, to the content of the lines before it |
| NodeFile.ReadNodeFile | src/HublinkNode_ESP32.cpp:318-345 | the character loop resets `disable`, then gives the settings and content of the non-empty lines between "\n" and "\r" breaks, including an unterminated last line |
| NodeFile.SetNodeContent | src/HublinkNode.cpp:10-53 | with no card or no file the content is "" and the settings, `disable` included, are kept; otherwise the file is read as above |
| NodeFile.NodeContentOfLines | src/HublinkNode_ESP32.cpp:356-364 | non-empty lines written one per line read back as those lines joined with the engine's separator |
| NodeSession.ServeNodeFile | src/HublinkNode_ESP32.cpp:73-80 | a due request is served in pieces of the size the last catalog negotiated and cleared with its transfer flag; a link lost during it is kept; nothing else changes in the model (the watchdog refresh per piece is left out) |
| NodeSession.ServeNodeCatalog | src/HublinkNode_ESP32.cpp:84-91 | the catalog goes out only when connected, not yet sent and requested and no file is in progress, after the piece size is negotiated; `allFilesSent` changes only then; a link lost during the listing is kept |
| NodeSession.UpdateConnectionStatus | src/HublinkNode_ESP32.cpp:64-92 | the watchdog fires exactly when connected and idle past 5 seconds; the file branch then the catalog branch, which a link lost during the file does not reach; the request flags are kept and the link is never brought up |
| NodeSession.NodeOnConnect | src/HublinkNode_ESP32.cpp:203-209 | `onConnect` marks the link up and restarts the watchdog, and changes nothing else |
| NodeSession.NodeOnDisconnect | src/HublinkNode_ESP32.cpp:211-241 | `HublinkNode` clears only the link flag (src/HublinkNode.cpp:288-292); `HublinkNode_ESP32` also clears the file transfer, catalog and request flags, but keeps the pending name |
| NodeSession.NodeResetBLEState | src/HublinkNode.cpp:294-301 | the reset clears the link, request and catalog flags and the pending name |
| NodeSession.DisconnectedSendsNothing | src/HublinkNode.cpp:144-169 | after a disconnect nothing is sent, whatever the card and the clock do |
| NodeSession.NodeCatalogOncePerStartup | src/HublinkNode.cpp:288-292 | in `HublinkNode` a reconnection brings no new catalog once one was sent |
| NodeSession.Esp32CatalogAfterReconnect | src/HublinkNode_ESP32.cpp:211-241 | in `HublinkNode_ESP32` a reconnection followed by a request brings the catalog again |
| NodeSession.FileThenCatalog | src/HublinkNode_ESP32.cpp:64-92 | a file request and a catalog request are both served in one call |

## Left out

- Radio bring-up and teardown are left out: `startAdvertising`, `stopAdvertising`, `cleanupCallbacks`, `initBLE`, `deinitBLE`, `setBLECallbacks`, and the connection parameters and MTU calls of `onConnect`. They are calls into the BLE stack. `updateMtuSize` is kept as the point where the piece size changes, but the size it reads is an input and must be positive: the BLE minimum MTU keeps `mtuSize` above zero, and the `uint16_t` wrap of `getMTU() - MTU_HEADER_SIZE` is not modelled.
- Text is a sequence of Dafny `char`s, each taken to be one byte of ASCII. Arduino `String` lengths, `substring` and the `mtuSize` slices count bytes, so a name or file outside ASCII would be measured and cut differently; UTF-8 encoding is not modelled.
- `HublinkIndicationCallbacks`, the wait inside `sendIndication`, the atomics and `delay` calls are concurrency and timing. Only the three-attempt bound of `sendIndication` is kept, driven by oracles.
- SD card and file handles are not modelled as such. `SD.begin`, `SD.open`, `openNextFile`, reads, writes, `rename` and `remove` are a map plus the outcomes the driver reports.
- JSON parsing and printing are left out. A document is a map of maps, and `validateJsonStructure` is an abstract predicate on the staged text.
- `Hublink::parseGateway` (src/Hublink.cpp:552-587) reads the control string as JSON. It is left out because it is JSON deserialisation. The `key=value;` parser of the two node engines is modelled.
- `parseGateway` copies the characteristic through `c_str()`, which would cut the text at a NUL character. The model takes the text as given.
- `sleep`, `setCPUFrequency`, `printMemStats`, the timestamp callback and all serial logging are left out; they have no effect on the modelled state.
- `doBLE` inside `sync` is an oracle reporting success, the finishing time and the upload state left behind. The start and end of `doBLE` (advertising on and off, the final reset) are not modelled.
- `META_JSON_TIMEOUT_MS` and the `DEFAULT_*` policy values are parameters, because src/Hublink.h does not define them.
- The headers src/Hublink.h and src/HublinkNode_ESP32.h declare an older API. For example, the ESP32 header has no `gatewayChanged` and declares `mtuSize` as a constant. The model follows the .cpp files throughout.
- NodeSession.UpdateConnectionStatus: the watchdog timer is refreshed while a transfer sends pieces; the model keeps the timer unchanged across a call, since it does not model time passing during a transfer.
- NodeSession.UpdateConnectionStatus: the watchdog only asks the radio to disconnect; the link flag changes later in `onDisconnect`, modelled as a separate event.
- Session.Poll: the watchdog timer refresh during transfers is not modelled, for the same reason.
- Session.ServeFile: keeps `watchdogTimer`, while the source sets it to `millis()` before every file piece (src/Hublink.cpp:440); time passing within a pass is not modelled.
- Session.SendRequestedFile: keeps `watchdogTimer` across the pieces it sends (src/Hublink.cpp:440), for the same reason.
- Session.ServeCatalog: keeps `watchdogTimer`, while the source refreshes it for every directory entry and every catalog piece (src/Hublink.cpp:383, 391), for the same reason.
- Session.SendCatalog: keeps `watchdogTimer` across the listing and the pieces (src/Hublink.cpp:383, 391), for the same reason.
- NodeSession.ServeNodeFile: keeps `watchdogTimer`, while both engines refresh it before every piece (src/HublinkNode.cpp:238, src/HublinkNode_ESP32.cpp:161), for the same reason.
- NodeSession.ServeNodeCatalog: keeps `watchdogTimer`, while both engines refresh it for every directory entry and every piece (src/HublinkNode.cpp:183, 191, src/HublinkNode_ESP32.cpp:106, 114), for the same reason.
- Session.Poll: the link flag is read once per indication and once at the end of the pass (`Tick.linkAtEnd`); a reconnection in the middle of a pass is not modelled, since `onConnect` is a separate event between passes. The loop around the passes (its advertising-window condition) is not modelled; `Poll` is one pass.
- Scheduler.Sync: the advertising and sleep inside `doBLE` are not modelled; only the window's reported outcome is used. Neither is `doBLE`'s closing `if (metaJsonUpdated) readMetaJson();` (src/Hublink.cpp:745-749): src/Hublink.cpp never sets `metaJsonUpdated` to true and never calls `handleMetaJsonChunk`, so the policy stays as it was, which is what `Sync`'s "the policy is never changed" rests on. The upload handler is modelled on its own (`MetaUpload.HandleChunk`).
- `readMetaJson`'s reading of the file through ArduinoJson (src/Hublink.cpp:151-185) is an input: an absent or unparsable file is `None`.
- `HublinkBLE.h` (an object-lifetime wrapper over the BLE library) is left out.
- `HublinkNode_ESP32::onDisconnect` also turns off the filename notifications and deletes its callback objects; those are radio-stack calls and are left out.

=== FILE: base.dfy ===
/** Small shared vocabulary: optional values and the unsigned 32-bit
    arithmetic the firmware performs on `millis()` timestamps. */
module Base {

  datatype Option<+T> = None | Some(value: T)

  const TWO_32: int := 0x1_0000_0000

  /** The values of a C `uint32_t` (and of `unsigned long` on the ESP32). */
  type uint32 = x: int | 0 <= x < 0x1_0000_0000

  /** The values of a C `uint8_t`. */
  type uint8 = x: int | 0 <= x < 0x100

  /** Reduction of a mathematical integer to `uint32_t`, as a C conversion does. */
  function Wrap32(x: int): (r: uint32)
    ensures 0 <= x < TWO_32 ==> r == x
    ensures (r - x) % TWO_32 == 0
  {
    x % TWO_32
  }

  /** `a - b` on unsigned 32-bit values: the elapsed time between two
      `millis()` readings, correct across one wrap-around of the clock. */
  function Sub32(a: uint32, b: uint32): (r: uint32)
    ensures a >= b ==> r == a - b
    ensures a < b ==> r == a - b + TWO_32
  {
    Wrap32(a - b)
  }

  /** `a * b` on unsigned 32-bit values. */
  function Mul32(a: uint32, b: uint32): (r: uint32)
    ensures a * b < TWO_32 ==> r == a * b
  {
    Wrap32(a * b)
  }

  /** `a + b` on unsigned 32-bit values. */
  function Add32(a: uint32, b: uint32): (r: uint32)
    ensures a + b < TWO_32 ==> r == a + b
    ensures a + b >= TWO_32 ==> r == a + b - TWO_32
  {
    Wrap32(a + b)
  }

  /** A negative value `-n` above -2^32 becomes 2^32 - n. */
  lemma Wrap32Negative(n: int)
    requires 0 < n < TWO_32
    ensures Wrap32(-n) == TWO_32 - n
  {
    var q := (-n) / TWO_32;
    assert -n == TWO_32 * q + Wrap32(-n);
    assert q == -1;
  }
}

=== FILE: catalog.dfy ===
/** The two things a gateway can ask for over the radio: the catalog of
    files (`sendAvailableFilenames`) and one file's contents
    (`handleFileTransfer`). The catalog is one string
    `name|size;name|size;...` of the accepted files, in directory order,
    sent in pieces and closed by "EOF". The card's directory listing and a
    file's bytes are inputs; the link is described as in `Transfer`. */
module Catalog {
  import opened Base
  import opened Text
  import opened FileFilter
  import opened Transfer

  /** A directory entry: its name and size in bytes. */
  datatype FileEntry = FileEntry(name: string, size: nat)

  /** One catalog entry, `name|size`. */
  function EntryInfo(e: FileEntry): string {
    e.name + "|" + NatToDecimal(e.size)
  }

  /** The gateway's reading of one catalog entry. */
  function ParseEntryInfo(info: string): Option<FileEntry> {
    var parts := Split(info, '|');
    if |parts| == 2 && |parts[1]| > 0 && forall i :: 0 <= i < |parts[1]| ==> IsDigit(parts[1][i])
    then Some(FileEntry(parts[0], DigitsValue(parts[1])))
    else None
  }

  /** An entry whose name has no "|" reads back as itself. */
  lemma EntryInfoRoundTrip(e: FileEntry)
    requires '|' !in e.name
    ensures ParseEntryInfo(EntryInfo(e)) == Some(e)
  {
    var digits := NatToDecimal(e.size);
    DecimalHasOnlyDigits(e.size, '|');
    assert Join("|", [e.name, digits]) == EntryInfo(e);
    SplitJoin([e.name, digits], '|');
  }

  /** The files the catalog lists: the accepted entries, in order. */
  function Listed(accept: string -> bool, entries: seq<FileEntry>): (r: seq<FileEntry>)
    ensures |r| <= |entries|
  {
    if |entries| == 0 then []
    else (if accept(entries[0].name) then [entries[0]] else []) + Listed(accept, entries[1..])
  }

  function Infos(es: seq<FileEntry>): (r: seq<string>)
    ensures |r| == |es|
    ensures forall i :: 0 <= i < |es| ==> r[i] == EntryInfo(es[i])
  {
    seq(|es|, i requires 0 <= i < |es| => EntryInfo(es[i]))
  }

  /** Appending one entry's info to the accumulated string: after a ";"
      unless the string is still empty. */
  function AddInfo(acc: string, info: string): string {
    if acc == "" then info else acc + ";" + info
  }

  /** One pass of the accumulation loop: only accepted entries are added. */
  function AddEntry(accept: string -> bool, acc: string, e: FileEntry): string {
    if accept(e.name) then AddInfo(acc, EntryInfo(e)) else acc
  }

  /** Exactly the accepted entries are listed. */
  lemma {:induction false} ListedMembers(accept: string -> bool, entries: seq<FileEntry>, e: FileEntry)
    ensures e in Listed(accept, entries) <==> e in entries && accept(e.name)
    decreases |entries|
  {
    if |entries| > 0 {
      ListedMembers(accept, entries[1..], e);
      assert entries == [entries[0]] + entries[1..];
    }
  }

  /** The accumulation loop over the rest of the directory: it only
      extends what is accumulated. */
  function Accumulate(accept: string -> bool, acc: string, entries: seq<FileEntry>): (r: string)
    ensures StartsWith(r, acc)
    decreases |entries|
  {
    if |entries| == 0 then acc
    else
      var next := AddEntry(accept, acc, entries[0]);
      assert StartsWith(next, acc);
      Accumulate(accept, next, entries[1..])
  }

  /** The loop extends the accumulated string exactly when some remaining
      entry is accepted. */
  lemma {:induction false} AccumulateGrows(accept: string -> bool, acc: string, entries: seq<FileEntry>)
    ensures (forall i :: 0 <= i < |entries| ==> !accept(entries[i].name)) ==> Accumulate(accept, acc, entries) == acc
    ensures (exists i :: 0 <= i < |entries| && accept(entries[i].name)) ==> |Accumulate(accept, acc, entries)| > |acc|
    decreases |entries|
  {
    if |entries| > 0 {
      var next := AddEntry(accept, acc, entries[0]);
      AccumulateGrows(accept, next, entries[1..]);
      assert forall i :: 1 <= i < |entries| ==> entries[1..][i - 1] == entries[i];
      if accept(entries[0].name) {
        InfoNotEmpty(entries[0]);
      }
    }
  }

  /** The catalog string built from a directory listing. */
  function CatalogText(accept: string -> bool, entries: seq<FileEntry>): string {
    Accumulate(accept, "", entries)
  }

  /** The catalog is empty exactly when no entry is accepted. */
  lemma CatalogEmpty(accept: string -> bool, entries: seq<FileEntry>)
    ensures CatalogText(accept, entries) == "" <==> forall i :: 0 <= i < |entries| ==> !accept(entries[i].name)
  {
    AccumulateGrows(accept, "", entries);
  }

  /** `AddInfo` applied to each of `infos` in turn. */
  function Glue(acc: string, infos: seq<string>): string
    decreases |infos|
  {
    if |infos| == 0 then acc else Glue(AddInfo(acc, infos[0]), infos[1..])
  }

  lemma InfosAppend(a: seq<FileEntry>, b: seq<FileEntry>)
    ensures Infos(a + b) == Infos(a) + Infos(b)
  {
    assert forall i :: 0 <= i < |a + b| ==> Infos(a + b)[i] == (Infos(a) + Infos(b))[i];
  }

  lemma ListedCons(accept: string -> bool, entries: seq<FileEntry>)
    requires |entries| > 0
    ensures Infos(Listed(accept, entries))
      == (if accept(entries[0].name) then [EntryInfo(entries[0])] else []) + Infos(Listed(accept, entries[1..]))
  {
    var head := if accept(entries[0].name) then [entries[0]] else [];
    var rest := Listed(accept, entries[1..]);
    assert Listed(accept, entries) == head + rest;
    InfosAppend(head, rest);
    assert Infos(head) == if accept(entries[0].name) then [EntryInfo(entries[0])] else [];
  }

  /** The loop adds exactly the infos of the listed entries. */
  lemma {:induction false} AccumulateIsGlue(accept: string -> bool, acc: string, entries: seq<FileEntry>)
    ensures Accumulate(accept, acc, entries) == Glue(acc, Infos(Listed(accept, entries)))
    decreases |entries|
  {
    if |entries| > 0 {
      var e := entries[0];
      var later := Infos(Listed(accept, entries[1..]));
      AccumulateIsGlue(accept, AddEntry(accept, acc, e), entries[1..]);
      ListedCons(accept, entries);
      if accept(e.name) {
        var xs := [EntryInfo(e)] + later;
        assert xs[0] == EntryInfo(e) && xs[1..] == later;
      } else {
        assert Infos(Listed(accept, entries)) == later;
      }
    }
  }

  /** Gluing onto a joined list of non-empty pieces joins the longer list. */
  lemma {:induction false} GlueJoins(done: seq<string>, infos: seq<string>)
    requires forall i :: 0 <= i < |done| ==> done[i] != ""
    requires forall i :: 0 <= i < |infos| ==> infos[i] != ""
    ensures Glue(Join(";", done), infos) == Join(";", done + infos)
    decreases |infos|
  {
    if |infos| == 0 {
      assert done + infos == done;
    } else {
      var x := infos[0];
      assert AddInfo(Join(";", done), x) == Join(";", done + [x]) by {
        if done == [] {
          assert done + [x] == [x];
        } else {
          JoinStartsWithHead(";", done);
          JoinSnoc(";", done, x);
        }
      }
      GlueJoins(done + [x], infos[1..]);
      assert (done + [x]) + infos[1..] == done + infos;
    }
  }

  lemma InfoNotEmpty(e: FileEntry)
    ensures EntryInfo(e) != ""
  {
    assert EntryInfo(e)[|e.name|] == '|';
  }

  /** The catalog is the accepted entries' infos joined by ";". */
  lemma CatalogIsJoin(accept: string -> bool, entries: seq<FileEntry>)
    ensures CatalogText(accept, entries) == Join(";", Infos(Listed(accept, entries)))
  {
    var infos := Infos(Listed(accept, entries));
    AccumulateIsGlue(accept, "", entries);
    forall i | 0 <= i < |infos|
      ensures infos[i] != ""
    {
      InfoNotEmpty(Listed(accept, entries)[i]);
    }
    assert Join(";", []) == "";
    GlueJoins([], infos);
    assert [] + infos == infos;
  }

  /** The gateway's reading of a whole catalog. */
  function ParseCatalog(text: string): Option<seq<FileEntry>> {
    if text == "" then Some([]) else ParseInfos(Split(text, ';'))
  }

  function ParseInfos(infos: seq<string>): (r: Option<seq<FileEntry>>)
    ensures r.Some? ==> |r.value| == |infos|
  {
    if |infos| == 0 then Some([])
    else
      match ParseEntryInfo(infos[0])
      case None => None
      case Some(e) =>
        match ParseInfos(infos[1..])
        case None => None
        case Some(es) => Some([e] + es)
  }

  lemma {:induction false} ParseInfosRoundTrip(es: seq<FileEntry>)
    requires forall i :: 0 <= i < |es| ==> '|' !in es[i].name
    ensures ParseInfos(Infos(es)) == Some(es)
    decreases |es|
  {
    if |es| > 0 {
      EntryInfoRoundTrip(es[0]);
      assert Infos(es)[1..] == Infos(es[1..]);
      ParseInfosRoundTrip(es[1..]);
      assert [es[0]] + es[1..] == es;
    }
  }

  /** A name the catalog can carry unambiguously: neither ";" nor "|".
      The card's long file names may contain ";" (and the engines do not
      escape it), so a catalog listing such a file reads back differently;
      the round trip below holds only for plain names. */
  predicate PlainName(name: string) {
    ';' !in name && '|' !in name
  }

  /** The gateway recovers exactly the accepted files, in directory order,
      from the catalog string. */
  lemma CatalogRoundTrip(accept: string -> bool, entries: seq<FileEntry>)
    requires forall i :: 0 <= i < |entries| ==> PlainName(entries[i].name)
    ensures ParseCatalog(CatalogText(accept, entries)) == Some(Listed(accept, entries))
  {
    CatalogIsJoin(accept, entries);
    var listed := Listed(accept, entries);
    var infos := Infos(listed);
    assert forall i :: 0 <= i < |listed| ==> PlainName(listed[i].name) by {
      forall i | 0 <= i < |listed|
        ensures PlainName(listed[i].name)
      {
        ListedMembers(accept, entries, listed[i]);
        var j :| 0 <= j < |entries| && entries[j] == listed[i];
      }
    }
    ParseInfosRoundTrip(listed);
    if |infos| > 0 {
      forall i | 0 <= i < |infos|
        ensures ';' !in infos[i]
      {
        assert infos[i] == listed[i].name + "|" + NatToDecimal(listed[i].size);
        DecimalHasOnlyDigits(listed[i].size, ';');
      }
      SplitJoin(infos, ';');
      JoinStartsWithHead(";", infos);
      assert infos[0] != "" by { assert infos[0] == listed[0].name + "|" + NatToDecimal(listed[0].size); }
    }
  }

  /** Accumulating from position `k` is adding entry `k`, then
      accumulating from `k + 1`. */
  lemma AccumulateStep(accept: string -> bool, acc: string, entries: seq<FileEntry>, k: nat)
    requires k < |entries|
    ensures Accumulate(accept, acc, entries[k..]) == Accumulate(accept, AddEntry(accept, acc, entries[k]), entries[k + 1..])
  {
    assert entries[k..][0] == entries[k] && entries[k..][1..] == entries[k + 1..];
  }

  /** The directory loop of `sendAvailableFilenames`: reads entries while
      the link is up (`listing(k)` before the `k`-th `openNextFile`) and
      tells whether it reached the end of the directory. */
  method ReadCatalog(accept: string -> bool, entries: seq<FileEntry>, listing: nat -> bool)
    returns (text: string, complete: bool)
    ensures complete <==> forall k :: 0 <= k <= |entries| ==> listing(k)
    ensures complete ==> text == CatalogText(accept, entries)
  {
    text := "";
    var k := 0;
    while k < |entries| && listing(k)
      invariant 0 <= k <= |entries|
      invariant forall j :: 0 <= j < k ==> listing(j)
      invariant Accumulate(accept, text, entries[k..]) == CatalogText(accept, entries)
    {
      AccumulateStep(accept, text, entries, k);
      text := AddEntry(accept, text, entries[k]);
      k := k + 1;
    }
    complete := k == |entries| && listing(k);
    if complete {
      assert entries[k..] == [];
    }
  }

  /** `sendAvailableFilenames` of the three engines. `ready` is `Hublink`'s
      open root handle or the node engines' card initialisation. When the
      link drops while the directory is read nothing is sent and
      `allFilesSent` keeps its value; otherwise the catalog goes out in
      pieces, "EOF" follows, and `allFilesSent` becomes true, even when a
      piece failed. `linkLost` tells whether the transfer found the link
      down: in the directory loop, or when the "EOF" was due. */
  method SendAvailableFilenames(
    accept: string -> bool, ready: bool, entries: seq<FileEntry>, mtu: nat,
    listing: nat -> bool, connected: nat -> bool, confirmed: nat -> bool, allFilesSent: bool)
    returns (sent: seq<string>, allSent: bool, linkLost: bool)
    requires mtu > 0
    ensures !ready ==> sent == [] && allSent == allFilesSent && !linkLost
    ensures ready && !(forall k :: 0 <= k <= |entries| ==> listing(k)) ==>
      sent == [] && allSent == allFilesSent && linkLost
    ensures ready && (forall k :: 0 <= k <= |entries| ==> listing(k)) ==>
      && allSent
      && |sent| >= 1 && sent[|sent| - 1] == EOF_MARKER
      && |sent| - 1 <= |Chunks(CatalogText(accept, entries), mtu)|
      && sent[..|sent| - 1] == Chunks(CatalogText(accept, entries), mtu)[..|sent| - 1]
      && (linkLost <==> !connected(|sent| - 1))
    ensures ready && (forall k :: 0 <= k <= |entries| ==> listing(k))
            && (forall k :: 0 <= k < |Chunks(CatalogText(accept, entries), mtu)| ==> connected(k) && confirmed(k)) ==>
      && |sent| - 1 == |Chunks(CatalogText(accept, entries), mtu)|
      && Concat(sent[..|sent| - 1]) == CatalogText(accept, entries)
  {
    sent := [];
    allSent := allFilesSent;
    linkLost := false;
    if !ready {
      return;
    }
    var text, complete := ReadCatalog(accept, entries, listing);
    if !complete {
      linkLost := true;
      return;
    }
    sent, linkLost := SendPayload(text, mtu, connected, confirmed);
    allSent := true;
  }

  /** `Hublink::handleFileTransfer`: "NFF" alone when the file is not open,
      otherwise the contents in pieces and "EOF". `linkLost` tells whether
      the link was down when the last indication was due. */
  method HandleFileTransfer(fileOpen: bool, contents: string, mtu: nat,
                            connected: nat -> bool, confirmed: nat -> bool)
    returns (sent: seq<string>, linkLost: bool)
    requires mtu > 0
    ensures !fileOpen ==> sent == [NOT_FOUND_MARKER]
    ensures |sent| >= 1 && (linkLost <==> !connected(|sent| - 1))
    ensures fileOpen ==>
      && sent[|sent| - 1] == EOF_MARKER
      && |sent| - 1 <= |Chunks(contents, mtu)|
      && sent[..|sent| - 1] == Chunks(contents, mtu)[..|sent| - 1]
    ensures fileOpen && (forall k :: 0 <= k < |Chunks(contents, mtu)| ==> connected(k) && confirmed(k)) ==>
      Concat(sent[..|sent| - 1]) == contents
  {
    if !fileOpen {
      sent := [NOT_FOUND_MARKER];
      linkLost := !connected(0);
      return;
    }
    sent, linkLost := SendPayload(contents, mtu, connected, confirmed);
  }

  /** `handleFileTransfer` of the node engines: nothing at all when the card
      does not start or the file does not open, otherwise the contents in
      pieces (indicated without waiting) and "EOF", which is indicated
      whatever the link. `linkLost` tells whether the link was down when
      the transfer ended. */
  method NodeHandleFileTransfer(sdReady: bool, file: Option<string>, mtu: nat, connected: nat -> bool)
    returns (sent: seq<string>, linkLost: bool)
    requires mtu > 0
    ensures !sdReady || file.None? ==> sent == [] && !linkLost
    ensures sdReady && file.Some? ==>
      && |sent| >= 1 && sent[|sent| - 1] == EOF_MARKER
      && |sent| - 1 <= |Chunks(file.value, mtu)|
      && sent[..|sent| - 1] == Chunks(file.value, mtu)[..|sent| - 1]
      && (linkLost <==> !connected(|sent| - 1))
    ensures sdReady && file.Some? && (forall k :: 0 <= k < |Chunks(file.value, mtu)| ==> connected(k)) ==>
      Concat(sent[..|sent| - 1]) == file.value
  {
    if !sdReady || file.None? {
      return [], false;
    }
    sent, linkLost := SendPayload(file.value, mtu, connected, k => true);
  }
}

=== FILE: file_filter.dfy ===
/** Which files the engines list in their catalog. `Hublink` keeps a
    configurable list of extensions; the two older node engines test the
    first three entries of a fixed array. All three skip names starting with
    "." and compare the lower-cased name against lower-case extensions. */
module FileFilter {
  import opened Text

  /** Whether `name` ends with one of `exts`. */
  function EndsWithAny(name: string, exts: seq<string>): (r: bool)
    ensures r <==> exists i :: 0 <= i < |exts| && EndsWith(name, exts[i])
  {
    if |exts| == 0 then false
    else EndsWith(name, exts[0]) || EndsWithAny(name, exts[1..])
  }

  /** `Hublink::isValidFile`: names starting with "." are hidden; any other
      name is accepted iff its lower-cased form ends with a stored extension. */
  function IsValidFile(name: string, exts: seq<string>): (r: bool)
    ensures StartsWith(name, ".") ==> !r
    ensures !StartsWith(name, ".") ==>
      (r <==> exists i :: 0 <= i < |exts| && EndsWith(Lower(name), exts[i]))
  {
    if StartsWith(name, ".") then false
    else EndsWithAny(Lower(name), exts)
  }

  predicate IsLowerCase(s: string) {
    forall i :: 0 <= i < |s| ==> !IsUpper(s[i])
  }

  /** What `addValidExtension` stores for `ext`: its lower-case form, with a
      leading "." added when missing. */
  function NormalizeExtension(ext: string): (r: string)
    ensures StartsWith(r, ".")
    ensures IsLowerCase(r)
    ensures StartsWith(Lower(ext), ".") ==> r == Lower(ext)
    ensures !StartsWith(Lower(ext), ".") ==> r == "." + Lower(ext)
  {
    var lower := Lower(ext);
    if StartsWith(lower, ".") then lower else "." + lower
  }

  /** `addValidExtension`: appends the normalised extension. */
  function AddValidExtension(exts: seq<string>, ext: string): (r: seq<string>)
    ensures |r| == |exts| + 1 && r[..|exts|] == exts
    ensures r[|exts|] == NormalizeExtension(ext)
  {
    exts + [NormalizeExtension(ext)]
  }

  /** `clearValidExtensions`. */
  function ClearValidExtensions(exts: seq<string>): seq<string> {
    []
  }

  /** After `clearValidExtensions` no name is accepted. */
  lemma ClearedAcceptsNothing(exts: seq<string>, name: string)
    ensures !IsValidFile(name, ClearValidExtensions(exts))
  {
  }

  /** `addValidExtensions`: the list is replaced by the normalised forms of
      the given extensions, whatever it held before. */
  function AddValidExtensions(exts: seq<string>, extensions: seq<string>): (r: seq<string>)
    ensures |r| == |extensions|
    ensures forall i :: 0 <= i < |r| ==> r[i] == NormalizeExtension(extensions[i])
    ensures forall i :: 0 <= i < |r| ==> StartsWith(r[i], ".") && IsLowerCase(r[i])
  {
    AddAll(ClearValidExtensions(exts), extensions)
  }

  /** The `addValidExtension` loop of `addValidExtensions`. */
  function AddAll(exts: seq<string>, extensions: seq<string>): (r: seq<string>)
    ensures |r| == |exts| + |extensions| && r[..|exts|] == exts
    ensures forall i {:trigger r[i]} :: |exts| <= i < |r| ==> r[i] == NormalizeExtension(extensions[i - |exts|])
    decreases |extensions|
  {
    if |extensions| == 0 then exts
    else
      var next := AddValidExtension(exts, extensions[0]);
      var r := AddAll(next, extensions[1..]);
      assert r[..|exts|] == exts by {
        assert r[..|exts|] == r[..|next|][..|exts|];
      }
      assert forall i {:trigger r[i]} :: |exts| <= i < |r| ==> r[i] == NormalizeExtension(extensions[i - |exts|]) by {
        forall i | |exts| <= i < |r|
          ensures r[i] == NormalizeExtension(extensions[i - |exts|])
        {
          if i == |exts| {
            assert r[i] == r[..|next|][i] == next[i];
          } else {
            assert r[i] == NormalizeExtension(extensions[1..][i - |next|]);
          }
        }
      }
      r
  }

  /** After `addValidExtension(ext)` a name is accepted iff it was already
      accepted or it is visible and its lower-cased form ends with the
      normalised `ext`. */
  lemma AddValidExtensionAccepts(exts: seq<string>, ext: string, name: string)
    ensures IsValidFile(name, AddValidExtension(exts, ext))
      <==> IsValidFile(name, exts) || (!StartsWith(name, ".") && EndsWith(Lower(name), NormalizeExtension(ext)))
  {
    var r := AddValidExtension(exts, ext);
    if !StartsWith(name, ".") && IsValidFile(name, exts) {
      var i :| 0 <= i < |exts| && EndsWith(Lower(name), exts[i]);
      assert r[i] == exts[i];
    }
  }

  lemma LowerIdempotent(s: string)
    ensures Lower(Lower(s)) == Lower(s)
  {
  }

  /** The match ignores the case of the name. */
  lemma IsValidFileIgnoresCase(name: string, exts: seq<string>)
    ensures IsValidFile(Lower(name), exts) == IsValidFile(name, exts)
  {
    LowerIdempotent(name);
    if |name| > 0 {
      assert StartsWith(Lower(name), ".") <==> StartsWith(name, ".") by {
        assert Lower(name)[0] == ToLowerChar(name[0]);
      }
    }
  }

  /** The extensions of `HublinkNode` (src/HublinkNode.h); its
      `isValidFile` loop reads only the first three. */
  const NODE_EXTENSIONS: seq<string> := [".txt", ".csv", ".log", ".node"]

  /** The extensions of `HublinkNode_ESP32`. */
  const ESP32_EXTENSIONS: seq<string> := [".txt", ".csv", ".log"]

  /** The fixed-array loop `for (int i = 0; i < 3; i++)` of the node engines. */
  function FirstThreeEndsWith(lowerName: string, exts: seq<string>): bool
    requires |exts| >= 3
  {
    EndsWith(lowerName, exts[0]) || EndsWith(lowerName, exts[1]) || EndsWith(lowerName, exts[2])
  }

  /** `HublinkNode::isValidFile`. */
  function NodeIsValidFile(name: string): (r: bool)
    ensures r <==> !StartsWith(name, ".") && EndsWithAny(Lower(name), NODE_EXTENSIONS[..3])
  {
    if StartsWith(name, ".") then false
    else FirstThreeEndsWith(Lower(name), NODE_EXTENSIONS)
  }

  /** `HublinkNode_ESP32::isValidFile`. */
  function Esp32IsValidFile(name: string): (r: bool)
    ensures r <==> IsValidFile(name, ESP32_EXTENSIONS)
  {
    if StartsWith(name, ".") then false
    else FirstThreeEndsWith(Lower(name), ESP32_EXTENSIONS)
  }

  /** Although ".node" is the fourth declared extension of `HublinkNode`, no
      ".node" file is ever listed: the loop stops before it. */
  lemma NodeNeverListsNodeFiles(name: string)
    requires EndsWith(Lower(name), ".node")
    ensures ".node" in NODE_EXTENSIONS
    ensures !NodeIsValidFile(name)
  {
    var l := Lower(name);
    assert l[|l| - 1] == 'e';
    assert l[|l| - 4] == 'n';
  }

  /** The catalog filter of each engine: `Hublink`'s configurable list, or
      the fixed arrays of `HublinkNode` and `HublinkNode_ESP32`. */
  datatype Filter = Extensions(exts: seq<string>) | NodeFilter | Esp32Filter

  /** The extensions a filter actually compares against. */
  function Compared(f: Filter): seq<string> {
    match f
    case Extensions(exts) => exts
    case NodeFilter => NODE_EXTENSIONS[..3]
    case Esp32Filter => ESP32_EXTENSIONS
  }

  /** Every engine hides dot-files and accepts a visible name iff its
      lower-cased form ends with one of the compared extensions. */
  function Accepts(f: Filter, name: string): (r: bool)
    ensures r <==> !StartsWith(name, ".") && exists e :: e in Compared(f) && EndsWith(Lower(name), e)
  {
    match f
    case Extensions(exts) => IsValidFile(name, exts)
    case NodeFilter => NodeIsValidFile(name)
    case Esp32Filter => Esp32IsValidFile(name)
  }

  /** The filter as the test the catalog applies to each name. */
  function Acceptor(f: Filter): string -> bool {
    name => Accepts(f, name)
  }
}

=== FILE: gateway.dfy ===
/** `parseGateway` of the two node engines (identical in `HublinkNode` and
    `HublinkNode_ESP32`): the gateway writes a control string
    `key=value;key=value;...` and the node looks up one key. */
module Gateway {
  import opened Base
  import opened Text

  /** What one pair says about `key`: its value, when the text before the
      pair's first "=" is exactly `key` and the text after it is not empty. */
  function PairValue(pair: string, key: string): Option<string> {
    var eq := IndexOf(pair, '=');
    if eq >= 0 && pair[..eq] == key && |pair[eq + 1..]| > 0 then Some(pair[eq + 1..]) else None
  }

  /** A pair gives a value only when it is `key=value` with a key free of
      "=" and a non-empty value. */
  lemma PairValueShape(pair: string, key: string)
    ensures PairValue(pair, key).Some? ==>
      var v := PairValue(pair, key).value;
      '=' !in key && |v| > 0 && pair == key + "=" + v
  {
    var eq := IndexOf(pair, '=');
    if eq >= 0 {
      assert pair == pair[..eq] + "=" + pair[eq + 1..];
    }
  }

  /** Conversely, the pair `key=v` gives `v` for a key without "=". */
  lemma PairValueOf(key: string, v: string)
    requires '=' !in key && |v| > 0
    ensures PairValue(key + "=" + v, key) == Some(v)
  {
    IndexOfAfterPiece(key, '=', v);
    var pair := key + "=" + v;
    assert pair[..|key|] == key && pair[|key| + 1..] == v;
  }

  /** The lookup of `key` in one pair. */
  function Lookup(key: string): string -> Option<string> {
    pair => PairValue(pair, key)
  }

  /** The value the first pair gives through `give`, or "" when none gives
      one. */
  function FirstValue(pairs: seq<string>, give: string -> Option<string>): string
    decreases |pairs|
  {
    if |pairs| == 0 then ""
    else
      match give(pairs[0])
      case Some(v) => v
      case None => FirstValue(pairs[1..], give)
  }

  /** The result is "" when no pair gives a value. */
  lemma {:induction false} NoValueGivesEmpty(pairs: seq<string>, give: string -> Option<string>)
    requires forall i :: 0 <= i < |pairs| ==> give(pairs[i]).None?
    ensures FirstValue(pairs, give) == ""
    decreases |pairs|
  {
    if |pairs| > 0 {
      assert forall i :: 0 <= i < |pairs[1..]| ==> pairs[1..][i] == pairs[i + 1];
      NoValueGivesEmpty(pairs[1..], give);
    }
  }

  /** A non-empty result is the value of a pair that no earlier pair
      preempts; an empty one comes from no pair, unless a pair gives "". */
  lemma {:induction false} FirstValueFound(pairs: seq<string>, give: string -> Option<string>)
    ensures FirstValue(pairs, give) != "" ==>
      exists i :: 0 <= i < |pairs| && give(pairs[i]) == Some(FirstValue(pairs, give))
                  && forall j :: 0 <= j < i ==> give(pairs[j]).None?
    decreases |pairs|
  {
    if |pairs| > 0 && give(pairs[0]).None? && FirstValue(pairs, give) != "" {
      var tail := pairs[1..];
      FirstValueFound(tail, give);
      var i :| 0 <= i < |tail| && give(tail[i]) == Some(FirstValue(tail, give))
               && forall j :: 0 <= j < i ==> give(tail[j]).None?;
      assert pairs[i + 1] == tail[i];
      assert forall j :: 1 <= j < i + 1 ==> pairs[j] == tail[j - 1];
    }
  }

  /** The lookup of a key: "" exactly when no pair gives it a value, and
      otherwise the value of the first pair that does. */
  lemma FirstValueMeaning(pairs: seq<string>, key: string)
    ensures FirstValue(pairs, Lookup(key)) == "" <==> forall i :: 0 <= i < |pairs| ==> PairValue(pairs[i], key).None?
    ensures FirstValue(pairs, Lookup(key)) != "" ==>
      exists i :: 0 <= i < |pairs| && PairValue(pairs[i], key) == Some(FirstValue(pairs, Lookup(key)))
                  && forall j :: 0 <= j < i ==> PairValue(pairs[j], key).None?
  {
    var give := Lookup(key);
    assert forall p :: give(p) == PairValue(p, key);
    if forall i :: 0 <= i < |pairs| ==> PairValue(pairs[i], key).None? {
      NoValueGivesEmpty(pairs, give);
    }
    FirstValueFound(pairs, give);
    if FirstValue(pairs, give) == "" {
      if exists i :: 0 <= i < |pairs| && PairValue(pairs[i], key).Some? {
        var i :| 0 <= i < |pairs| && PairValue(pairs[i], key).Some?;
        forall j | 0 <= j < |pairs| && give(pairs[j]).Some? ensures give(pairs[j]).value != "" {
          PairValueShape(pairs[j], key);
        }
        FirstSomeIsNonEmpty(pairs, give, i);
      }
    }
  }

  /** When every pair that gives a value gives a non-empty one, the
      lookup is non-empty as soon as some pair gives a value. */
  lemma {:induction false} FirstSomeIsNonEmpty(pairs: seq<string>, give: string -> Option<string>, i: nat)
    requires i < |pairs| && give(pairs[i]).Some?
    requires forall j :: 0 <= j < |pairs| && give(pairs[j]).Some? ==> give(pairs[j]).value != ""
    ensures FirstValue(pairs, give) != ""
    decreases |pairs|
  {
    if give(pairs[0]).None? {
      var tail := pairs[1..];
      assert tail[i - 1] == pairs[i];
      assert forall j :: 0 <= j < |tail| ==> tail[j] == pairs[j + 1];
      FirstSomeIsNonEmpty(tail, give, i - 1);
    }
  }

  /** The pairs of a control string: the pieces between its ";"s. */
  function Pairs(config: string): (r: seq<string>)
    ensures Join(";", r) == config
  {
    SplitJoinsBack(config, ';');
    Split(config, ';')
  }

  /** The first value of a list led by `x`. */
  lemma FirstValueCons(x: string, rest: seq<string>, give: string -> Option<string>)
    ensures FirstValue([x] + rest, give) == if give(x).Some? then give(x).value else FirstValue(rest, give)
  {
    assert ([x] + rest)[0] == x && ([x] + rest)[1..] == rest;
  }

  /** A ";" at `endPos` ends the first pair of `rest`. */
  lemma ScanStep(rest: string, give: string -> Option<string>, endPos: int)
    requires endPos == IndexOf(rest, ';') && endPos != -1
    ensures FirstValue(Split(rest, ';'), give)
      == if give(rest[..endPos]).Some? then give(rest[..endPos]).value else FirstValue(Split(rest[endPos + 1..], ';'), give)
  {
    SplitAtFirst(rest, ';');
    FirstValueCons(rest[..endPos], Split(rest[endPos + 1..], ';'), give);
  }

  /** One round of the scan on the text not yet scanned: the pair before
      the ";" at `endPos` either gives the value, or the scan moves past
      that ";". */
  method ScanPair(rest: string, give: string -> Option<string>, endPos: int)
    returns (found: Option<string>, next: string, nextEnd: int)
    requires endPos == IndexOf(rest, ';') && endPos != -1
    ensures found.Some? ==> found.value == FirstValue(Split(rest, ';'), give)
    ensures found.None? ==>
      && |next| < |rest| && nextEnd == IndexOf(next, ';')
      && FirstValue(Split(next, ';'), give) == FirstValue(Split(rest, ';'), give)
  {
    ScanStep(rest, give, endPos);
    next := rest[endPos + 1..];
    found := give(rest[..endPos]);
    nextEnd := IndexOf(next, ';');
  }

  /** The scan of `parseGateway`: each ";"-terminated pair in turn, then
      the trailing pair; an empty control string gives "" at once. The
      scan keeps the text after the last ";" it passed, which is the
      source's `startPos` as a suffix. Returns the first non-empty value
      of `key`. */
  method ParseGateway(config: string, key: string) returns (r: string)
    ensures r == FirstValue(Pairs(config), Lookup(key))
  {
    var give := Lookup(key);
    if |config| == 0 {
      return "";
    }
    var rest := config;
    var endPos := IndexOf(rest, ';');
    while endPos != -1
      invariant endPos == IndexOf(rest, ';')
      invariant FirstValue(Split(rest, ';'), give) == FirstValue(Pairs(config), give)
      decreases |rest|
    {
      var found;
      found, rest, endPos := ScanPair(rest, give, endPos);
      if found.Some? {
        return found.value;
      }
    }
    assert Split(rest, ';') == [rest];
    var last := give(rest);
    r := if last.Some? then last.value else "";
  }

  /** A key whose pair comes with an empty value is passed over, and a
      later pair with the same key is used. */
  lemma EmptyValueSkipped(key: string, v: string, rest: seq<string>)
    requires '=' !in key && |v| > 0
    ensures FirstValue([key + "="] + [key + "=" + v] + rest, Lookup(key)) == v
  {
    var pairs := [key + "="] + [key + "=" + v] + rest;
    PairValueShape(key + "=", key);
    assert pairs[1..] == [key + "=" + v] + rest;
    PairValueOf(key, v);
  }

  /** A key containing "=" is never found: the key is compared with the
      text before the first "=" of a pair. */
  lemma KeyWithEqualsNeverFound(config: string, key: string)
    requires '=' in key
    ensures FirstValue(Pairs(config), Lookup(key)) == ""
  {
    var pairs := Pairs(config);
    forall i | 0 <= i < |pairs| ensures PairValue(pairs[i], key).None? {
      PairValueShape(pairs[i], key);
    }
    FirstValueMeaning(pairs, key);
  }
}

=== FILE: meta_config.dfy ===
/** The policy fields of `Hublink` and how `readMetaJson` updates them
    from the `hublink` object of `/meta.json`. Reading the card and parsing
    the JSON are outside the model: the caller passes the parsed document,
    or `None` when the card is not ready, the file is missing or it does not
    parse, and in all three cases nothing changes. */
module MetaConfig {
  import opened Base
  import opened Text
  import opened MetaPath

  /** The settings `readMetaJson` may change. `advertiseEvery`,
      `advertiseFor` and `reconnectEvery` are seconds. */
  datatype Policy = Policy(
    advertise: string,
    uploadPath: string,
    advertiseEvery: uint32,
    advertiseFor: uint32,
    tryReconnect: bool,
    reconnectAttempts: uint8,
    reconnectEvery: uint32,
    disable: bool)

  /** The positivity the scheduler relies on: every interval, window and
      attempt count is non-zero. */
  predicate Positive(p: Policy) {
    p.advertiseEvery > 0 && p.advertiseFor > 0 && p.reconnectAttempts > 0 && p.reconnectEvery > 0
  }

  /** The JSON library's conversion of a number to `uint32_t`: values that
      do not fit read as 0. */
  function AsUint32(v: JsonScalar): uint32 {
    if 0 <= v.number < TWO_32 then v.number else 0
  }

  /** The JSON library's conversion of a number to `uint8_t`. */
  function AsUint8(v: JsonScalar): uint8 {
    if 0 <= v.number < 0x100 then v.number else 0
  }

  /** `doc["hublink"]`: a missing object behaves as an empty one. */
  function HublinkSection(doc: JsonDoc): Section {
    if "hublink" in doc then doc["hublink"] else map[]
  }

  /** The `upload_path` rule: a non-empty value replaces the path, with a
      "/" put in front when it lacks one. */
  function WithUploadPath(p: Policy, hub: Section): (r: Policy)
    ensures "upload_path" in hub && hub["upload_path"].text != "" ==> StartsWith(r.uploadPath, "/")
    ensures "upload_path" in hub && hub["upload_path"].text != "" ==>
      var path := hub["upload_path"].text;
      r.uploadPath == (if StartsWith(path, "/") then path else "/" + path)
    ensures r.uploadPath != p.uploadPath ==> "upload_path" in hub && hub["upload_path"].text != ""
    ensures r == p.(uploadPath := r.uploadPath)
  {
    if "upload_path" in hub && |hub["upload_path"].text| > 0 then
      var path := hub["upload_path"].text;
      p.(uploadPath := if StartsWith(path, "/") then path else "/" + path)
    else p
  }

  /** The `append_path` rule: a non-empty value extends the upload path
      through `processAppendPath`. */
  function WithAppendPath(p: Policy, doc: JsonDoc, hub: Section): (r: Policy)
    ensures r == p.(uploadPath := r.uploadPath)
    ensures "append_path" in hub && hub["append_path"].text != "" ==>
      r.uploadPath == ProcessAppendPath(doc, p.uploadPath, hub["append_path"].text)
    ensures StartsWith(p.uploadPath, "/") ==> r.uploadPath == "" || StartsWith(r.uploadPath, "/")
  {
    if "append_path" in hub && |hub["append_path"].text| > 0 then
      AppendPathKeepsLeadingSlash(doc, p.uploadPath, hub["append_path"].text);
      p.(uploadPath := ProcessAppendPath(doc, p.uploadPath, hub["append_path"].text))
    else p
  }

  /** The `advertise_every`/`advertise_for` rule: both keys present and
      both values positive, or no change to either. */
  function WithIntervals(p: Policy, hub: Section): (r: Policy)
    ensures r == p.(advertiseEvery := r.advertiseEvery, advertiseFor := r.advertiseFor)
    ensures (r.advertiseEvery, r.advertiseFor) != (p.advertiseEvery, p.advertiseFor) ==>
      && "advertise_every" in hub && "advertise_for" in hub
      && r.advertiseEvery == AsUint32(hub["advertise_every"]) > 0
      && r.advertiseFor == AsUint32(hub["advertise_for"]) > 0
    ensures "advertise_every" in hub && "advertise_for" in hub
            && AsUint32(hub["advertise_every"]) > 0 && AsUint32(hub["advertise_for"]) > 0 ==>
      r.advertiseEvery == AsUint32(hub["advertise_every"]) && r.advertiseFor == AsUint32(hub["advertise_for"])
    ensures p.advertiseEvery > 0 && p.advertiseFor > 0 ==> r.advertiseEvery > 0 && r.advertiseFor > 0
  {
    if "advertise_every" in hub && "advertise_for" in hub
       && AsUint32(hub["advertise_every"]) > 0 && AsUint32(hub["advertise_for"]) > 0
    then p.(advertiseEvery := AsUint32(hub["advertise_every"]), advertiseFor := AsUint32(hub["advertise_for"]))
    else p
  }

  /** The retry rules: `try_reconnect` is taken as given, the attempt count
      and the interval only when positive. */
  function WithRetry(p: Policy, hub: Section): (r: Policy)
    ensures r == p.(tryReconnect := r.tryReconnect, reconnectAttempts := r.reconnectAttempts,
                    reconnectEvery := r.reconnectEvery)
    ensures r.tryReconnect == if "try_reconnect" in hub then hub["try_reconnect"].flag else p.tryReconnect
    ensures r.reconnectAttempts != p.reconnectAttempts ==>
      "reconnect_attempts" in hub && r.reconnectAttempts == AsUint8(hub["reconnect_attempts"]) > 0
    ensures r.reconnectEvery != p.reconnectEvery ==>
      "reconnect_every" in hub && r.reconnectEvery == AsUint32(hub["reconnect_every"]) > 0
    ensures "reconnect_attempts" in hub && AsUint8(hub["reconnect_attempts"]) > 0 ==>
      r.reconnectAttempts == AsUint8(hub["reconnect_attempts"])
    ensures "reconnect_every" in hub && AsUint32(hub["reconnect_every"]) > 0 ==>
      r.reconnectEvery == AsUint32(hub["reconnect_every"])
    ensures p.reconnectAttempts > 0 ==> r.reconnectAttempts > 0
    ensures p.reconnectEvery > 0 ==> r.reconnectEvery > 0
  {
    var p1 := if "try_reconnect" in hub then p.(tryReconnect := hub["try_reconnect"].flag) else p;
    var p2 :=
      if "reconnect_attempts" in hub && AsUint8(hub["reconnect_attempts"]) > 0
      then p1.(reconnectAttempts := AsUint8(hub["reconnect_attempts"]))
      else p1;
    if "reconnect_every" in hub && AsUint32(hub["reconnect_every"]) > 0
    then p2.(reconnectEvery := AsUint32(hub["reconnect_every"]))
    else p2
  }

  /** The upload path after both path rules. */
  function WithPaths(p: Policy, doc: JsonDoc, hub: Section): (r: Policy)
    ensures r == p.(uploadPath := r.uploadPath)
    ensures "upload_path" in hub && hub["upload_path"].text != "" ==>
      r.uploadPath == "" || StartsWith(r.uploadPath, "/")
    ensures "upload_path" in hub && hub["upload_path"].text != "" && "append_path" !in hub ==>
      StartsWith(r.uploadPath, "/")
  {
    WithAppendPath(WithUploadPath(p, hub), doc, hub)
  }

  /** What a `hublink` object asks for, key by key: a present `advertise`
      and `try_reconnect` are taken as given; a non-empty `upload_path`
      replaces the path (with a "/" in front when missing) and a non-empty
      `append_path` then extends it through `processAppendPath`; the two
      advertising numbers are taken together when both are positive, and
      the retry numbers each when positive. */
  predicate Adopted(p: Policy, doc: JsonDoc, r: Policy) {
    var hub := HublinkSection(doc);
    var base :=
      if "upload_path" in hub && hub["upload_path"].text != "" then
        var path := hub["upload_path"].text;
        if StartsWith(path, "/") then path else "/" + path
      else p.uploadPath;
    && r.advertise == (if "advertise" in hub then hub["advertise"].text else p.advertise)
    && r.tryReconnect == (if "try_reconnect" in hub then hub["try_reconnect"].flag else p.tryReconnect)
    && r.uploadPath == (if "append_path" in hub && hub["append_path"].text != ""
                        then ProcessAppendPath(doc, base, hub["append_path"].text) else base)
    && ("advertise_every" in hub && "advertise_for" in hub
        && AsUint32(hub["advertise_every"]) > 0 && AsUint32(hub["advertise_for"]) > 0 ==>
          r.advertiseEvery == AsUint32(hub["advertise_every"]) && r.advertiseFor == AsUint32(hub["advertise_for"]))
    && ("reconnect_attempts" in hub && AsUint8(hub["reconnect_attempts"]) > 0 ==>
          r.reconnectAttempts == AsUint8(hub["reconnect_attempts"]))
    && ("reconnect_every" in hub && AsUint32(hub["reconnect_every"]) > 0 ==>
          r.reconnectEvery == AsUint32(hub["reconnect_every"]))
  }

  /** `readMetaJson`, from the parsed `/meta.json` (if any) to the new
      policy. The result keeps every interval positive that was positive,
      moves `advertise_every` and `advertise_for` only together and only to
      positive values, moves the retry settings only to positive values,
      and leaves a non-empty configured upload path starting with "/"
      (unless sanitising an appended path removed it altogether). */
  function ReadMetaJson(p: Policy, file: Option<JsonDoc>): (r: Policy)
    ensures file.None? ==> r == p
    ensures Positive(p) ==> Positive(r)
    ensures (r.advertiseEvery, r.advertiseFor) != (p.advertiseEvery, p.advertiseFor) ==>
      && file.Some?
      && var hub := HublinkSection(file.value);
      && "advertise_every" in hub && "advertise_for" in hub
      && r.advertiseEvery == AsUint32(hub["advertise_every"]) > 0
      && r.advertiseFor == AsUint32(hub["advertise_for"]) > 0
    ensures r.reconnectAttempts != p.reconnectAttempts ==>
      file.Some? && "reconnect_attempts" in HublinkSection(file.value)
      && r.reconnectAttempts == AsUint8(HublinkSection(file.value)["reconnect_attempts"]) > 0
    ensures r.reconnectEvery != p.reconnectEvery ==>
      file.Some? && "reconnect_every" in HublinkSection(file.value)
      && r.reconnectEvery == AsUint32(HublinkSection(file.value)["reconnect_every"]) > 0
    ensures file.Some? && "upload_path" in HublinkSection(file.value)
            && HublinkSection(file.value)["upload_path"].text != "" ==>
      r.uploadPath == "" || StartsWith(r.uploadPath, "/")
    ensures file.Some? && "upload_path" in HublinkSection(file.value)
            && HublinkSection(file.value)["upload_path"].text != ""
            && "append_path" !in HublinkSection(file.value) ==>
      StartsWith(r.uploadPath, "/")
    ensures file.Some? ==>
      r.disable == if "disable" in HublinkSection(file.value) then HublinkSection(file.value)["disable"].flag else p.disable
  {
    match file
    case None => p
    case Some(doc) =>
      var hub := HublinkSection(doc);
      var named := if "advertise" in hub then p.(advertise := hub["advertise"].text) else p;
      var paths := WithPaths(named, doc, hub);
      var retry := WithRetry(WithIntervals(paths, hub), hub);
      if "disable" in hub then retry.(disable := hub["disable"].flag) else retry
  }

  /** `readMetaJson` takes what the `hublink` object asks for: the
      "changes only if" clauses of `ReadMetaJson` are the other half. */
  lemma ReadMetaJsonAdopts(p: Policy, doc: JsonDoc)
    ensures Adopted(p, doc, ReadMetaJson(p, Some(doc)))
  {
    var hub := HublinkSection(doc);
    var named := if "advertise" in hub then p.(advertise := hub["advertise"].text) else p;
    var paths := WithPaths(named, doc, hub);
    var upload := WithUploadPath(named, hub);
    assert paths == WithAppendPath(upload, doc, hub);
    var intervals := WithIntervals(paths, hub);
    var retry := WithRetry(intervals, hub);
  }

  /** A document without a `hublink` object changes nothing. */
  lemma NoHublinkSectionNoChange(p: Policy, doc: JsonDoc)
    requires "hublink" !in doc
    ensures ReadMetaJson(p, Some(doc)) == p
  {
  }

  /** Reading the same document a second time changes nothing more, as
      long as the upload path does not depend on the one before: either the
      document sets a non-empty `upload_path` or it has no `append_path`
      to extend it with. */
  lemma ReadMetaJsonSettles(p: Policy, doc: JsonDoc)
    requires var hub := HublinkSection(doc);
      ("upload_path" in hub && hub["upload_path"].text != "") || "append_path" !in hub
    ensures ReadMetaJson(ReadMetaJson(p, Some(doc)), Some(doc)) == ReadMetaJson(p, Some(doc))
  {
    var once := ReadMetaJson(p, Some(doc));
    var twice := ReadMetaJson(once, Some(doc));
    ReadMetaJsonAdopts(p, doc);
    ReadMetaJsonAdopts(once, doc);
    assert twice.uploadPath == once.uploadPath;
    assert (twice.advertiseEvery, twice.advertiseFor) == (once.advertiseEvery, once.advertiseFor);
    assert twice.reconnectAttempts == once.reconnectAttempts;
    assert twice.reconnectEvery == once.reconnectEvery;
  }
}

=== FILE: meta_path.dfy ===
/** Upload-path handling of `Hublink`: `sanitizePath`, the `parent:child`
    lookup `getNestedJsonValue`, and `processAppendPath`, which extends the
    configured upload path with values looked up in the configuration
    document.

    A parsed JSON document is represented by the part of it these functions
    look at: its top-level objects, each a map from member names to scalar
    values. A scalar carries the three views the JSON library gives of it:
    as a string, as a number and as a boolean. */
module MetaPath {
  import opened Text

  datatype JsonScalar = JsonScalar(text: string, number: int, flag: bool)

  /** One top-level JSON object. */
  type Section = map<string, JsonScalar>

  /** A parsed document: its top-level objects by name. A top-level member
      that is not an object has no entry, as `containsKey` on it finds no
      children. */
  type JsonDoc = map<string, Section>

  // ---------------------------------------------------------------------
  // sanitizePath

  /** The characters `sanitizePath` keeps. */
  predicate PathChar(c: char) {
    IsAlnum(c) || c == '-' || c == '_' || c == '+' || c == '.' || c == '/'
  }

  predicate AllPathChars(s: string) {
    forall i :: 0 <= i < |s| ==> PathChar(s[i])
  }

  /** Whether `s` contains "//". */
  predicate HasDoubleSlash(s: string) {
    |s| >= 2 && ((s[0] == '/' && s[1] == '/') || HasDoubleSlash(s[1..]))
  }

  predicate EndsInSlash(s: string) {
    |s| > 0 && s[|s| - 1] == '/'
  }

  /** The first loop of `sanitizePath`: keep only the allowed characters. */
  function KeepPathChars(s: string): (r: string)
    ensures AllPathChars(r)
    ensures |r| <= |s|
  {
    if |s| == 0 then ""
    else if PathChar(s[0]) then [s[0]] + KeepPathChars(s[1..])
    else KeepPathChars(s[1..])
  }

  /** One call of `String::replace("//", "/")`: every occurrence of "//",
      found from left to right without overlap, becomes "/". */
  function ReplaceDoubleSlash(s: string): (r: string)
    ensures |r| <= |s|
    ensures HasDoubleSlash(s) ==> |r| < |s|
    ensures AllPathChars(s) ==> AllPathChars(r)
    ensures |s| > 0 ==> |r| > 0 && r[0] == s[0]
  {
    if |s| < 2 then s
    else if s[0] == '/' && s[1] == '/' then "/" + ReplaceDoubleSlash(s[2..])
    else [s[0]] + ReplaceDoubleSlash(s[1..])
  }

  /** The second loop of `sanitizePath`: replace "//" by "/" while any is left. */
  function CollapseSlashes(s: string): (r: string)
    ensures !HasDoubleSlash(r)
    ensures AllPathChars(s) ==> AllPathChars(r)
    decreases |s|
  {
    if HasDoubleSlash(s) then CollapseSlashes(ReplaceDoubleSlash(s)) else s
  }

  /** The third loop of `sanitizePath`: drop trailing slashes. */
  function StripTrailingSlashes(s: string): (r: string)
    ensures |r| <= |s| && r == s[..|r|]
    ensures !EndsInSlash(r)
    ensures forall i :: |r| <= i < |s| ==> s[i] == '/'
  {
    if EndsInSlash(s) then StripTrailingSlashes(s[..|s| - 1]) else s
  }

  lemma {:induction false} PrefixKeepsNoDoubleSlash(s: string, n: nat)
    requires n <= |s|
    requires !HasDoubleSlash(s)
    ensures !HasDoubleSlash(s[..n])
    decreases n
  {
    if n >= 2 {
      assert s[..n][1..] == s[1..][..n - 1];
      PrefixKeepsNoDoubleSlash(s[1..], n - 1);
    }
  }

  /** `sanitizePath`: the result uses only letters, digits and `- _ + . /`,
      never contains "//" and never ends with "/". */
  function SanitizePath(path: string): (r: string)
    ensures AllPathChars(r)
    ensures !HasDoubleSlash(r)
    ensures !EndsInSlash(r)
  {
    var collapsed := CollapseSlashes(KeepPathChars(path));
    var r := StripTrailingSlashes(collapsed);
    PrefixKeepsNoDoubleSlash(collapsed, |r|);
    r
  }

  // ---------------------------------------------------------------------
  // A one-pass reference for the slash collapsing

  /** Drops every slash that is followed by another slash. */
  function Squeeze(s: string): string
  {
    if |s| <= 1 then s
    else if s[0] == '/' && s[1] == '/' then Squeeze(s[1..])
    else [s[0]] + Squeeze(s[1..])
  }

  lemma {:induction false} SqueezeHead(s: string)
    requires |s| > 0
    ensures |Squeeze(s)| > 0 && Squeeze(s)[0] == s[0]
  {
    if |s| > 1 && s[0] == '/' && s[1] == '/' {
      SqueezeHead(s[1..]);
    }
  }

  lemma {:induction false} SqueezeNoDoubleSlash(s: string)
    ensures !HasDoubleSlash(Squeeze(s))
  {
    if |s| > 1 {
      SqueezeNoDoubleSlash(s[1..]);
      if !(s[0] == '/' && s[1] == '/') {
        var r := Squeeze(s);
        SqueezeHead(s[1..]);
        assert r[1..] == Squeeze(s[1..]);
      }
    }
  }

  lemma {:induction false} SqueezeFixesClean(s: string)
    requires !HasDoubleSlash(s)
    ensures Squeeze(s) == s
  {
    if |s| > 1 {
      SqueezeFixesClean(s[1..]);
    }
  }

  /** Squeezing `[c] + a` depends on `a` only through its first character
      and its squeezed form. */
  lemma SqueezeCons(c: char, a: string, b: string)
    requires Squeeze(a) == Squeeze(b)
    requires |a| > 0 && |b| > 0 && a[0] == b[0]
    ensures Squeeze([c] + a) == Squeeze([c] + b)
  {
    assert ([c] + a)[1..] == a;
    assert ([c] + b)[1..] == b;
  }

  lemma {:induction false} SqueezeReplace(s: string)
    ensures Squeeze(ReplaceDoubleSlash(s)) == Squeeze(s)
    decreases |s|
  {
    if |s| >= 2 {
      if s[0] == '/' && s[1] == '/' {
        var t := s[2..];
        if |t| == 0 {
          assert ReplaceDoubleSlash(s) == "/";
        } else {
          SqueezeReplace(t);
          SqueezeCons('/', ReplaceDoubleSlash(t), t);
          assert s[1..] == "/" + t;
        }
      } else {
        SqueezeReplace(s[1..]);
        SqueezeCons(s[0], ReplaceDoubleSlash(s[1..]), s[1..]);
        assert s == [s[0]] + s[1..];
      }
    }
  }

  /** The `while (indexOf("//") != -1) replace("//", "/")` loop computes the
      one-pass squeeze. */
  lemma {:induction false} CollapseIsSqueeze(s: string)
    ensures CollapseSlashes(s) == Squeeze(s)
    decreases |s|
  {
    if HasDoubleSlash(s) {
      CollapseIsSqueeze(ReplaceDoubleSlash(s));
      SqueezeReplace(s);
    } else {
      SqueezeFixesClean(s);
    }
  }

  /** Doubling a slash anywhere does not change the squeezed form. */
  lemma {:induction false} SqueezeDoubledSlash(x: string, y: string)
    ensures Squeeze(x + "//" + y) == Squeeze(x + "/" + y)
    decreases |x|
  {
    if |x| == 0 {
      assert x + "//" + y == "//" + y;
      assert ("//" + y)[1..] == "/" + y;
      assert x + "/" + y == "/" + y;
    } else {
      SqueezeDoubledSlash(x[1..], y);
      assert x + "//" + y == [x[0]] + (x[1..] + "//" + y);
      assert x + "/" + y == [x[0]] + (x[1..] + "/" + y);
      SqueezeCons(x[0], x[1..] + "//" + y, x[1..] + "/" + y);
    }
  }

  lemma {:induction false} KeepPathCharsAppend(a: string, b: string)
    ensures KeepPathChars(a + b) == KeepPathChars(a) + KeepPathChars(b)
    decreases |a|
  {
    if |a| > 0 {
      assert (a + b)[1..] == a[1..] + b;
      KeepPathCharsAppend(a[1..], b);
    } else {
      assert a + b == b;
    }
  }

  lemma {:induction false} KeepPathCharsClean(s: string)
    requires AllPathChars(s)
    ensures KeepPathChars(s) == s
    decreases |s|
  {
    if |s| > 0 {
      KeepPathCharsClean(s[1..]);
    }
  }

  /** `sanitizePath` never distinguishes "//" from "/". */
  lemma SanitizeDoubledSlash(x: string, y: string)
    ensures SanitizePath(x + "//" + y) == SanitizePath(x + "/" + y)
  {
    KeepPathCharsAppend(x + "//", y);
    KeepPathCharsAppend(x, "//");
    KeepPathCharsAppend(x + "/", y);
    KeepPathCharsAppend(x, "/");
    var kx, ky := KeepPathChars(x), KeepPathChars(y);
    assert KeepPathChars("//") == "//";
    assert KeepPathChars("/") == "/";
    assert KeepPathChars(x + "//" + y) == kx + "//" + ky;
    assert KeepPathChars(x + "/" + y) == kx + "/" + ky;
    CollapseIsSqueeze(kx + "//" + ky);
    CollapseIsSqueeze(kx + "/" + ky);
    SqueezeDoubledSlash(kx, ky);
  }

  /** Applying `sanitizePath` twice equals applying it once. */
  lemma SanitizeIdempotent(path: string)
    ensures SanitizePath(SanitizePath(path)) == SanitizePath(path)
  {
    var r := SanitizePath(path);
    KeepPathCharsClean(r);
  }

  lemma KeepPathCharsHeadSlash(s: string)
    requires |s| > 0 && s[0] == '/'
    ensures |KeepPathChars(s)| > 0 && KeepPathChars(s)[0] == '/'
  {
  }

  /** A path that starts with "/" sanitises to "" or to a path that still
      starts with "/". */
  lemma SanitizeKeepsLeadingSlash(path: string)
    requires StartsWith(path, "/")
    ensures SanitizePath(path) == "" || StartsWith(SanitizePath(path), "/")
  {
    var k := KeepPathChars(path);
    KeepPathCharsHeadSlash(path);
    CollapseIsSqueeze(k);
    SqueezeHead(k);
  }

  // ---------------------------------------------------------------------
  // getNestedJsonValue

  /** `getNestedJsonValue`: for a path "parent:child" (split at the first
      colon), the trimmed string value of member `child` of top-level object
      `parent`; "" when there is no colon or no such member. */
  function NestedValue(doc: JsonDoc, path: string): (r: string)
    ensures ':' !in path ==> r == ""
    ensures r != "" ==>
      var colon := IndexOf(path, ':');
      && 0 <= colon
      && path[..colon] in doc
      && path[colon + 1..] in doc[path[..colon]]
      && r == Trim(doc[path[..colon]][path[colon + 1..]].text)
    ensures var colon := IndexOf(path, ':');
      0 <= colon && path[..colon] in doc && path[colon + 1..] in doc[path[..colon]] ==>
      r == Trim(doc[path[..colon]][path[colon + 1..]].text)
    ensures r == [] || (!IsSpace(r[0]) && !IsSpace(r[|r| - 1]))
  {
    var colon := IndexOf(path, ':');
    if colon == -1 then ""
    else
      var parent := path[..colon];
      var child := path[colon + 1..];
      if parent in doc && child in doc[parent] then Trim(doc[parent][child].text)
      else ""
  }

  // ---------------------------------------------------------------------
  // processAppendPath

  /** The segments the loop of `processAppendPath` visits: the pieces of
      `appendPath` between slashes, without an empty piece after a final
      slash. */
  function AppendSegments(appendPath: string): (r: seq<string>)
    ensures forall i :: 0 <= i < |r| ==> '/' !in r[i]
    decreases |appendPath|
  {
    if |appendPath| == 0 then []
    else
      var slash := IndexOf(appendPath, '/');
      if slash == -1 then [appendPath]
      else [appendPath[..slash]] + AppendSegments(appendPath[slash + 1..])
  }

  /** The segments, joined back with slashes, give the append path again
      (up to its final slash). */
  lemma AppendSegmentsStep(appendPath: string, slash: int)
    requires slash == IndexOf(appendPath, '/') && slash != -1
    ensures appendPath == appendPath[..slash] + "/" + appendPath[slash + 1..]
    ensures AppendSegments(appendPath) == [appendPath[..slash]] + AppendSegments(appendPath[slash + 1..])
  {
    assert |appendPath| > 0 && appendPath[slash] == '/';
    assert appendPath == appendPath[..slash] + [appendPath[slash]] + appendPath[slash + 1..];
  }

  lemma EndsInSlashSuffix(s: string, k: nat)
    requires k <= |s|
    ensures |s[k..]| > 0 ==> EndsInSlash(s[k..]) == EndsInSlash(s)
  {
  }

  lemma JoinSlashTail(head: string, segs: seq<string>, tail: string, rest: string)
    requires |segs| > 0
    requires Join("/", segs) + tail == rest
    ensures Join("/", [head] + segs) + tail == head + "/" + rest
  {
    JoinCons("/", head, segs);
  }

  lemma {:induction false} AppendSegmentsJoin(appendPath: string)
    ensures Join("/", AppendSegments(appendPath)) + (if EndsInSlash(appendPath) then "/" else "") == appendPath
    decreases |appendPath|
  {
    if |appendPath| > 0 {
      var slash := IndexOf(appendPath, '/');
      if slash != -1 {
        var head := appendPath[..slash];
        var rest := appendPath[slash + 1..];
        AppendSegmentsStep(appendPath, slash);
        EndsInSlashSuffix(appendPath, slash + 1);
        AppendSegmentsJoin(rest);
        if |rest| == 0 {
          assert AppendSegments(rest) == [];
          assert appendPath[|appendPath| - 1] == '/';
        } else {
          JoinSlashTail(head, AppendSegments(rest), if EndsInSlash(rest) then "/" else "", rest);
        }
      }
    }
  }

  /** The loop body of `processAppendPath`, over the remaining segments. */
  function AppendValues(doc: JsonDoc, path: string, segments: seq<string>): string
    decreases |segments|
  {
    if |segments| == 0 then path
    else
      var value := NestedValue(doc, segments[0]);
      var next :=
        if |value| == 0 then path
        else if EndsWith(path, "/") then path + value
        else path + "/" + value;
      AppendValues(doc, next, segments[1..])
  }

  /** `processAppendPath`. */
  function ProcessAppendPath(doc: JsonDoc, basePath: string, appendPath: string): (r: string)
    ensures AllPathChars(r) && !HasDoubleSlash(r) && !EndsInSlash(r)
  {
    SanitizePath(AppendValues(doc, basePath, AppendSegments(appendPath)))
  }

  /** The non-empty looked-up values of the segments, in order. */
  function FoundValues(doc: JsonDoc, segments: seq<string>): (r: seq<string>)
    ensures forall i :: 0 <= i < |r| ==> r[i] != ""
  {
    if |segments| == 0 then []
    else
      var value := NestedValue(doc, segments[0]);
      (if value == "" then [] else [value]) + FoundValues(doc, segments[1..])
  }

  /** Each value preceded by one slash. */
  function SlashPrefixed(values: seq<string>): string
  {
    if |values| == 0 then "" else "/" + values[0] + SlashPrefixed(values[1..])
  }

  lemma AppendValuesUnfold(doc: JsonDoc, path: string, segments: seq<string>)
    requires |segments| > 0
    ensures var value := NestedValue(doc, segments[0]);
      && AppendValues(doc, path, segments)
         == AppendValues(doc,
              if |value| == 0 then path
              else if EndsWith(path, "/") then path + value
              else path + "/" + value,
              segments[1..])
      && FoundValues(doc, segments)
         == (if value == "" then [] else [value]) + FoundValues(doc, segments[1..])
  {
  }

  lemma SlashPrefixedCons(value: string, rest: seq<string>)
    ensures SlashPrefixed([value] + rest) == "/" + value + SlashPrefixed(rest)
  {
    assert ([value] + rest)[1..] == rest;
  }

  /** Appending after a path that already ends in "/" is the same, once
      sanitised, as appending another slash first. */
  lemma SanitizeAfterSlash(path: string, tail: string)
    requires EndsWith(path, "/")
    ensures SanitizePath(path + tail) == SanitizePath(path + ("/" + tail))
  {
    var p0 := path[..|path| - 1];
    assert path == p0 + "/";
    assert path + tail == p0 + "/" + tail;
    assert path + ("/" + tail) == p0 + "//" + tail;
    SanitizeDoubledSlash(p0, tail);
  }

  /** The step of `AppendValuesReference` for a segment that has a value. */
  lemma AppendValuesFoundStep(path: string, value: string, rest: seq<string>, next: string, appended: string)
    requires value != ""
    requires next == if EndsWith(path, "/") then path + value else path + "/" + value
    requires SanitizePath(appended) == SanitizePath(next + SlashPrefixed(rest))
    ensures SanitizePath(appended) == SanitizePath(path + SlashPrefixed([value] + rest))
  {
    SlashPrefixedCons(value, rest);
    var tail := value + SlashPrefixed(rest);
    assert SlashPrefixed([value] + rest) == "/" + tail;
    if EndsWith(path, "/") {
      assert next + SlashPrefixed(rest) == path + tail;
      SanitizeAfterSlash(path, tail);
    } else {
      assert next + SlashPrefixed(rest) == path + ("/" + tail);
    }
  }

  lemma {:induction false} AppendValuesReference(doc: JsonDoc, path: string, segments: seq<string>)
    ensures SanitizePath(AppendValues(doc, path, segments))
         == SanitizePath(path + SlashPrefixed(FoundValues(doc, segments)))
    decreases |segments|
  {
    if |segments| == 0 {
      assert path + SlashPrefixed([]) == path;
    } else {
      var value := NestedValue(doc, segments[0]);
      var rest := FoundValues(doc, segments[1..]);
      AppendValuesUnfold(doc, path, segments);
      if |value| == 0 {
        assert FoundValues(doc, segments) == rest by {
          assert [] + rest == rest;
        }
        AppendValuesReference(doc, path, segments[1..]);
      } else {
        var next := if EndsWith(path, "/") then path + value else path + "/" + value;
        AppendValuesReference(doc, next, segments[1..]);
        AppendValuesFoundStep(path, value, rest, next, AppendValues(doc, next, segments[1..]));
      }
    }
  }

  /** `processAppendPath` appends each non-empty looked-up value after
      exactly one slash and sanitises the result. */
  lemma ProcessAppendPathReference(doc: JsonDoc, basePath: string, appendPath: string)
    ensures ProcessAppendPath(doc, basePath, appendPath)
         == SanitizePath(basePath + SlashPrefixed(FoundValues(doc, AppendSegments(appendPath))))
  {
    AppendValuesReference(doc, basePath, AppendSegments(appendPath));
  }

  lemma PrefixTransitive(a: string, b: string, c: string)
    requires StartsWith(a, b) && StartsWith(b, c)
    ensures StartsWith(a, c)
  {
    assert a[..|c|] == a[..|b|][..|c|];
  }

  lemma {:induction false} AppendValuesExtends(doc: JsonDoc, path: string, segments: seq<string>)
    ensures StartsWith(AppendValues(doc, path, segments), path)
    decreases |segments|
  {
    if |segments| > 0 {
      var value := NestedValue(doc, segments[0]);
      var next :=
        if |value| == 0 then path
        else if EndsWith(path, "/") then path + value
        else path + "/" + value;
      AppendValuesUnfold(doc, path, segments);
      AppendValuesExtends(doc, next, segments[1..]);
      assert next[..|path|] == path;
      PrefixTransitive(AppendValues(doc, next, segments[1..]), next, path);
    } else {
      assert path[..|path|] == path;
    }
  }

  /** An upload path that starts with "/" still does after
      `processAppendPath`, unless sanitising left nothing at all. */
  lemma AppendPathKeepsLeadingSlash(doc: JsonDoc, basePath: string, appendPath: string)
    ensures StartsWith(basePath, "/") ==>
      var r := ProcessAppendPath(doc, basePath, appendPath);
      r == "" || StartsWith(r, "/")
  {
    if StartsWith(basePath, "/") {
      var appended := AppendValues(doc, basePath, AppendSegments(appendPath));
      AppendValuesExtends(doc, basePath, AppendSegments(appendPath));
      SanitizeKeepsLeadingSlash(appended);
    }
  }

  /** A segment without a colon, or whose key is missing from the document,
      contributes nothing. */
  lemma SegmentWithoutValueSkipped(doc: JsonDoc, basePath: string, segment: string, rest: string)
    requires '/' !in segment
    requires ':' !in segment || (var c := IndexOf(segment, ':'); segment[..c] !in doc || segment[c + 1..] !in doc[segment[..c]])
    ensures ProcessAppendPath(doc, basePath, segment + "/" + rest) == ProcessAppendPath(doc, basePath, rest)
  {
    var ap := segment + "/" + rest;
    assert IndexOf(ap, '/') == |segment| by {
      assert ap[|segment|] == '/';
      assert ap[..|segment|] == segment;
    }
    assert ap[..|segment|] == segment;
    assert ap[|segment| + 1..] == rest;
    assert AppendSegments(ap) == [segment] + AppendSegments(rest);
    assert NestedValue(doc, segment) == "";
    assert ([segment] + AppendSegments(rest))[1..] == AppendSegments(rest);
  }
}

=== FILE: meta_upload.dfy ===
/** The gateway's upload of a new `/meta.json`, as `Hublink` ingests it:
    numbered chunks 1, 2, 3, ... are staged in a temporary file, and a
    chunk with id 0 and data "EOF" commits the staged text (after checking
    that it is JSON with a `hublink` key) by backing up the old file,
    renaming the temporary file into place and deleting the backup.

    The card is a map from path to contents. What the card driver reports
    (card started, file opened, bytes written, renames done) and the clock
    reading are inputs, collected in a `Driver` record per call. The JSON
    check is the abstract predicate `valid`. */
module MetaUpload {
  import opened Base

  const META_JSON_PATH: string := "/meta.json"
  /** `String(META_JSON_PATH) + ".bak"`. */
  const BACKUP_PATH: string := "/meta.json.bak"

  type Card = map<string, string>

  /** The upload fields of `Hublink`: `metaJsonTransferInProgress`,
      `lastMetaJsonId`, `metaJsonLastChunkTime`, `tempMetaJsonPath`, whether
      `tempMetaJsonFile` is an open handle, and the card. */
  datatype Ingest = Ingest(
    inProgress: bool,
    lastId: uint32,
    lastChunkTime: uint32,
    tempPath: string,
    tempOpen: bool,
    card: Card)

  /** What the card driver and the clock report during one call. */
  datatype Driver = Driver(
    now: uint32,
    sdReady: bool,
    openOk: bool,
    writeOk: bool,
    readOk: bool,
    backupOk: bool,
    commitOk: bool)

  /** The text staged so far (an absent file reads as nothing). */
  function Staged(st: Ingest): string {
    if st.tempPath in st.card then st.card[st.tempPath] else ""
  }

  /** The committed `/meta.json`, if any. */
  function MetaFile(card: Card): Option<string> {
    if META_JSON_PATH in card then Some(card[META_JSON_PATH]) else None
  }

  /** `SD.remove(path)` after `SD.exists(path)`. */
  function Remove(card: Card, path: string): (r: Card)
    ensures path !in r
    ensures forall p :: p != path ==> (p in r <==> p in card) && (p in r ==> r[p] == card[p])
  {
    card - {path}
  }

  /** `SD.rename(from, to)` when the driver reports success. */
  function Rename(card: Card, from: string, to: string): (r: Card)
    requires from in card && from != to
    ensures from !in r && to in r && r[to] == card[from]
    ensures forall p :: p != from && p != to ==> (p in r <==> p in card) && (p in r ==> r[p] == card[p])
  {
    Remove(card, from)[to := card[from]]
  }

  /** The state every reachable configuration keeps: a transfer in progress
      has its temporary file open and present on the card. */
  predicate Consistent(st: Ingest) {
    st.inProgress ==> st.tempOpen && st.tempPath in st.card
  }

  /** The temporary path is neither of the two paths the commit renames to
      (otherwise deleting the temporary file would delete the configuration). */
  predicate PathsApart(st: Ingest) {
    st.tempPath != META_JSON_PATH && st.tempPath != BACKUP_PATH
  }

  /** `cleanupMetaJsonTransfer`: closes and deletes the temporary file and
      forgets the transfer, including the temporary path itself. */
  function Cleanup(st: Ingest): (r: Ingest)
    ensures !r.inProgress && !r.tempOpen && r.lastId == 0 && r.lastChunkTime == 0
    ensures r.tempPath == ""
    ensures r.card == Remove(st.card, st.tempPath)
    ensures Consistent(r)
  {
    Ingest(false, 0, 0, "", false, Remove(st.card, st.tempPath))
  }

  /** `beginMetaJsonTransfer`: with the card started, replaces the temporary
      file by an empty one and starts a transfer at id 0. */
  function Begin(st: Ingest, drv: Driver): (r: (Ingest, bool))
    ensures !drv.sdReady ==> r == (st, false)
    ensures r.1 <==> drv.sdReady && drv.openOk
    ensures r.1 ==> r.0.inProgress && r.0.lastId == 0 && r.0.lastChunkTime == drv.now && Staged(r.0) == ""
    ensures !r.1 ==> r.0.inProgress == st.inProgress && r.0.lastId == st.lastId
    ensures r.0.tempPath == st.tempPath
    ensures forall p :: p != st.tempPath ==> (p in r.0.card <==> p in st.card) && (p in r.0.card ==> r.0.card[p] == st.card[p])
    ensures r.1 ==> Consistent(r.0)
  {
    if !drv.sdReady then (st, false)
    else
      var card := Remove(st.card, st.tempPath);
      if !drv.openOk then (st.(card := card, tempOpen := false), false)
      else (st.(card := card[st.tempPath := ""], tempOpen := true, inProgress := true,
                lastId := 0, lastChunkTime := drv.now), true)
  }

  /** `processMetaJsonChunk`: appends the data to the temporary file; a
      short write abandons the transfer. */
  function Process(st: Ingest, data: string, drv: Driver): (r: (Ingest, bool))
    ensures !st.inProgress || !st.tempOpen ==> r == (st, false)
    ensures st.inProgress && st.tempOpen && !drv.writeOk ==> r == (Cleanup(st), false)
    ensures r.1 <==> st.inProgress && st.tempOpen && drv.writeOk
    ensures r.1 ==> r.0 == st.(card := st.card[st.tempPath := Staged(st) + data], lastChunkTime := drv.now)
  {
    if !st.inProgress || !st.tempOpen then (st, false)
    else if !drv.writeOk then (Cleanup(st), false)
    else (st.(card := st.card[st.tempPath := Staged(st) + data], lastChunkTime := drv.now), true)
  }

  /** The backup step: an existing `/meta.json` is renamed to the backup
      path, after deleting an old backup. */
  function BackUp(card: Card, drv: Driver): (r: Card)
    ensures META_JSON_PATH in card && drv.backupOk ==>
      META_JSON_PATH !in r && BACKUP_PATH in r && r[BACKUP_PATH] == card[META_JSON_PATH]
    ensures forall p :: p != META_JSON_PATH && p != BACKUP_PATH ==>
      (p in r <==> p in card) && (p in r ==> r[p] == card[p])
    ensures MetaFile(r) != MetaFile(card) ==> drv.backupOk
  {
    if META_JSON_PATH !in card then card
    else
      var cleared := Remove(card, BACKUP_PATH);
      if drv.backupOk then Rename(cleared, META_JSON_PATH, BACKUP_PATH) else cleared
  }

  /** `finalizeMetaJsonTransfer`: closes the temporary file, reads it back
      and checks it, then backs up `/meta.json`, renames the temporary file
      into its place and deletes the backup. Every failure after the close
      cleans up; a failed final rename does not put the backup back. */
  function Finalize(st: Ingest, drv: Driver, valid: string -> bool): (r: (Ingest, bool))
    ensures !st.inProgress || !st.tempOpen ==> r == (st, false)
    ensures r.1 ==> st.inProgress && valid(Staged(st)) && !r.0.inProgress
    ensures PathsApart(st) && MetaFile(r.0.card) != MetaFile(st.card) ==> st.inProgress && valid(Staged(st))
    ensures !r.1 && st.inProgress && st.tempOpen ==> !r.0.inProgress && r.0.tempPath == ""
    ensures r.1 ==> drv.readOk && drv.commitOk
    ensures r.1 && PathsApart(st) ==>
      && MetaFile(r.0.card) == Some(Staged(st))
      && BACKUP_PATH !in r.0.card && st.tempPath !in r.0.card
      && forall p :: p != META_JSON_PATH && p != BACKUP_PATH && p != st.tempPath ==>
           (p in r.0.card <==> p in st.card) && (p in r.0.card ==> r.0.card[p] == st.card[p])
  {
    if !st.inProgress || !st.tempOpen then (st, false)
    else
      var closed := st.(tempOpen := false);
      if st.tempPath !in st.card || !drv.readOk then (Cleanup(closed), false)
      else if !valid(Staged(st)) then (Cleanup(closed), false)
      else
        var backedUp := closed.(card := BackUp(st.card, drv));
        if !drv.commitOk || st.tempPath !in backedUp.card || st.tempPath == META_JSON_PATH
        then (Cleanup(backedUp), false)
        else
          var renamed := Rename(backedUp.card, st.tempPath, META_JSON_PATH);
          (backedUp.(card := Remove(renamed, BACKUP_PATH), inProgress := false), true)
  }

  /** The end-of-upload marker: id 0 with data "EOF". */
  predicate IsEof(id: uint32, data: string) {
    id == 0 && data == "EOF"
  }

  /** Whether a transfer in progress has been idle for longer than the
      timeout, measured with wrapping 32-bit `millis()` arithmetic. */
  predicate TimedOut(st: Ingest, now: uint32, timeoutMs: uint32) {
    st.inProgress && Sub32(now, st.lastChunkTime) > timeoutMs
  }

  /** The EOF branch of `handleMetaJsonChunk`. */
  function HandleEof(st: Ingest, drv: Driver, valid: string -> bool): (r: Ingest)
    ensures !st.inProgress ==> r == st
    ensures st.inProgress && st.lastId == 0 ==> r == Cleanup(st)
    ensures st.inProgress ==> !r.inProgress
  {
    if !st.inProgress then st
    else if st.lastId == 0 then Cleanup(st)
    else
      var (after, ok) := Finalize(st, drv, valid);
      if ok then after else Cleanup(after)
  }

  /** The data branch of `handleMetaJsonChunk`: id 1 starts a transfer when
      none is in progress, any other id is then ignored; in a transfer
      only the next id is accepted. */
  function HandleData(st: Ingest, id: uint32, data: string, drv: Driver): (r: Ingest)
    ensures !st.inProgress && id != 1 ==> r == st
    ensures st.inProgress && id != Add32(st.lastId, 1) ==> r == Cleanup(st)
    ensures r.inProgress ==>
      && r.lastId == id && r.tempPath == st.tempPath && r.lastChunkTime == drv.now
      && Staged(r) == (if st.inProgress then Staged(st) else "") + data
  {
    if !st.inProgress && id != 1 then st
    else
      var (started, ok) := if st.inProgress then (st, true) else Begin(st, drv);
      if !ok then started
      else if id != Add32(started.lastId, 1) then Cleanup(started)
      else
        var (written, wrote) := Process(started, data, drv);
        if wrote then written.(lastId := id) else Cleanup(written)
  }

  /** `handleMetaJsonChunk(id, data)`: the upload state after one chunk. */
  function HandleChunk(st: Ingest, id: uint32, data: string, drv: Driver,
                       valid: string -> bool, timeoutMs: uint32): (r: Ingest)
    ensures TimedOut(st, drv.now, timeoutMs) ==> r == Cleanup(st)
    ensures IsEof(id, data) && !st.inProgress ==> r == st
    ensures IsEof(id, data) && st.inProgress && st.lastId == 0 ==> r == Cleanup(st)
    ensures !IsEof(id, data) && !st.inProgress && id != 1 ==> r == st
    ensures !TimedOut(st, drv.now, timeoutMs) && !IsEof(id, data) && st.inProgress && id != Add32(st.lastId, 1) ==>
      r == Cleanup(st)
    ensures !IsEof(id, data) && r.inProgress ==>
      && r.lastId == id && r.tempPath == st.tempPath
      && Staged(r) == (if st.inProgress then Staged(st) else "") + data
    ensures PathsApart(st) && MetaFile(r.card) != MetaFile(st.card) ==>
      IsEof(id, data) && st.inProgress && st.lastId != 0 && valid(Staged(st))
  {
    if TimedOut(st, drv.now, timeoutMs) then Cleanup(st)
    else if IsEof(id, data) then HandleEof(st, drv, valid)
    else HandleData(st, id, data, drv)
  }

  /** Every call keeps the state consistent. */
  lemma HandleChunkConsistent(st: Ingest, id: uint32, data: string, drv: Driver,
                              valid: string -> bool, timeoutMs: uint32)
    requires Consistent(st)
    ensures Consistent(HandleChunk(st, id, data, drv, valid, timeoutMs))
  {
  }

  /** Neither deleting nor resetting the temporary path ever makes it one of
      the two configuration paths. */
  lemma HandleChunkPathsApart(st: Ingest, id: uint32, data: string, drv: Driver,
                              valid: string -> bool, timeoutMs: uint32)
    requires PathsApart(st)
    ensures PathsApart(HandleChunk(st, id, data, drv, valid, timeoutMs))
  {
  }

  /** One chunk as received: its id, its data and what the driver and clock
      report while it is handled. */
  datatype Chunk = Chunk(id: uint32, data: string, drv: Driver)

  /** The upload state after handling `chunks` in order. */
  function Feed(st: Ingest, chunks: seq<Chunk>, valid: string -> bool, timeoutMs: uint32): Ingest
    decreases |chunks|
  {
    if |chunks| == 0 then st
    else
      var last := chunks[|chunks| - 1];
      HandleChunk(Feed(st, chunks[..|chunks| - 1], valid, timeoutMs), last.id, last.data, last.drv, valid, timeoutMs)
  }

  /** The data of `chunks`, one after another. */
  function Payload(chunks: seq<Chunk>): string
    decreases |chunks|
  {
    if |chunks| == 0 then "" else Payload(chunks[..|chunks| - 1]) + chunks[|chunks| - 1].data
  }

  /** A well-behaved upload of data chunks: ids 1, 2, 3, ... in order, the
      first one starting a transfer, every write succeeding, and no gap
      between consecutive chunks longer than the timeout. */
  predicate OrderlyChunks(chunks: seq<Chunk>, timeoutMs: uint32) {
    && (forall i :: 0 <= i < |chunks| ==> chunks[i].id == i + 1 && chunks[i].drv.writeOk)
    && (|chunks| > 0 ==> chunks[0].drv.sdReady && chunks[0].drv.openOk)
    && (forall i :: 0 < i < |chunks| ==> Sub32(chunks[i].drv.now, chunks[i - 1].drv.now) <= timeoutMs)
  }

  /** Staging: starting from no transfer, chunks 1..n leave a transfer in
      progress at id n whose temporary file holds their data in order; no
      other file changes. */
  lemma {:induction false} OrderlyChunksStage(st: Ingest, chunks: seq<Chunk>, valid: string -> bool, timeoutMs: uint32)
    requires !st.inProgress && PathsApart(st)
    requires |chunks| > 0 && OrderlyChunks(chunks, timeoutMs)
    ensures var r := Feed(st, chunks, valid, timeoutMs);
      && r.inProgress && r.tempOpen && r.tempPath == st.tempPath
      && r.lastId == |chunks| && r.lastChunkTime == chunks[|chunks| - 1].drv.now
      && r.tempPath in r.card && Staged(r) == Payload(chunks)
      && (forall p :: p != st.tempPath ==> (p in r.card <==> p in st.card) && (p in r.card ==> r.card[p] == st.card[p]))
    decreases |chunks|
  {
    var n := |chunks|;
    var last := chunks[n - 1];
    var before := chunks[..n - 1];
    if n == 1 {
      assert Feed(st, before, valid, timeoutMs) == st;
      assert Payload(before) == "";
    } else {
      assert OrderlyChunks(before, timeoutMs) by {
        assert forall i :: 0 <= i < |before| ==> before[i] == chunks[i];
      }
      OrderlyChunksStage(st, before, valid, timeoutMs);
      var mid := Feed(st, before, valid, timeoutMs);
      assert Sub32(last.drv.now, mid.lastChunkTime) <= timeoutMs by {
        assert chunks[n - 2] == before[n - 2];
      }
      assert last.id == Add32(mid.lastId, 1);
    }
  }

  /** A clean commit: after an orderly upload, an "EOF" within the timeout
      with a valid payload and a cooperating card makes `/meta.json` the
      payload, leaves no backup and no temporary file, and ends the
      transfer. */
  lemma OrderlyUploadCommits(st: Ingest, chunks: seq<Chunk>, eof: Driver, valid: string -> bool, timeoutMs: uint32)
    requires !st.inProgress && PathsApart(st)
    requires |chunks| > 0 && OrderlyChunks(chunks, timeoutMs)
    requires Sub32(eof.now, chunks[|chunks| - 1].drv.now) <= timeoutMs
    requires eof.readOk && eof.commitOk
    requires valid(Payload(chunks))
    ensures var r := Feed(st, chunks + [Chunk(0, "EOF", eof)], valid, timeoutMs);
      && MetaFile(r.card) == Some(Payload(chunks))
      && BACKUP_PATH !in r.card
      && st.tempPath !in r.card
      && !r.inProgress
  {
    var all := chunks + [Chunk(0, "EOF", eof)];
    assert all[..|all| - 1] == chunks;
    OrderlyChunksStage(st, chunks, valid, timeoutMs);
  }

  /** A failed final rename leaves the configuration only in the backup:
      the old `/meta.json` is gone and is not restored. */
  lemma FailedRenameKeepsOnlyBackup(st: Ingest, chunks: seq<Chunk>, eof: Driver, valid: string -> bool, timeoutMs: uint32)
    requires !st.inProgress && PathsApart(st) && META_JSON_PATH in st.card
    requires |chunks| > 0 && OrderlyChunks(chunks, timeoutMs)
    requires Sub32(eof.now, chunks[|chunks| - 1].drv.now) <= timeoutMs
    requires eof.readOk && eof.backupOk && !eof.commitOk
    requires valid(Payload(chunks))
    ensures var r := Feed(st, chunks + [Chunk(0, "EOF", eof)], valid, timeoutMs);
      && META_JSON_PATH !in r.card
      && BACKUP_PATH in r.card && r.card[BACKUP_PATH] == st.card[META_JSON_PATH]
      && !r.inProgress
  {
    var all := chunks + [Chunk(0, "EOF", eof)];
    assert all[..|all| - 1] == chunks;
    OrderlyChunksStage(st, chunks, valid, timeoutMs);
  }

  /** The upload state after every chunk but the last, fed one more chunk,
      is the state after all of them. */
  lemma FeedLast(st: Ingest, chunks: seq<Chunk>, valid: string -> bool, timeoutMs: uint32)
    requires |chunks| > 0
    ensures var last := chunks[|chunks| - 1];
      Feed(st, chunks, valid, timeoutMs)
        == HandleChunk(Feed(st, chunks[..|chunks| - 1], valid, timeoutMs), last.id, last.data, last.drv, valid, timeoutMs)
  {
  }

  /** A commit by the last chunk: it is an "EOF" and the text staged before
      it passes the check. */
  lemma CommitByLast(st: Ingest, chunks: seq<Chunk>, valid: string -> bool, timeoutMs: uint32)
    requires |chunks| > 0
    requires PathsApart(Feed(st, chunks[..|chunks| - 1], valid, timeoutMs))
    requires MetaFile(Feed(st, chunks, valid, timeoutMs).card)
             != MetaFile(Feed(st, chunks[..|chunks| - 1], valid, timeoutMs).card)
    ensures IsEof(chunks[|chunks| - 1].id, chunks[|chunks| - 1].data)
    ensures valid(Staged(Feed(st, chunks[..|chunks| - 1], valid, timeoutMs)))
  {
    FeedLast(st, chunks, valid, timeoutMs);
  }

  /** A valid "EOF" among the first `|chunks| - 1` chunks is one among all
      of them. */
  lemma CommitWitnessExtends(st: Ingest, chunks: seq<Chunk>, valid: string -> bool, timeoutMs: uint32, i: nat)
    requires i < |chunks| - 1
    requires IsEof(chunks[i].id, chunks[i].data)
    requires valid(Staged(Feed(st, chunks[..|chunks| - 1][..i], valid, timeoutMs)))
    ensures valid(Staged(Feed(st, chunks[..i], valid, timeoutMs)))
  {
    assert chunks[..|chunks| - 1][..i] == chunks[..i];
  }

  /** Only a valid payload is ever committed: whatever arrives, the
      configuration file changes only at an "EOF" whose staged text passes
      the check. */
  lemma {:induction false} OnlyValidUploadsCommit(st: Ingest, chunks: seq<Chunk>, valid: string -> bool, timeoutMs: uint32)
    requires PathsApart(st)
    ensures PathsApart(Feed(st, chunks, valid, timeoutMs))
    ensures MetaFile(Feed(st, chunks, valid, timeoutMs).card) != MetaFile(st.card) ==>
      exists i :: 0 <= i < |chunks| && IsEof(chunks[i].id, chunks[i].data)
        && valid(Staged(Feed(st, chunks[..i], valid, timeoutMs)))
    decreases |chunks|
  {
    if |chunks| > 0 {
      var n := |chunks|;
      var before := chunks[..n - 1];
      var mid := Feed(st, before, valid, timeoutMs);
      OnlyValidUploadsCommit(st, before, valid, timeoutMs);
      FeedLast(st, chunks, valid, timeoutMs);
      HandleChunkPathsApart(mid, chunks[n - 1].id, chunks[n - 1].data, chunks[n - 1].drv, valid, timeoutMs);
      if MetaFile(Feed(st, chunks, valid, timeoutMs).card) != MetaFile(st.card) {
        if MetaFile(mid.card) != MetaFile(st.card) {
          var i :| 0 <= i < |before| && IsEof(before[i].id, before[i].data)
            && valid(Staged(Feed(st, before[..i], valid, timeoutMs)));
          CommitWitnessExtends(st, chunks, valid, timeoutMs, i);
        } else {
          CommitByLast(st, chunks, valid, timeoutMs);
        }
      }
    }
  }

  /** A gap in the numbering aborts: after chunks 1..n, a data chunk whose id
      is not n + 1 ends the transfer and deletes the staged text. (At
      n = 2^32 - 1 the expected id wraps to 0; that case is excluded.) */
  lemma GapAborts(st: Ingest, chunks: seq<Chunk>, next: Chunk, valid: string -> bool, timeoutMs: uint32)
    requires !st.inProgress && PathsApart(st)
    requires |chunks| > 0 && OrderlyChunks(chunks, timeoutMs)
    requires Sub32(next.drv.now, chunks[|chunks| - 1].drv.now) <= timeoutMs
    requires |chunks| < 0xFFFF_FFFF
    requires !IsEof(next.id, next.data) && next.id != |chunks| + 1
    ensures var r := Feed(st, chunks + [next], valid, timeoutMs);
      !r.inProgress && r.lastId == 0 && st.tempPath !in r.card && r.tempPath == ""
  {
    var all := chunks + [next];
    assert all[..|all| - 1] == chunks;
    OrderlyChunksStage(st, chunks, valid, timeoutMs);
  }
}

=== FILE: node_file.dfy ===
/** The node file `/hublink.node` of the two node engines. The file holds
    one `key=value` setting per line; the engine keeps the non-empty lines,
    joined with a separator, as the node content it shows to the gateway,
    and applies the settings it knows: `advertise` (the configured name,
    `HublinkNode` only), `interval` (the advertising interval and duration)
    and `disable`.

    The engines differ only in their separators: `HublinkNode` joins lines
    with ";" and writes the interval as `every,for`; `HublinkNode_ESP32`
    joins lines with "," and writes it as `every-for`. */
module NodeFile {
  import opened Base
  import opened Text

  /** Which engine reads the file. */
  datatype Dialect = Node | Esp32

  /** The separator placed between lines in the node content. */
  function ContentSeparator(d: Dialect): string {
    if d == Node then ";" else ","
  }

  /** The separator between the two numbers of an `interval` line. */
  function IntervalSeparator(d: Dialect): char {
    if d == Node then ',' else '-'
  }

  /** The settings a node file can change. */
  datatype NodeConfig = NodeConfig(advName: string, connectEvery: uint32, connectFor: uint32, disable: bool)

  /** `toInt()` stored into a `uint32_t`: the saturated `long` reduced
      modulo 2^32, so a negative number becomes a large one. */
  function ToUint32(s: string): uint32 {
    Wrap32(Atol(s))
  }

  /** `disable=value` turns the flag on for "true" in any letter case or
      exactly "1", and off for anything else. */
  predicate DisableValue(value: string) {
    Lower(value) == "true" || value == "1"
  }

  /** An `interval` value: two numbers around the separator, taken only
      when both are positive as `uint32_t`. */
  function ApplyInterval(d: Dialect, cfg: NodeConfig, value: string): (r: NodeConfig)
    ensures r.advName == cfg.advName && r.disable == cfg.disable
    ensures r != cfg ==> r.connectEvery > 0 && r.connectFor > 0
  {
    var sep := IndexOf(value, IntervalSeparator(d));
    if sep < 0 then cfg
    else
      var every := ToUint32(value[..sep]);
      var duration := ToUint32(value[sep + 1..]);
      if every > 0 && duration > 0 then cfg.(connectEvery := every, connectFor := duration) else cfg
  }

  /** The effect of one `key=value` setting; unknown keys change nothing. */
  function ApplySetting(d: Dialect, cfg: NodeConfig, key: string, value: string): (r: NodeConfig)
    ensures r.disable != cfg.disable ==> key == "disable"
    ensures r.advName != cfg.advName ==> d == Node && key == "advertise"
    ensures r.connectEvery != cfg.connectEvery || r.connectFor != cfg.connectFor ==>
      key == "interval" && r.connectEvery > 0 && r.connectFor > 0
  {
    if key == "advertise" && d == Node then cfg.(advName := value)
    else if key == "interval" then ApplyInterval(d, cfg, value)
    else if key == "disable" then cfg.(disable := DisableValue(value))
    else cfg
  }

  /** The effect of one line on the settings: the key is the text before
      the first "=", the value the text after it; a line without "="
      changes nothing. Each setting can only come from a line that starts
      with its own key. */
  function ApplyLine(d: Dialect, cfg: NodeConfig, line: string): (r: NodeConfig)
    ensures r.disable != cfg.disable ==> StartsWith(line, "disable=")
    ensures r.advName != cfg.advName ==> d == Node && StartsWith(line, "advertise=")
    ensures r.connectEvery != cfg.connectEvery || r.connectFor != cfg.connectFor ==>
      StartsWith(line, "interval=") && r.connectEvery > 0 && r.connectFor > 0
  {
    var eq := IndexOf(line, '=');
    if eq < 0 then cfg
    else
      assert line[..eq + 1] == line[..eq] + "=";
      ApplySetting(d, cfg, line[..eq], line[eq + 1..])
  }

  /** A line `key=value` with a key free of "=" is the setting of that key. */
  lemma LineSetting(d: Dialect, cfg: NodeConfig, key: string, value: string)
    requires '=' !in key
    ensures ApplyLine(d, cfg, key + "=" + value) == ApplySetting(d, cfg, key, value)
  {
    IndexOfAfterPiece(key, '=', value);
    var line := key + "=" + value;
    assert line[..|key|] == key && line[|key| + 1..] == value;
  }

  /** A `disable` line sets the flag to whether its value is "true" in any
      letter case or exactly "1". */
  lemma DisableRule(d: Dialect, cfg: NodeConfig, v: string)
    ensures ApplyLine(d, cfg, "disable" + "=" + v) == cfg.(disable := Lower(v) == "true" || v == "1")
  {
    LineSetting(d, cfg, "disable", v);
  }

  /** An `interval` value `every<sep>for` sets both numbers when both
      are positive and leaves the settings alone otherwise. */
  lemma IntervalValue(d: Dialect, cfg: NodeConfig, a: string, b: string)
    requires IntervalSeparator(d) !in a
    ensures ApplyInterval(d, cfg, a + [IntervalSeparator(d)] + b)
      == if ToUint32(a) > 0 && ToUint32(b) > 0 then cfg.(connectEvery := ToUint32(a), connectFor := ToUint32(b)) else cfg
  {
    var value := a + [IntervalSeparator(d)] + b;
    IndexOfAfterPiece(a, IntervalSeparator(d), b);
    assert value[..|a|] == a && value[|a| + 1..] == b;
  }

  /** The same for a whole `interval=every<sep>for` line. */
  lemma IntervalRule(d: Dialect, cfg: NodeConfig, a: string, b: string)
    requires IntervalSeparator(d) !in a
    ensures ApplyLine(d, cfg, "interval" + "=" + (a + [IntervalSeparator(d)] + b))
      == if ToUint32(a) > 0 && ToUint32(b) > 0 then cfg.(connectEvery := ToUint32(a), connectFor := ToUint32(b)) else cfg
  {
    var value := a + [IntervalSeparator(d)] + b;
    LineSetting(d, cfg, "interval", value);
    IntervalValue(d, cfg, a, b);
  }

  /** An `advertise` line sets the configured name in `HublinkNode` and is
      ignored by `HublinkNode_ESP32`. */
  lemma AdvertiseRule(d: Dialect, cfg: NodeConfig, v: string)
    ensures ApplyLine(d, cfg, "advertise" + "=" + v) == if d == Node then cfg.(advName := v) else cfg
  {
    LineSetting(d, cfg, "advertise", v);
  }

  /** A line without "=" changes no setting. */
  lemma NoEqualsNoChange(d: Dialect, cfg: NodeConfig, line: string)
    requires '=' !in line
    ensures ApplyLine(d, cfg, line) == cfg
  {
  }

  /** A negative interval is not rejected: `-n` becomes 2^32 - n in the
      `uint32_t`, which passes the positivity test, so
      `interval=-1,5` sets an interval of 4294967295 seconds. */
  lemma NegativeIntervalWraps(cfg: NodeConfig, n: nat, m: nat)
    requires 0 < n <= LONG_MAX && 0 < m <= LONG_MAX
    ensures ApplyLine(Node, cfg, "interval" + "=" + (("-" + NatToDecimal(n)) + [','] + NatToDecimal(m)))
      == cfg.(connectEvery := TWO_32 - n, connectFor := m)
  {
    AtolNegatedDecimal(n);
    AtolDecimal(m);
    DecimalHasOnlyDigits(n, ',');
    assert ',' !in "-" + NatToDecimal(n);
    Wrap32Negative(n);
    assert ToUint32(NatToDecimal(m)) == m;
    IntervalRule(Node, cfg, "-" + NatToDecimal(n), NatToDecimal(m));
  }

  /** The non-empty lines, in order. */
  function NonEmpty(ls: seq<string>): (r: seq<string>)
    ensures forall i :: 0 <= i < |r| ==> |r[i]| > 0
    decreases |ls|
  {
    if |ls| == 0 then []
    else NonEmpty(ls[..|ls| - 1]) + (if |ls[|ls| - 1]| > 0 then [ls[|ls| - 1]] else [])
  }

  /** The settings after applying the lines in order. */
  function ApplyAll(d: Dialect, cfg: NodeConfig, ls: seq<string>): NodeConfig
    decreases |ls|
  {
    if |ls| == 0 then cfg else ApplyLine(d, ApplyAll(d, cfg, ls[..|ls| - 1]), ls[|ls| - 1])
  }

  /** Only `disable` lines move the flag: without one, the flag keeps the
      value it had before parsing (which the engines reset to false). */
  lemma {:induction false} DisableOnlyFromLines(d: Dialect, cfg: NodeConfig, ls: seq<string>)
    requires forall i :: 0 <= i < |ls| ==> !StartsWith(ls[i], "disable=")
    ensures ApplyAll(d, cfg, ls).disable == cfg.disable
    decreases |ls|
  {
    if |ls| > 0 {
      DisableOnlyFromLines(d, cfg, ls[..|ls| - 1]);
    }
  }

  /** What parsing keeps: the settings and the node content. */
  datatype NodeState = NodeState(config: NodeConfig, content: string)

  /** `processLine`: a non-empty line is appended to the content after a
      separator (none before the first) and applied to the settings; an
      empty line is ignored. */
  function ProcessLine(d: Dialect, st: NodeState, line: string): (r: NodeState)
    ensures |line| == 0 ==> r == st
    ensures |line| > 0 ==> r.config == ApplyLine(d, st.config, line)
    ensures |line| > 0 && |st.content| > 0 ==> r.content == st.content + ContentSeparator(d) + line
    ensures |line| > 0 && |st.content| == 0 ==> r.content == line
    ensures StartsWith(r.content, st.content) && EndsWith(r.content, line)
  {
    if |line| == 0 then st
    else
      var content := if |st.content| > 0 then st.content + ContentSeparator(d) + line else line;
      NodeState(ApplyLine(d, st.config, line), content)
  }

  /** The reference reading of a list of lines: the settings after the
      non-empty ones, and those lines joined with the separator. */
  function Folded(d: Dialect, cfg: NodeConfig, ls: seq<string>): NodeState {
    NodeState(ApplyAll(d, cfg, NonEmpty(ls)), Join(ContentSeparator(d), NonEmpty(ls)))
  }

  /** `processLine` extends the reference reading by one line. */
  lemma ProcessLineFolds(d: Dialect, cfg: NodeConfig, ls: seq<string>, line: string)
    ensures ProcessLine(d, Folded(d, cfg, ls), line) == Folded(d, cfg, ls + [line])
  {
    var ne := NonEmpty(ls);
    assert (ls + [line])[..|ls|] == ls;
    if |line| > 0 {
      assert NonEmpty(ls + [line]) == ne + [line];
      assert (ne + [line])[..|ne|] == ne;
      if |ne| > 0 {
        JoinSnoc(ContentSeparator(d), ne, line);
        JoinStartsWithHead(ContentSeparator(d), ne);
      }
    } else {
      assert NonEmpty(ls + [line]) == ne;
    }
  }

  /** The text with each "\r" read as a line break, as the reading loop
      treats both characters alike. */
  function Breaks(text: string): (r: string)
    ensures |r| == |text|
    ensures forall i :: 0 <= i < |text| ==> r[i] == if text[i] == '\r' then '\n' else text[i]
  {
    seq(|text|, i requires 0 <= i < |text| => if text[i] == '\r' then '\n' else text[i])
  }

  /** The lines of a file: the pieces between line-break characters, the
      last one possibly unterminated and empty ones included. */
  function Lines(text: string): seq<string> {
    Split(Breaks(text), '\n')
  }

  /** A line break after the current line closes it. */
  lemma LineBreakStep(current: string, b: string, i: nat)
    requires '\n' !in current && i < |b| && b[i] == '\n'
    ensures Split(current + b[i..], '\n') == [current] + Split(b[i + 1..], '\n')
  {
    var s := current + b[i..];
    assert s == current + ['\n'] + b[i + 1..];
    IndexOfAfterPiece(current, '\n', b[i + 1..]);
    assert s[..|current|] == current && s[|current| + 1..] == b[i + 1..];
  }

  /** Where the reading loop stands after `i` characters: `st` holds the
      reading of the closed lines `done`, and the current line followed by
      the unread text splits into the remaining lines. */
  predicate Reading(d: Dialect, start: NodeConfig, text: string, i: nat,
                    st: NodeState, current: string, done: seq<string>) {
    && i <= |text|
    && '\n' !in current
    && st == Folded(d, start, done)
    && done + Split(current + Breaks(text)[i..], '\n') == Lines(text)
  }

  /** Closing a line moves it from the pending lines to the done ones. */
  lemma MoveLine(done: seq<string>, current: string, pending: seq<string>, rest: seq<string>, lines: seq<string>)
    requires done + pending == lines && pending == [current] + rest
    ensures (done + [current]) + rest == lines
  {
    assert done + ([current] + rest) == (done + [current]) + rest;
  }

  /** A line-break character closes and processes the current line. */
  lemma BreakStep(d: Dialect, start: NodeConfig, text: string, i: nat,
                  st: NodeState, current: string, done: seq<string>)
    requires Reading(d, start, text, i, st, current, done)
    requires i < |text| && (text[i] == '\n' || text[i] == '\r')
    ensures Reading(d, start, text, i + 1, ProcessLine(d, st, current), "", done + [current])
  {
    var b := Breaks(text);
    assert b[i] == '\n';
    LineBreakStep(current, b, i);
    MoveLine(done, current, Split(current + b[i..], '\n'), Split(b[i + 1..], '\n'), Lines(text));
    assert "" + b[i + 1..] == b[i + 1..];
    ProcessLineFolds(d, start, done, current);
  }

  /** Reading one more character moves it from the unread text to the
      current line. */
  lemma ExtendLine(current: string, b: string, i: nat)
    requires i < |b|
    ensures current + b[i..] == (current + [b[i]]) + b[i + 1..]
  {
    assert b[i..] == [b[i]] + b[i + 1..];
  }

  /** Any other character extends the current line. */
  lemma CharStep(d: Dialect, start: NodeConfig, text: string, i: nat,
                 st: NodeState, current: string, done: seq<string>)
    requires Reading(d, start, text, i, st, current, done)
    requires i < |text| && text[i] != '\n' && text[i] != '\r'
    ensures Reading(d, start, text, i + 1, st, current + [text[i]], done)
  {
    var b := Breaks(text);
    assert b[i] == text[i];
    ExtendLine(current, b, i);
  }

  /** At the end of the text the current line is the last line. */
  lemma ReadEnd(d: Dialect, start: NodeConfig, text: string,
                st: NodeState, current: string, done: seq<string>)
    requires Reading(d, start, text, |text|, st, current, done)
    ensures ProcessLine(d, st, current) == Folded(d, start, Lines(text))
  {
    assert current + Breaks(text)[|text|..] == current;
    assert Split(current, '\n') == [current];
    ProcessLineFolds(d, start, done, current);
  }

  /** The reading loop of `setNodeContent` / `setNodeChar` on the text of
      an opened node file: `disable` is reset, then the characters are read
      one at a time, each "\n" or "\r" closing the current line, and the
      last line is processed even without a line break after it. */
  method ReadNodeFile(d: Dialect, text: string, cfg: NodeConfig) returns (st: NodeState)
    ensures st == Folded(d, cfg.(disable := false), Lines(text))
  {
    var start := cfg.(disable := false);
    st := NodeState(start, "");
    var current := "";
    ghost var done: seq<string> := [];
    assert current + Breaks(text)[0..] == Breaks(text);
    var i := 0;
    while i < |text|
      invariant Reading(d, start, text, i, st, current, done)
      decreases |text| - i
    {
      var c := text[i];
      if c == '\n' || c == '\r' {
        BreakStep(d, start, text, i, st, current, done);
        st := ProcessLine(d, st, current);
        done := done + [current];
        current := "";
      } else {
        CharStep(d, start, text, i, st, current, done);
        current := current + [c];
      }
      i := i + 1;
    }
    ReadEnd(d, start, text, st, current, done);
    st := ProcessLine(d, st, current);
  }

  /** `setNodeContent` (`HublinkNode`) and `setNodeChar`
      (`HublinkNode_ESP32`): when the card does not start or the file does
      not open, the content is empty and the settings, `disable` included,
      are left as they were; otherwise the file is read as above. */
  method SetNodeContent(d: Dialect, sdReady: bool, file: Option<string>, cfg: NodeConfig) returns (st: NodeState)
    ensures !sdReady || file.None? ==> st == NodeState(cfg, "")
    ensures sdReady && file.Some? ==> st == Folded(d, cfg.(disable := false), Lines(file.value))
  {
    if !sdReady || file.None? {
      return NodeState(cfg, "");
    }
    st := ReadNodeFile(d, file.value, cfg);
  }

  /** A file whose lines carry no line breaks and none is empty. */
  predicate PlainLines(lines: seq<string>) {
    forall i :: 0 <= i < |lines| ==> |lines[i]| > 0 && '\n' !in lines[i] && '\r' !in lines[i]
  }

  /** Lines joined with "\n" contain no "\r" when none of them does. */
  lemma {:induction false} JoinKeepsOutCarriageReturn(lines: seq<string>)
    requires PlainLines(lines)
    ensures '\r' !in Join("\n", lines)
    decreases |lines|
  {
    if |lines| > 1 {
      JoinKeepsOutCarriageReturn(lines[1..]);
    }
  }

  /** Non-empty lines are all kept. */
  lemma {:induction false} NonEmptyKeepsAll(lines: seq<string>)
    requires forall i :: 0 <= i < |lines| ==> |lines[i]| > 0
    ensures NonEmpty(lines) == lines
    decreases |lines|
  {
    if |lines| > 0 {
      NonEmptyKeepsAll(lines[..|lines| - 1]);
    }
  }

  /** Writing settings one per line and reading the file back gives those
      lines joined with the dialect's separator as the node content. */
  lemma NodeContentOfLines(d: Dialect, cfg: NodeConfig, lines: seq<string>)
    requires |lines| > 0 && PlainLines(lines)
    ensures Folded(d, cfg, Lines(Join("\n", lines))).content == Join(ContentSeparator(d), lines)
  {
    var text := Join("\n", lines);
    JoinKeepsOutCarriageReturn(lines);
    assert Breaks(text) == text;
    SplitJoin(lines, '\n');
    NonEmptyKeepsAll(lines);
  }
}

=== FILE: node_session.dfy ===
/** The connection loop of the two node engines, `HublinkNode` and
    `HublinkNode_ESP32`: `updateConnectionStatus`, called repeatedly while
    the node advertises, runs the watchdog, serves a requested file, and
    sends the catalog once the gateway has asked for it. The radio
    callbacks (`onConnect`, `onDisconnect`, the writes that request a file
    or the catalog) are separate events between calls.

    The engines differ in their gates: `HublinkNode` serves any pending
    file name and sends the catalog once no name is pending and
    `sendFilenames` is set; `HublinkNode_ESP32` serves a name only while
    `fileTransferInProgress` is set and sends the catalog while it is clear
    and `gatewayChanged` is set. */
module NodeSession {
  import opened Base
  import opened FileFilter
  import opened Transfer
  import opened Catalog
  import opened NodeFile

  /** The watchdog timeout of both node engines, in milliseconds. */
  const WATCHDOG_TIMEOUT_MS: uint32 := 5000

  /** The fields of a node engine the loop reads and writes.
      `catalogRequested` is `sendFilenames` of `HublinkNode` and
      `gatewayChanged` of `HublinkNode_ESP32`; `fileTransferInProgress`
      exists only in `HublinkNode_ESP32` and `HublinkNode` never reads it.
      `mtuSize` is the piece size the last catalog negotiated (20 before
      the first). */
  datatype NodeLink = NodeLink(
    connected: bool,
    currentFileName: string,
    fileTransferInProgress: bool,
    allFilesSent: bool,
    catalogRequested: bool,
    piReadyForFilenames: bool,
    watchdogTimer: uint32,
    mtuSize: nat)

  /** What happens around one call: the clock, the card for the file (and
      the file's contents if it opens), the link while the file's pieces go
      out, the card for the listing and the entries of the root directory,
      the piece size `updateMtuSize` reads, and the link while the
      directory is read and the catalog's pieces go out. */
  datatype NodeTick = NodeTick(
    now: uint32,
    fileCardReady: bool,
    file: Option<string>,
    fileLink: nat -> bool,
    listCardReady: bool,
    entries: seq<FileEntry>,
    mtu: nat,
    listing: nat -> bool,
    link: nat -> bool)

  /** The catalog filter of each engine. */
  function EngineFilter(d: Dialect): Filter {
    if d == Node then NodeFilter else Esp32Filter
  }

  /** Whether the watchdog fires: connected and idle for longer than the
      timeout, on the wrapping 32-bit clock. */
  predicate WatchdogFires(s: NodeLink, now: uint32) {
    s.connected && Sub32(now, s.watchdogTimer) > WATCHDOG_TIMEOUT_MS
  }

  /** Whether a call serves the pending file. */
  predicate FileDue(d: Dialect, s: NodeLink) {
    s.connected && s.currentFileName != "" && (d == Node || s.fileTransferInProgress)
  }

  /** Whether a call sends the catalog. */
  predicate CatalogDue(d: Dialect, s: NodeLink) {
    && s.connected && !s.allFilesSent && s.catalogRequested
    && (if d == Node then s.currentFileName == "" else !s.fileTransferInProgress)
  }

  /** The file branch: the pending file is sent in pieces of the size the
      last catalog negotiated (nothing when the card does not start or the
      file does not open) and the request is cleared. A link lost during
      the transfer is seen by the catalog branch. */
  method ServeNodeFile(d: Dialect, s: NodeLink, t: NodeTick) returns (r: NodeLink, fileSent: seq<string>)
    requires s.mtuSize > 0
    ensures FileDue(d, s) ==> r == s.(currentFileName := "", fileTransferInProgress := false, connected := r.connected)
    ensures !FileDue(d, s) ==> r == s && fileSent == []
    ensures r.connected ==> s.connected
    ensures fileSent == [] ==> r.connected == s.connected
    ensures fileSent != [] ==> FileDue(d, s) && t.fileCardReady && t.file.Some?
    ensures FileDue(d, s) && t.fileCardReady && t.file.Some? ==>
      && |fileSent| >= 1 && fileSent[|fileSent| - 1] == EOF_MARKER
      && |fileSent| - 1 <= |Chunks(t.file.value, s.mtuSize)|
      && fileSent[..|fileSent| - 1] == Chunks(t.file.value, s.mtuSize)[..|fileSent| - 1]
      && (r.connected <==> t.fileLink(|fileSent| - 1))
  {
    r, fileSent := s, [];
    if FileDue(d, s) {
      var linkLost;
      fileSent, linkLost := NodeHandleFileTransfer(t.fileCardReady, t.file, s.mtuSize, t.fileLink);
      r := s.(currentFileName := "", fileTransferInProgress := false, connected := !linkLost);
    }
  }

  /** The catalog branch: when due, the piece size is negotiated and the
      catalog of the accepted entries is sent if the card starts and the
      link holds through the listing, and `allFilesSent` is then set. */
  method ServeNodeCatalog(d: Dialect, s: NodeLink, t: NodeTick) returns (r: NodeLink, catalogSent: seq<string>)
    requires t.mtu > 0
    ensures r == s.(allFilesSent := r.allFilesSent, connected := r.connected, mtuSize := r.mtuSize)
    ensures !CatalogDue(d, s) ==> r == s && catalogSent == []
    ensures CatalogDue(d, s) ==> r.mtuSize == t.mtu
    ensures r.connected ==> s.connected
    ensures catalogSent != [] <==> r.allFilesSent != s.allFilesSent
    ensures catalogSent != [] ==>
      && CatalogDue(d, s) && t.listCardReady
      && catalogSent[|catalogSent| - 1] == EOF_MARKER
      && |catalogSent| - 1 <= |Chunks(CatalogText(Acceptor(EngineFilter(d)), t.entries), t.mtu)|
      && catalogSent[..|catalogSent| - 1]
         == Chunks(CatalogText(Acceptor(EngineFilter(d)), t.entries), t.mtu)[..|catalogSent| - 1]
    ensures CatalogDue(d, s) && t.listCardReady && (forall k :: 0 <= k <= |t.entries| ==> t.listing(k)) ==>
      catalogSent != []
    ensures CatalogDue(d, s) && t.listCardReady && !(forall k :: 0 <= k <= |t.entries| ==> t.listing(k)) ==>
      !r.connected
  {
    r, catalogSent := s, [];
    if CatalogDue(d, s) {
      var allSent, linkLost;
      catalogSent, allSent, linkLost := SendAvailableFilenames(Acceptor(EngineFilter(d)), t.listCardReady,
                                                     t.entries, t.mtu, t.listing, t.link, k => true, s.allFilesSent);
      r := s.(allFilesSent := allSent, connected := !linkLost, mtuSize := t.mtu);
    }
  }

  /** The state the catalog branch sees when the link holds through the
      file transfer: the file branch has cleared a request it served. */
  function AfterFileBranch(d: Dialect, s: NodeLink): NodeLink {
    if FileDue(d, s) then s.(currentFileName := "", fileTransferInProgress := false) else s
  }

  /** `updateConnectionStatus`: the watchdog (which only asks the radio to
      disconnect; the link flag changes later, in `onDisconnect`), then the
      file branch, then the catalog branch on the state the file branch
      left, including a link it lost. Returns the state, whether the
      watchdog fired, and the indications of the file transfer and of the
      catalog. */
  method UpdateConnectionStatus(d: Dialect, s: NodeLink, t: NodeTick)
    returns (r: NodeLink, kicked: bool, fileSent: seq<string>, catalogSent: seq<string>)
    requires t.mtu > 0 && s.mtuSize > 0
    ensures kicked <==> WatchdogFires(s, t.now)
    ensures r.connected ==> s.connected
    ensures r.catalogRequested == s.catalogRequested
    ensures r.piReadyForFilenames == s.piReadyForFilenames && r.watchdogTimer == s.watchdogTimer
    ensures FileDue(d, s) ==> r.currentFileName == "" && !r.fileTransferInProgress
    ensures !FileDue(d, s) ==> r.currentFileName == s.currentFileName && r.fileTransferInProgress == s.fileTransferInProgress
    ensures fileSent != [] ==> FileDue(d, s)
    ensures FileDue(d, s) && t.fileCardReady && t.file.Some? ==>
      && |fileSent| >= 1 && fileSent[|fileSent| - 1] == EOF_MARKER
      && |fileSent| - 1 <= |Chunks(t.file.value, s.mtuSize)|
      && fileSent[..|fileSent| - 1] == Chunks(t.file.value, s.mtuSize)[..|fileSent| - 1]
    ensures fileSent != [] && !t.fileLink(|fileSent| - 1) ==> !r.connected && catalogSent == []
    ensures s.allFilesSent ==> r.allFilesSent && catalogSent == []
    ensures catalogSent != [] ==> CatalogDue(d, AfterFileBranch(d, s)) && t.listCardReady && r.mtuSize == t.mtu
    ensures CatalogDue(d, AfterFileBranch(d, s)) && (fileSent == [] || t.fileLink(|fileSent| - 1))
            && t.listCardReady && (forall k :: 0 <= k <= |t.entries| ==> t.listing(k)) ==>
      catalogSent != [] && catalogSent[|catalogSent| - 1] == EOF_MARKER
    ensures catalogSent != [] ==> s.connected && s.catalogRequested && r.allFilesSent
    ensures r.allFilesSent != s.allFilesSent ==> catalogSent != []
  {
    kicked := WatchdogFires(s, t.now);
    var afterFile;
    afterFile, fileSent := ServeNodeFile(d, s, t);
    r, catalogSent := ServeNodeCatalog(d, afterFile, t);
  }

  /** `onConnect` of both node engines, apart from the radio parameters. */
  function NodeOnConnect(s: NodeLink, now: uint32): (r: NodeLink)
    ensures r.connected && !WatchdogFires(r, now)
    ensures r.(connected := s.connected, watchdogTimer := s.watchdogTimer) == s
  {
    s.(connected := true, watchdogTimer := now)
  }

  /** `onDisconnect`: `HublinkNode` clears only the link flag;
      `HublinkNode_ESP32` also forgets the gateway's requests and the
      catalog flags (but not a pending file name). */
  function NodeOnDisconnect(d: Dialect, s: NodeLink): (r: NodeLink)
    ensures !r.connected && r.currentFileName == s.currentFileName && r.watchdogTimer == s.watchdogTimer
    ensures d == Node ==> r == s.(connected := false)
    ensures d == Esp32 ==>
      !r.piReadyForFilenames && !r.fileTransferInProgress && !r.allFilesSent && !r.catalogRequested
  {
    if d == Node then s.(connected := false)
    else s.(connected := false, piReadyForFilenames := false, fileTransferInProgress := false,
            allFilesSent := false, catalogRequested := false)
  }

  /** `HublinkNode::resetBLEState`, run when the radio is brought up. */
  function NodeResetBLEState(s: NodeLink): (r: NodeLink)
    ensures !r.connected && !r.piReadyForFilenames && r.currentFileName == "" && !r.allFilesSent && !r.catalogRequested
    ensures r.watchdogTimer == s.watchdogTimer && r.fileTransferInProgress == s.fileTransferInProgress
  {
    s.(connected := false, piReadyForFilenames := false, currentFileName := "", allFilesSent := false,
       catalogRequested := false)
  }

  /** Between a disconnect and the next connection nothing is sent and
      nothing changes, whatever the card and the clock do. */
  method DisconnectedSendsNothing(d: Dialect, s: NodeLink, t: NodeTick)
    returns (fileSent: seq<string>, catalogSent: seq<string>)
    requires t.mtu > 0 && s.mtuSize > 0
    ensures fileSent == [] && catalogSent == []
  {
    var r, kicked;
    r, kicked, fileSent, catalogSent := UpdateConnectionStatus(d, NodeOnDisconnect(d, s), t);
  }

  /** The catalog goes out at most once per connection of
      `HublinkNode_ESP32`, but at most once per radio start-up of
      `HublinkNode`: its `onDisconnect` keeps `allFilesSent`, so after a
      reconnection the gateway gets no catalog until `resetBLEState` runs. */
  method NodeCatalogOncePerStartup(s: NodeLink, now: uint32, t: NodeTick)
    returns (catalogSent: seq<string>)
    requires t.mtu > 0 && s.mtuSize > 0 && s.allFilesSent
    ensures catalogSent == []
  {
    var r, kicked, fileSent;
    r, kicked, fileSent, catalogSent := UpdateConnectionStatus(Node, NodeOnConnect(NodeOnDisconnect(Node, s), now), t);
  }

  /** After an `HublinkNode_ESP32` reconnection the catalog can go out
      again once the gateway asks for it. */
  method Esp32CatalogAfterReconnect(s: NodeLink, now: uint32, t: NodeTick)
    returns (catalogSent: seq<string>)
    requires t.mtu > 0 && s.mtuSize > 0 && t.listCardReady && forall k :: 0 <= k <= |t.entries| ==> t.listing(k)
    ensures catalogSent != []
  {
    var back := NodeOnConnect(NodeOnDisconnect(Esp32, s), now).(catalogRequested := true);
    var r, kicked, fileSent;
    r, kicked, fileSent, catalogSent := UpdateConnectionStatus(Esp32, back, t);
  }

  /** A requested file and a requested catalog are both served in the same
      call: the file branch clears the request, which opens the catalog
      gate. */
  method FileThenCatalog(d: Dialect, s: NodeLink, t: NodeTick)
    returns (fileSent: seq<string>, catalogSent: seq<string>)
    requires t.mtu > 0 && s.mtuSize > 0 && FileDue(d, s) && !s.allFilesSent && s.catalogRequested
    requires t.fileCardReady && t.file.Some? && forall k :: 0 <= k <= |Chunks(t.file.value, s.mtuSize)| ==> t.fileLink(k)
    requires t.listCardReady && forall k :: 0 <= k <= |t.entries| ==> t.listing(k)
    ensures fileSent != [] && fileSent[|fileSent| - 1] == EOF_MARKER
    ensures catalogSent != [] && catalogSent[|catalogSent| - 1] == EOF_MARKER
  {
    var r, kicked;
    r, kicked, fileSent, catalogSent := UpdateConnectionStatus(d, s, t);
  }
}

=== FILE: scheduler.dfy ===
/** `Hublink::sync`, the periodic decision to open an advertising window:
    when the interval has elapsed (or the caller forces a window), it runs
    `doBLE`, and a failed window can be retried a bounded number of times
    at its own interval. Times are `millis()` readings, compared with
    wrapping 32-bit subtraction; intervals are seconds multiplied by 1000 in
    32-bit arithmetic.

    `doBLE` is not modelled here: its outcome for a given advertising
    duration is an input, `window(duration)`, carrying whether the window
    counted as successful (a catalog went out with the link still up), the
    clock reading when it returned and the upload state it left behind. */
module Scheduler {
  import opened Base
  import opened MetaConfig
  import opened MetaUpload

  /** The fields `sync` reads and writes. `currentRetryAttempt` is a plain
      count here; `RetryBounded` shows it never exceeds the configured
      attempt count, so its C width never matters. */
  datatype SyncState = SyncState(
    policy: Policy,
    lastHublinkMillis: uint32,
    connectionAttempted: bool,
    currentRetryAttempt: nat,
    lastRetryMillis: uint32,
    ingest: Ingest)

  /** What one advertising window (`doBLE`) reports. */
  datatype Window = Window(success: bool, finishedAt: uint32, ingest: Ingest)

  /** The result of `sync`: the new state, its return value, and whether an
      advertising window was opened. */
  datatype SyncResult = SyncResult(state: SyncState, success: bool, advertised: bool)

  /** Whether a window is due: the caller forces one, or the advertising
      interval has elapsed since the last one. */
  predicate Due(s: SyncState, temporaryConnectFor: uint32, now: uint32) {
    temporaryConnectFor > 0 || Sub32(now, s.lastHublinkMillis) >= Mul32(s.policy.advertiseEvery, 1000)
  }

  /** Whether the retries are used up. */
  predicate RetriesExhausted(s: SyncState) {
    s.connectionAttempted && s.currentRetryAttempt >= s.policy.reconnectAttempts
  }

  /** Whether a window may be opened: no failure pending, or a retry left
      and the retry interval elapsed. */
  predicate MayAdvertise(s: SyncState, now: uint32) {
    || !s.connectionAttempted
    || (s.currentRetryAttempt < s.policy.reconnectAttempts
        && Sub32(now, s.lastRetryMillis) >= Mul32(s.policy.reconnectEvery, 1000))
  }

  /** The advertising duration of the window: the caller's override when
      given, the configured one otherwise. */
  function WindowLength(s: SyncState, temporaryConnectFor: uint32): uint32 {
    if temporaryConnectFor > 0 then temporaryConnectFor else s.policy.advertiseFor
  }

  /** The retry bookkeeping after a window: a failed, unforced window with
      retries enabled counts one attempt (the first failure counts 1);
      anything else clears the count. */
  function AfterWindow(s: SyncState, success: bool, temporaryConnectFor: uint32, now: uint32): (r: SyncState)
    ensures r.policy == s.policy && r.ingest == s.ingest && r.lastHublinkMillis == s.lastHublinkMillis
    ensures !success && s.policy.tryReconnect && temporaryConnectFor == 0 ==>
      && r.connectionAttempted && r.lastRetryMillis == now
      && r.currentRetryAttempt == (if s.connectionAttempted then s.currentRetryAttempt + 1 else 1)
    ensures success || !s.policy.tryReconnect || temporaryConnectFor > 0 ==>
      !r.connectionAttempted && r.currentRetryAttempt == 0 && r.lastRetryMillis == s.lastRetryMillis
  {
    if !success && s.policy.tryReconnect && temporaryConnectFor == 0 then
      if !s.connectionAttempted
      then s.(connectionAttempted := true, currentRetryAttempt := 1, lastRetryMillis := now)
      else s.(currentRetryAttempt := s.currentRetryAttempt + 1, lastRetryMillis := now)
    else s.(connectionAttempted := false, currentRetryAttempt := 0)
  }

  /** `sync(temporaryConnectFor)` at clock reading `now`, with the link state
      `connected` at entry. */
  function Sync(s: SyncState, temporaryConnectFor: uint32, now: uint32, connected: bool,
                window: uint32 -> Window): (r: SyncResult)
    ensures r.state.policy == s.policy
    ensures r.success ==> r.advertised && window(WindowLength(s, temporaryConnectFor)).success
    ensures r.advertised ==> r.success == window(WindowLength(s, temporaryConnectFor)).success
    ensures r.advertised <==>
      (!s.policy.disable && Due(s, temporaryConnectFor, now) && !RetriesExhausted(s) && MayAdvertise(s, now))
    ensures s.policy.disable ==>
      && !r.success
      && r.state == s.(ingest := r.state.ingest)
    ensures !s.policy.disable && Due(s, temporaryConnectFor, now) && RetriesExhausted(s) ==>
      && !r.success
      && !r.state.connectionAttempted && r.state.currentRetryAttempt == 0
      && r.state.lastHublinkMillis == now && r.state.lastRetryMillis == s.lastRetryMillis
    ensures r.advertised ==>
      r.state.lastHublinkMillis == window(WindowLength(s, temporaryConnectFor)).finishedAt
    ensures r.advertised && !r.success && s.policy.tryReconnect && temporaryConnectFor == 0 ==>
      && r.state.connectionAttempted && r.state.lastRetryMillis == now
      && r.state.currentRetryAttempt == (if s.connectionAttempted then s.currentRetryAttempt + 1 else 1)
    ensures r.advertised && (r.success || !s.policy.tryReconnect || temporaryConnectFor > 0) ==>
      !r.state.connectionAttempted && r.state.currentRetryAttempt == 0
    ensures !r.advertised && !(Due(s, temporaryConnectFor, now) && !s.policy.disable && RetriesExhausted(s)) ==>
      r.state == s.(ingest := r.state.ingest)
    ensures !r.success && !(!s.policy.disable && Due(s, temporaryConnectFor, now) && RetriesExhausted(s)) ==>
      !r.state.ingest.inProgress
  {
    var ingest := if !connected && s.ingest.inProgress then Cleanup(s.ingest) else s.ingest;
    var s1 := s.(ingest := ingest);
    if !s.policy.disable && Due(s, temporaryConnectFor, now) && RetriesExhausted(s) then
      SyncResult(s1.(connectionAttempted := false, currentRetryAttempt := 0, lastHublinkMillis := now), false, false)
    else
      var (s2, success, advertised) :=
        if !s.policy.disable && Due(s, temporaryConnectFor, now) && MayAdvertise(s, now) then
          var w := window(WindowLength(s, temporaryConnectFor));
          var counted := AfterWindow(s1, w.success, temporaryConnectFor, now);
          (counted.(lastHublinkMillis := w.finishedAt, ingest := w.ingest), w.success, true)
        else (s1, false, false);
      var s3 := if !success && s2.ingest.inProgress then s2.(ingest := Cleanup(s2.ingest)) else s2;
      SyncResult(s3, success, advertised)
  }

  /** The retry count stays within its bounds: zero while no failure is
      pending, between 1 and the configured attempts while one is. */
  predicate RetryInvariant(s: SyncState) {
    && (!s.connectionAttempted ==> s.currentRetryAttempt == 0)
    && (s.connectionAttempted ==> 1 <= s.currentRetryAttempt <= s.policy.reconnectAttempts)
  }

  /** Every `sync` keeps the retry count within its bounds, whatever the
      windows report, as long as at least one attempt is configured (which
      `readMetaJson` preserves). */
  lemma RetryBounded(s: SyncState, temporaryConnectFor: uint32, now: uint32, connected: bool, window: uint32 -> Window)
    requires s.policy.reconnectAttempts >= 1
    requires RetryInvariant(s)
    ensures RetryInvariant(Sync(s, temporaryConnectFor, now, connected, window).state)
  {
  }

  /** The state after a series of `sync` calls, each with its own clock
      reading and link state. */
  function Run(s: SyncState, calls: seq<(uint32, uint32, bool)>, window: uint32 -> Window): SyncState
    decreases |calls|
  {
    if |calls| == 0 then s
    else
      var (tcf, now, connected) := calls[0];
      Run(Sync(s, tcf, now, connected, window).state, calls[1..], window)
  }

  /** Over any series of calls the policy is untouched (in particular the
      advertising duration is restored after every forced window) and the
      retry count stays within its bounds. */
  lemma {:induction false} RunKeepsRetryInvariant(s: SyncState, calls: seq<(uint32, uint32, bool)>, window: uint32 -> Window)
    requires s.policy.reconnectAttempts >= 1
    requires RetryInvariant(s)
    ensures Run(s, calls, window).policy == s.policy
    ensures RetryInvariant(Run(s, calls, window))
    decreases |calls|
  {
    if |calls| > 0 {
      var (tcf, now, connected) := calls[0];
      RetryBounded(s, tcf, now, connected, window);
      RunKeepsRetryInvariant(Sync(s, tcf, now, connected, window).state, calls[1..], window);
    }
  }

  /** With retries enabled and windows that always fail, the unforced
      calls open at most `reconnect_attempts` windows in a row after a
      failure: then the count is exhausted and the next due call opens
      none. */
  lemma ExhaustedRetriesSkipWindow(s: SyncState, now: uint32, connected: bool, window: uint32 -> Window)
    requires !s.policy.disable && RetryInvariant(s)
    requires s.connectionAttempted && s.currentRetryAttempt == s.policy.reconnectAttempts
    requires Due(s, 0, now)
    ensures !Sync(s, 0, now, connected, window).advertised
    ensures !Sync(s, 0, now, connected, window).state.connectionAttempted
  {
  }

  /** The interval test is right across the clock's wrap-around: when
      `d` milliseconds (less than the clock's period) have passed since the
      last window, `millis()` reads `last + d` wrapped to 32 bits, and an
      unforced call finds the interval elapsed exactly when `d` reaches
      `advertise_every` seconds (in their 32-bit product). With no failure
      pending and radio enabled, that is exactly when `sync` opens a
      window. */
  lemma IntervalAcrossWrap(s: SyncState, last: uint32, d: nat, connected: bool, window: uint32 -> Window)
    requires d < TWO_32
    ensures Due(s.(lastHublinkMillis := last), 0, Wrap32(last + d)) <==> d >= Mul32(s.policy.advertiseEvery, 1000)
    ensures !s.policy.disable && !s.connectionAttempted ==>
      var now := Wrap32(last + d);
      Sync(s.(lastHublinkMillis := last), 0, now, connected, window).advertised <==> d >= Mul32(s.policy.advertiseEvery, 1000)
  {
    ElapsedAcrossWrap(last, d);
  }

  /** The 32-bit difference recovers any elapsed time below the period. */
  lemma ElapsedAcrossWrap(last: uint32, d: nat)
    requires d < TWO_32
    ensures Sub32(Wrap32(last + d), last) == d
  {
    if last + d >= TWO_32 {
      assert Wrap32(last + d) == last + d - TWO_32;
    }
  }
}

=== FILE: session.dfy ===
/** One pass of the `doBLE` polling loop of `Hublink`, and the connection
    events around it. A pass runs the watchdog, serves a requested file,
    sends the catalog once the gateway has asked for it, and records
    whether the catalog had gone out while the link was still up. The radio
    callbacks (`onConnect`, `onDisconnect`) are separate events between
    passes, except that a disconnect during a pass is seen by the rest of
    that pass: what the card and the link do during a pass is given in a
    `Tick`. */
module Session {
  import opened Base
  import opened FileFilter
  import opened Transfer
  import opened Catalog
  import opened MetaUpload

  /** The fields of `Hublink` a pass reads and writes, plus doBLE's local
      `successfulTransfer`. `mtuSize` is the piece size the last catalog
      pass negotiated (20 before the first). */
  datatype Session = Session(
    connected: bool,
    didConnect: bool,
    currentFileName: string,
    allFilesSent: bool,
    sendFilenames: bool,
    piReadyForFilenames: bool,
    watchdogTimer: uint32,
    watchdogTimeoutMs: uint32,
    rootOpen: bool,
    transferOpen: bool,
    successfulTransfer: bool,
    mtuSize: nat,
    ingest: Ingest)

  /** What happens around one pass: the clock; for the file branch, the
      card starting, the file's contents if it opens and the link and
      `sendIndication` results for its indications; for the catalog branch,
      the piece size `updateMtuSize` reads, the card starting, the root
      directory opening, its entries, the link before each directory read
      and for each indication, and the `sendIndication` results; and the
      link flag when the pass reaches its bookkeeping. */
  datatype Tick = Tick(
    now: uint32,
    fileCardReady: bool,
    file: Option<string>,
    fileLink: nat -> bool,
    fileConfirmed: nat -> bool,
    mtu: nat,
    listCardReady: bool,
    rootOk: bool,
    entries: seq<FileEntry>,
    listing: nat -> bool,
    link: nat -> bool,
    confirmed: nat -> bool,
    linkAtEnd: bool)

  /** The watchdog default `onConnect` restores, in milliseconds. */
  const DEFAULT_WATCHDOG_MS: uint32 := 10000

  /** `onConnect`, apart from the radio parameter calls. */
  function OnConnect(s: Session, now: uint32): (r: Session)
    ensures r.connected && r.didConnect && r.watchdogTimer == now && r.watchdogTimeoutMs == DEFAULT_WATCHDOG_MS
    ensures r.(connected := s.connected, didConnect := s.didConnect, watchdogTimer := s.watchdogTimer,
               watchdogTimeoutMs := s.watchdogTimeoutMs) == s
  {
    s.(connected := true, didConnect := true, watchdogTimer := now, watchdogTimeoutMs := DEFAULT_WATCHDOG_MS)
  }

  /** `Hublink::onDisconnect`: only the link flag changes. */
  function OnDisconnect(s: Session): (r: Session)
    ensures !r.connected && r.(connected := s.connected) == s
  {
    s.(connected := false)
  }

  /** `resetBLEState`: forgets the session, abandons an upload in progress
      and closes every handle. */
  function ResetBLEState(s: Session): (r: Session)
    ensures !r.connected && !r.didConnect && !r.piReadyForFilenames && !r.allFilesSent && !r.sendFilenames
    ensures r.currentFileName == "" && r.watchdogTimer == 0
    ensures !r.rootOpen && !r.transferOpen && !r.ingest.inProgress && !r.ingest.tempOpen
    ensures s.ingest.inProgress ==> r.ingest == Cleanup(s.ingest)
    ensures !s.ingest.inProgress ==> r.ingest == s.ingest.(tempOpen := false)
  {
    var ingest := if s.ingest.inProgress then Cleanup(s.ingest) else s.ingest;
    s.(connected := false, piReadyForFilenames := false, currentFileName := "", allFilesSent := false,
       sendFilenames := false, watchdogTimer := 0, didConnect := false,
       ingest := ingest.(tempOpen := false), rootOpen := false, transferOpen := false)
  }

  /** The watchdog: a connected session idle for longer than its timeout
      abandons the upload and closes both handles (the disconnect itself
      arrives later as `onDisconnect`). */
  function Watchdog(s: Session, now: uint32): (r: (Session, bool))
    ensures r.1 <==> s.connected && Sub32(now, s.watchdogTimer) > s.watchdogTimeoutMs
    ensures r.1 ==> !r.0.ingest.inProgress && !r.0.rootOpen && !r.0.transferOpen
    ensures !r.1 ==> r.0 == s
    ensures r.0.connected == s.connected && r.0.currentFileName == s.currentFileName
    ensures r.0.allFilesSent == s.allFilesSent && r.0.sendFilenames == s.sendFilenames
    ensures r.0.didConnect == s.didConnect && r.0.successfulTransfer == s.successfulTransfer
  {
    if s.connected && Sub32(now, s.watchdogTimer) > s.watchdogTimeoutMs then
      var ingest := if s.ingest.inProgress then Cleanup(s.ingest) else s.ingest;
      (s.(ingest := ingest, rootOpen := false, transferOpen := false), true)
    else (s, false)
  }

  /** A file request is pending and, once it is served, the catalog is due. */
  predicate FileThenCatalogDue(s: Session) {
    s.connected && s.currentFileName != "" && !s.allFilesSent && s.sendFilenames
  }

  /** A requested file is served whole with the link up at its "EOF": the
      card starts, the file opens and the link holds for every piece. */
  predicate FileHolds(s: Session, t: Tick)
    requires s.mtuSize > 0
  {
    t.fileCardReady && t.file.Some? && forall k :: 0 <= k <= |Chunks(t.file.value, s.mtuSize)| ==> t.fileLink(k)
  }

  /** The file branch of a pass: a requested file is served if the card
      starts and the file opens, in pieces of the size the last catalog
      pass negotiated, and the request is cleared either way. When the card
      does not start the pass ends early. A link lost during the transfer
      is seen by the rest of the pass. */
  method ServeFile(s: Session, t: Tick) returns (r: Session, fileSent: seq<string>, skipped: bool)
    requires s.mtuSize > 0
    ensures skipped <==> s.connected && s.currentFileName != "" && !t.fileCardReady
    ensures !(s.connected && s.currentFileName != "") ==> r == s && fileSent == []
    ensures s.connected && s.currentFileName != "" ==>
      r == s.(currentFileName := "", transferOpen := s.transferOpen && skipped, connected := r.connected)
    ensures r.connected ==> s.connected
    ensures t.file.None? || !t.fileCardReady ==> fileSent == [] && r.connected == s.connected
    ensures s.connected && s.currentFileName != "" && t.fileCardReady && t.file.Some? ==>
      && |fileSent| >= 1 && fileSent[|fileSent| - 1] == EOF_MARKER
      && |fileSent| - 1 <= |Chunks(t.file.value, s.mtuSize)|
      && fileSent[..|fileSent| - 1] == Chunks(t.file.value, s.mtuSize)[..|fileSent| - 1]
      && (r.connected <==> t.fileLink(|fileSent| - 1))
    ensures FileThenCatalogDue(s) && FileHolds(s, t) ==> fileSent != [] && CatalogDue(r)
  {
    if !(s.connected && s.currentFileName != "") {
      r, fileSent, skipped := s, [], false;
    } else if !t.fileCardReady {
      r, fileSent, skipped := s.(currentFileName := ""), [], true;
    } else if t.file.None? {
      r, fileSent, skipped := s.(transferOpen := false, currentFileName := ""), [], false;
    } else {
      r, fileSent := SendRequestedFile(s, t.file.value, t);
      skipped := false;
    }
  }

  /** The transfer of a requested file that opened, and the clean-up after
      it. */
  method SendRequestedFile(s: Session, contents: string, t: Tick) returns (r: Session, fileSent: seq<string>)
    requires s.mtuSize > 0
    ensures |fileSent| >= 1 && fileSent[|fileSent| - 1] == EOF_MARKER
    ensures |fileSent| - 1 <= |Chunks(contents, s.mtuSize)|
    ensures fileSent[..|fileSent| - 1] == Chunks(contents, s.mtuSize)[..|fileSent| - 1]
    ensures r == s.(currentFileName := "", transferOpen := false, connected := t.fileLink(|fileSent| - 1))
    ensures (forall k :: 0 <= k <= |Chunks(contents, s.mtuSize)| ==> t.fileLink(k)) ==> r.connected
  {
    var linkLost;
    fileSent, linkLost := HandleFileTransfer(true, contents, s.mtuSize, t.fileLink, t.fileConfirmed);
    r := s.(transferOpen := false, currentFileName := "", connected := !linkLost);
  }

  /** Whether the catalog branch runs: connected, no file request pending,
      the catalog not yet sent, and the gateway has asked for it. */
  predicate CatalogDue(s: Session) {
    s.connected && s.currentFileName == "" && !s.allFilesSent && s.sendFilenames
  }

  /** The catalog of a pass: the entries `f` accepts. */
  function CatalogOf(t: Tick, f: Filter): string {
    CatalogText(Acceptor(f), t.entries)
  }

  /** The card starts, the root directory opens, and the link holds while
      the whole directory is read. */
  predicate ListingHolds(t: Tick) {
    t.listCardReady && t.rootOk && forall k :: 0 <= k <= |t.entries| ==> t.listing(k)
  }

  /** The link holds for every piece of the catalog and each gets its
      status callback. */
  predicate PiecesHold(t: Tick, f: Filter)
    requires t.mtu > 0
  {
    forall k :: 0 <= k < |Chunks(CatalogOf(t, f), t.mtu)| ==> t.link(k) && t.confirmed(k)
  }

  /** The catalog branch of a pass: once the gateway has asked and no file
      request is pending, the piece size is negotiated and the catalog is
      sent if the card starts and the root directory opens. When the card
      does not start the pass ends early. A link lost while the directory
      is read or when the "EOF" is due is seen by the rest of the pass. */
  method ServeCatalog(s: Session, t: Tick, f: Filter) returns (r: Session, catalogSent: seq<string>, skipped: bool)
    requires t.mtu > 0
    ensures skipped <==> CatalogDue(s) && !t.listCardReady
    ensures skipped ==> catalogSent == []
    ensures CatalogDue(s) ==> r.mtuSize == t.mtu
    ensures !CatalogDue(s) ==> r == s && catalogSent == []
    ensures r == s.(allFilesSent := r.allFilesSent, rootOpen := r.rootOpen, connected := r.connected,
                    mtuSize := r.mtuSize)
    ensures r.connected ==> s.connected
    ensures catalogSent != [] ==>
      && CatalogDue(s) && t.rootOk
      && catalogSent[|catalogSent| - 1] == EOF_MARKER && r.allFilesSent
      && (r.connected <==> t.link(|catalogSent| - 1))
    ensures CatalogDue(s) && t.listCardReady && t.rootOk && !(forall k :: 0 <= k <= |t.entries| ==> t.listing(k)) ==>
      catalogSent == [] && !r.connected
    ensures r.allFilesSent != s.allFilesSent ==> catalogSent != []
    ensures CatalogDue(s) && ListingHolds(t) ==>
      && r.allFilesSent && catalogSent != []
      && |catalogSent| - 1 <= |Chunks(CatalogOf(t, f), t.mtu)|
      && catalogSent[..|catalogSent| - 1] == Chunks(CatalogOf(t, f), t.mtu)[..|catalogSent| - 1]
    ensures CatalogDue(s) && ListingHolds(t) && PiecesHold(t, f) ==>
      && |catalogSent| - 1 == |Chunks(CatalogOf(t, f), t.mtu)|
      && Concat(catalogSent[..|catalogSent| - 1]) == CatalogOf(t, f)
  {
    r, catalogSent, skipped := s, [], false;
    if CatalogDue(s) {
      r := r.(mtuSize := t.mtu);
      if !t.listCardReady {
        skipped := true;
        return;
      }
      if t.rootOk {
        r, catalogSent := SendCatalog(r, t, f);
      }
      r := r.(rootOpen := false);
    }
  }

  /** The catalog sent from an open root directory: `allFilesSent` is
      set once the listing completes, and the link flag is the link when
      the listing broke off or when the "EOF" was due. */
  method SendCatalog(s: Session, t: Tick, f: Filter) returns (r: Session, catalogSent: seq<string>)
    requires t.mtu > 0 && t.listCardReady && t.rootOk
    ensures r == s.(allFilesSent := r.allFilesSent, connected := r.connected)
    ensures catalogSent != [] ==>
      && catalogSent[|catalogSent| - 1] == EOF_MARKER && r.allFilesSent
      && (r.connected <==> t.link(|catalogSent| - 1))
    ensures !(forall k :: 0 <= k <= |t.entries| ==> t.listing(k)) ==>
      catalogSent == [] && !r.connected && r.allFilesSent == s.allFilesSent
    ensures ListingHolds(t) ==>
      && r.allFilesSent && catalogSent != []
      && |catalogSent| - 1 <= |Chunks(CatalogOf(t, f), t.mtu)|
      && catalogSent[..|catalogSent| - 1] == Chunks(CatalogOf(t, f), t.mtu)[..|catalogSent| - 1]
    ensures ListingHolds(t) && PiecesHold(t, f) ==>
      && |catalogSent| - 1 == |Chunks(CatalogOf(t, f), t.mtu)|
      && Concat(catalogSent[..|catalogSent| - 1]) == CatalogOf(t, f)
  {
    var allSent, linkLost;
    catalogSent, allSent, linkLost :=
      SendAvailableFilenames(Acceptor(f), true, t.entries, t.mtu, t.listing, t.link, t.confirmed, s.allFilesSent);
    r := s.(allFilesSent := allSent, connected := !linkLost);
  }

  /** The end of a pass, with the link flag as it then reads: the catalog
      sent and the link still up mark the window successful, and a link
      seen up marks the window used. */
  function Bookkeep(s: Session): (r: Session)
    ensures r.successfulTransfer <==> s.successfulTransfer || (s.connected && s.allFilesSent)
    ensures r.didConnect <==> s.didConnect || s.connected
    ensures r == s.(successfulTransfer := r.successfulTransfer, didConnect := r.didConnect)
  {
    s.(successfulTransfer := s.successfulTransfer || (s.connected && s.allFilesSent),
       didConnect := s.didConnect || s.connected)
  }

  /** The catalog branch and the bookkeeping, once the file branch has let
      the pass go on. */
  method ServeRest(s: Session, t: Tick, f: Filter)
    returns (r: Session, catalogSent: seq<string>, skipped: bool)
    requires t.mtu > 0
    ensures r.ingest == s.ingest && r.currentFileName == s.currentFileName
    ensures r.connected ==> s.connected
    ensures !skipped ==> (r.connected ==> t.linkAtEnd)
    ensures CatalogDue(s) ==> r.mtuSize == t.mtu
    ensures !CatalogDue(s) ==> r.mtuSize == s.mtuSize && r.allFilesSent == s.allFilesSent && catalogSent == []
    ensures catalogSent != [] ==>
      && !skipped && r.allFilesSent && catalogSent[|catalogSent| - 1] == EOF_MARKER
      && (r.connected <==> t.link(|catalogSent| - 1) && t.linkAtEnd)
    ensures CatalogDue(s) && ListingHolds(t) ==> catalogSent != []
    ensures CatalogDue(s) && ListingHolds(t) && PiecesHold(t, f) ==>
      && |catalogSent| - 1 == |Chunks(CatalogOf(t, f), t.mtu)|
      && Concat(catalogSent[..|catalogSent| - 1]) == CatalogOf(t, f)
    ensures skipped ==> r.successfulTransfer == s.successfulTransfer
    ensures !skipped ==> (r.successfulTransfer <==> s.successfulTransfer || (r.connected && r.allFilesSent))
  {
    var afterCatalog;
    afterCatalog, catalogSent, skipped := ServeCatalog(s, t, f);
    r := if skipped then afterCatalog
         else Bookkeep(afterCatalog.(connected := afterCatalog.connected && t.linkAtEnd));
  }

  /** A pass after the watchdog: the file branch, then the catalog branch,
      then the bookkeeping. Returns the state, the indications of the file
      transfer and of the catalog, and whether the pass ended early
      (`continue`) because the card did not start; an early end skips the
      bookkeeping of `successfulTransfer` and `didConnect`. */
  method Serve(s: Session, t: Tick, f: Filter)
    returns (r: Session, fileSent: seq<string>, catalogSent: seq<string>, skipped: bool)
    requires t.mtu > 0 && s.mtuSize > 0
    ensures r.ingest == s.ingest
    ensures r.connected ==> s.connected
    ensures !skipped ==> (r.connected ==> t.linkAtEnd)
    ensures s.connected && s.currentFileName != "" ==> r.currentFileName == ""
    ensures t.file.None? ==> fileSent == []
    ensures s.connected && s.currentFileName != "" && t.fileCardReady && t.file.Some? ==>
      && |fileSent| >= 1 && fileSent[|fileSent| - 1] == EOF_MARKER
      && |fileSent| - 1 <= |Chunks(t.file.value, s.mtuSize)|
      && fileSent[..|fileSent| - 1] == Chunks(t.file.value, s.mtuSize)[..|fileSent| - 1]
    ensures catalogSent != [] ==>
      && !skipped && r.allFilesSent && r.mtuSize == t.mtu && catalogSent[|catalogSent| - 1] == EOF_MARKER
      && (r.connected <==> t.link(|catalogSent| - 1) && t.linkAtEnd)
    ensures CatalogDue(s) && ListingHolds(t) ==> catalogSent != []
    ensures CatalogDue(s) && ListingHolds(t) && PiecesHold(t, f) ==>
      && |catalogSent| - 1 == |Chunks(CatalogOf(t, f), t.mtu)|
      && Concat(catalogSent[..|catalogSent| - 1]) == CatalogOf(t, f)
    ensures FileThenCatalogDue(s) && FileHolds(s, t) && ListingHolds(t) ==>
      fileSent != [] && catalogSent != []
    ensures skipped ==> r.successfulTransfer == s.successfulTransfer
    ensures !skipped ==> (r.successfulTransfer <==> s.successfulTransfer || (r.connected && r.allFilesSent))
  {
    var afterFile;
    afterFile, fileSent, skipped := ServeFile(s, t);
    if CatalogDue(s) {
      assert afterFile == s;
    }

    if skipped {
      r, catalogSent := afterFile, [];
    } else {
      r, catalogSent, skipped := ServeRest(afterFile, t, f);
    }
  }

  /** One pass of the `doBLE` loop with catalog filter `f`: the watchdog,
      then `Serve`. Also returns whether the watchdog fired. A pass never
      brings the link up (that is `onConnect`), never forgets a successful
      window, and counts the window successful only when the catalog has
      gone out and the link is still up when the pass checks it: a link
      lost when the catalog's "EOF" is due, or at the end of the pass,
      leaves `successfulTransfer` as it was. */
  method Poll(s: Session, t: Tick, f: Filter)
    returns (r: Session, fileSent: seq<string>, catalogSent: seq<string>, kicked: bool, skipped: bool)
    requires t.mtu > 0 && s.mtuSize > 0
    ensures kicked <==> s.connected && Sub32(t.now, s.watchdogTimer) > s.watchdogTimeoutMs
    ensures kicked ==> !r.ingest.inProgress
    ensures !kicked ==> r.ingest == s.ingest
    ensures r.connected ==> s.connected
    ensures s.connected && s.currentFileName != "" ==> r.currentFileName == ""
    ensures t.file.None? ==> fileSent == []
    ensures s.connected && s.currentFileName != "" && t.fileCardReady && t.file.Some? ==>
      && |fileSent| >= 1 && fileSent[|fileSent| - 1] == EOF_MARKER
      && |fileSent| - 1 <= |Chunks(t.file.value, s.mtuSize)|
      && fileSent[..|fileSent| - 1] == Chunks(t.file.value, s.mtuSize)[..|fileSent| - 1]
    ensures catalogSent != [] ==>
      && !skipped && r.allFilesSent && r.mtuSize == t.mtu && catalogSent[|catalogSent| - 1] == EOF_MARKER
      && (r.connected <==> t.link(|catalogSent| - 1) && t.linkAtEnd)
    ensures CatalogDue(s) && ListingHolds(t) ==> catalogSent != []
    ensures CatalogDue(s) && ListingHolds(t) && PiecesHold(t, f) ==>
      && |catalogSent| - 1 == |Chunks(CatalogOf(t, f), t.mtu)|
      && Concat(catalogSent[..|catalogSent| - 1]) == CatalogOf(t, f)
    ensures s.successfulTransfer ==> r.successfulTransfer
    ensures !skipped ==> (r.successfulTransfer <==> s.successfulTransfer || (r.connected && r.allFilesSent))
    ensures r.successfulTransfer && !s.successfulTransfer ==>
      && s.connected && t.linkAtEnd && r.allFilesSent
      && (catalogSent != [] ==> t.link(|catalogSent| - 1))
    ensures catalogSent != [] && !t.link(|catalogSent| - 1) ==>
      !r.connected && r.successfulTransfer == s.successfulTransfer
    ensures FileThenCatalogDue(s) && FileHolds(s, t) && ListingHolds(t) ==> fileSent != [] && catalogSent != []
  {
    var watched := Watchdog(s, t.now);
    kicked := watched.1;
    r, fileSent, catalogSent, skipped := Serve(watched.0, t, f);
  }

  /** The file request path never produces "NFF": when the requested file
      does not open, the pass sends nothing for it. The "NFF" branch of
      `handleFileTransfer` is only reached when it is called with no open
      file, which this loop never does. */
  method MissingFileSendsNothing(s: Session, t: Tick, f: Filter) returns (fileSent: seq<string>)
    requires t.mtu > 0 && s.mtuSize > 0
    requires s.connected && s.currentFileName != "" && t.file.None?
    ensures fileSent == []
  {
    var r, catalogSent, kicked, skipped;
    r, fileSent, catalogSent, kicked, skipped := Poll(s, t, f);
  }

  /** The pass the window is for: the gateway has asked for the catalog,
      the card, the directory and the link all hold up to the "EOF" and to
      the end of the pass, and every piece gets its status callback. Then
      the pieces asked for are exactly the catalog of the accepted files and
      the window counts as successful. */
  method CatalogPassSucceeds(s: Session, t: Tick, f: Filter) returns (r: Session, catalogSent: seq<string>)
    requires t.mtu > 0 && s.mtuSize > 0
    requires CatalogDue(s) && ListingHolds(t) && PiecesHold(t, f)
    requires t.link(|Chunks(CatalogOf(t, f), t.mtu)|) && t.linkAtEnd
    ensures r.successfulTransfer && r.connected && r.allFilesSent
    ensures |catalogSent| >= 1 && catalogSent[|catalogSent| - 1] == EOF_MARKER
    ensures Concat(catalogSent[..|catalogSent| - 1]) == CatalogOf(t, f)
  {
    var fileSent, kicked, skipped;
    r, fileSent, catalogSent, kicked, skipped := Poll(s, t, f);
  }

  /** A file requested together with the catalog: one pass serves the
      file and then, the request being cleared, the catalog, each closed by
      "EOF". */
  method FileThenCatalog(s: Session, t: Tick, f: Filter) returns (fileSent: seq<string>, catalogSent: seq<string>)
    requires t.mtu > 0 && s.mtuSize > 0
    requires FileThenCatalogDue(s) && FileHolds(s, t) && ListingHolds(t)
    ensures fileSent != [] && fileSent[|fileSent| - 1] == EOF_MARKER
    ensures catalogSent != [] && catalogSent[|catalogSent| - 1] == EOF_MARKER
  {
    var r, kicked, skipped;
    r, fileSent, catalogSent, kicked, skipped := Poll(s, t, f);
  }
}

=== FILE: text.dfy ===
/** The parts of Arduino's `String` class and of the C library that the
    engines use on text: character classes, case folding, prefix and suffix
    tests, `indexOf`, `trim`, joining and splitting, decimal rendering of
    sizes and `toInt` (which is `atol`). Characters are taken to be ASCII:
    `isalnum`, `isspace` and `tolower` leave every other character alone. */
module Text {

  predicate IsDigit(c: char) {
    '0' <= c <= '9'
  }

  predicate IsUpper(c: char) {
    'A' <= c <= 'Z'
  }

  predicate IsAlnum(c: char) {
    IsDigit(c) || IsUpper(c) || 'a' <= c <= 'z'
  }

  /** C's `isspace`: space, tab, line feed, vertical tab, form feed, carriage return. */
  predicate IsSpace(c: char) {
    c == ' ' || c == '\t' || c == '\n' || c == '\r' || c as int == 11 || c as int == 12
  }

  function ToLowerChar(c: char): (r: char)
    ensures !IsUpper(r)
    ensures !IsUpper(c) ==> r == c
  {
    if IsUpper(c) then (c as int + 32) as char else c
  }

  /** `String::toLowerCase`. */
  function Lower(s: string): (r: string)
    ensures |r| == |s|
    ensures forall i :: 0 <= i < |s| ==> r[i] == ToLowerChar(s[i])
    ensures forall i :: 0 <= i < |r| ==> !IsUpper(r[i])
  {
    seq(|s|, i requires 0 <= i < |s| => ToLowerChar(s[i]))
  }

  predicate StartsWith(s: string, prefix: string) {
    |prefix| <= |s| && s[..|prefix|] == prefix
  }

  predicate EndsWith(s: string, suffix: string) {
    |suffix| <= |s| && s[|s| - |suffix|..] == suffix
  }

  /** `String::indexOf(c)`: the first position of `c`, or -1. */
  function IndexOf(s: string, c: char): (r: int)
    ensures -1 <= r < |s|
    ensures r == -1 <==> c !in s
    ensures 0 <= r ==> s[r] == c && c !in s[..r]
  {
    if |s| == 0 then -1
    else if s[0] == c then 0
    else
      var k := IndexOf(s[1..], c);
      if k == -1 then -1
      else
        assert s[..k + 1] == [s[0]] + s[1..][..k];
        k + 1
  }

  /** Drops the leading white space, as the first half of `String::trim`. */
  function TrimStart(s: string): (r: string)
    ensures |r| <= |s| && r == s[|s| - |r|..]
    ensures forall i :: 0 <= i < |s| - |r| ==> IsSpace(s[i])
    ensures r == [] || !IsSpace(r[0])
  {
    if |s| > 0 && IsSpace(s[0]) then
      var t := TrimStart(s[1..]);
      assert s[1..][|s| - 1 - |t|..] == s[|s| - |t|..];
      assert forall i :: 1 <= i < |s| - |t| ==> s[i] == s[1..][i - 1];
      t
    else s
  }

  /** Drops the trailing white space, as the second half of `String::trim`. */
  function TrimEnd(s: string): (r: string)
    ensures |r| <= |s| && r == s[..|r|]
    ensures forall i :: |r| <= i < |s| ==> IsSpace(s[i])
    ensures r == [] || !IsSpace(r[|r| - 1])
  {
    if |s| > 0 && IsSpace(s[|s| - 1]) then
      var t := TrimEnd(s[..|s| - 1]);
      assert s[..|s| - 1][..|t|] == s[..|t|];
      t
    else s
  }

  /** `String::trim`. */
  function Trim(s: string): (r: string)
    ensures r == [] || (!IsSpace(r[0]) && !IsSpace(r[|r| - 1]))
    ensures forall c :: c in r ==> c in s
  {
    TrimEnd(TrimStart(s))
  }

  /** What `trim` keeps: a run of `s` with only white space before and
      after it. */
  lemma TrimIsInfix(s: string)
    ensures exists i :: 0 <= i <= |s| && Trim(s) <= s[i..]
                        && (forall k :: 0 <= k < i ==> IsSpace(s[k]))
                        && (forall k :: i + |Trim(s)| <= k < |s| ==> IsSpace(s[k]))
  {
    var t := TrimStart(s);
    var r := Trim(s);
    var i := |s| - |t|;
    assert t == s[i..];
    assert r == t[..|r|];
    assert r <= s[i..];
    forall k | i + |r| <= k < |s|
      ensures IsSpace(s[k])
    {
      assert s[k] == t[k - i];
    }
  }

  /** Conversely, a run of `s` with only white space around it and none at
      its own ends is what `trim` gives: the two properties fix the
      result. */
  lemma TrimUnique(s: string, i: nat, r: string)
    requires i <= |s| && r <= s[i..]
    requires r == [] || (!IsSpace(r[0]) && !IsSpace(r[|r| - 1]))
    requires forall k :: 0 <= k < i ==> IsSpace(s[k])
    requires forall k :: i + |r| <= k < |s| ==> IsSpace(s[k])
    ensures Trim(s) == r
  {
    var t := TrimStart(s);
    var j := |s| - |t|;
    if r == [] {
      assert forall k :: 0 <= k < |s| ==> IsSpace(s[k]);
      assert t == [];
    } else {
      assert s[i] == r[0];
      assert !IsSpace(s[i]);
      assert j <= i;
      assert t[0] == s[j] && !IsSpace(s[j]);
      assert j == i;
      assert t == s[i..];
      var u := TrimEnd(t);
      assert t[|r| - 1] == r[|r| - 1] && !IsSpace(t[|r| - 1]);
      assert |u| >= |r|;
      assert u[|u| - 1] == t[|u| - 1] == s[i + |u| - 1] && !IsSpace(s[i + |u| - 1]);
      assert |u| == |r|;
      assert u == t[..|r|] == r;
    }
  }

  /** The pieces of `xs` with `sep` between consecutive ones. */
  function Join(sep: string, xs: seq<string>): string
  {
    if |xs| == 0 then ""
    else if |xs| == 1 then xs[0]
    else xs[0] + sep + Join(sep, xs[1..])
  }

  /** The pieces of `s` between occurrences of `c`, including an empty
      piece before a leading `c` and after a trailing one. */
  function Split(s: string, c: char): (r: seq<string>)
    ensures |r| >= 1
    ensures forall i :: 0 <= i < |r| ==> c !in r[i]
    decreases |s|
  {
    var i := IndexOf(s, c);
    if i < 0 then [s]
    else [s[..i]] + Split(s[i + 1..], c)
  }

  /** `Split` at the first occurrence of the separator. */
  lemma SplitAtFirst(s: string, c: char)
    requires IndexOf(s, c) >= 0
    ensures Split(s, c) == [s[..IndexOf(s, c)]] + Split(s[IndexOf(s, c) + 1..], c)
  {
  }

  /** Joining the pieces back with the separator gives the string. */
  lemma {:induction false} SplitJoinsBack(s: string, c: char)
    ensures Join([c], Split(s, c)) == s
    decreases |s|
  {
    var i := IndexOf(s, c);
    if i >= 0 {
      SplitJoinsBack(s[i + 1..], c);
      JoinCons([c], s[..i], Split(s[i + 1..], c));
      assert s == s[..i] + [c] + s[i + 1..];
    }
  }

  lemma JoinSingle(sep: string, x: string)
    ensures Join(sep, [x]) == x
  {
  }

  lemma JoinCons(sep: string, x: string, xs: seq<string>)
    requires |xs| > 0
    ensures Join(sep, [x] + xs) == x + sep + Join(sep, xs)
  {
    assert ([x] + xs)[1..] == xs;
  }

  lemma {:induction false} JoinSnoc(sep: string, xs: seq<string>, x: string)
    requires |xs| > 0
    ensures Join(sep, xs + [x]) == Join(sep, xs) + sep + x
    decreases |xs|
  {
    if |xs| == 1 {
      assert xs + [x] == [xs[0], x];
    } else {
      assert (xs + [x])[1..] == xs[1..] + [x];
      JoinSnoc(sep, xs[1..], x);
    }
  }

  /** A non-empty list's joined form begins with its first piece. */
  lemma JoinStartsWithHead(sep: string, xs: seq<string>)
    requires |xs| > 0
    ensures StartsWith(Join(sep, xs), xs[0])
  {
  }

  lemma IndexOfAfterPiece(x: string, c: char, rest: string)
    requires c !in x
    ensures IndexOf(x + [c] + rest, c) == |x|
  {
    var s := x + [c] + rest;
    var r := IndexOf(s, c);
    assert s[|x|] == c;
    assert s[..|x|] == x;
  }

  /** `Split` undoes `Join` when no piece contains the separator. */
  lemma {:induction false} SplitJoin(xs: seq<string>, c: char)
    requires |xs| > 0
    requires forall i :: 0 <= i < |xs| ==> c !in xs[i]
    ensures Split(Join([c], xs), c) == xs
    decreases |xs|
  {
    if |xs| > 1 {
      var rest := Join([c], xs[1..]);
      assert Join([c], xs) == xs[0] + [c] + rest;
      IndexOfAfterPiece(xs[0], c, rest);
      var s := xs[0] + [c] + rest;
      SplitAtFirst(s, c);
      assert s[..|xs[0]|] == xs[0];
      assert s[|xs[0]| + 1..] == rest;
      SplitJoin(xs[1..], c);
    }
  }

  function DigitChar(d: nat): (c: char)
    requires d < 10
    ensures IsDigit(c)
  {
    ('0' as int + d) as char
  }

  /** The value of a string of decimal digits. */
  function DigitsValue(d: string): nat
    requires forall i :: 0 <= i < |d| ==> IsDigit(d[i])
  {
    if |d| == 0 then 0
    else
      assert IsDigit(d[|d| - 1]);
      DigitsValue(d[..|d| - 1]) * 10 + (d[|d| - 1] as int - '0' as int)
  }

  /** `String(n)` for an unsigned number: its decimal rendering. */
  function NatToDecimal(n: nat): (r: string)
    ensures |r| >= 1
    ensures forall i :: 0 <= i < |r| ==> IsDigit(r[i])
    ensures DigitsValue(r) == n
  {
    if n < 10 then [DigitChar(n)]
    else
      var r := NatToDecimal(n / 10) + [DigitChar(n % 10)];
      assert r[..|r| - 1] == NatToDecimal(n / 10);
      r
  }

  /** A decimal rendering contains no character other than digits. */
  lemma DecimalHasOnlyDigits(n: nat, c: char)
    requires !IsDigit(c)
    ensures c !in NatToDecimal(n)
  {
  }

  /** The longest prefix of `s` made of decimal digits. */
  function LeadingDigits(s: string): (r: string)
    ensures |r| <= |s| && r == s[..|r|]
    ensures forall i :: 0 <= i < |r| ==> IsDigit(r[i])
    ensures |r| == |s| || !IsDigit(s[|r|])
  {
    if |s| > 0 && IsDigit(s[0]) then
      var t := LeadingDigits(s[1..]);
      [s[0]] + t
    else []
  }

  const LONG_MIN: int := -0x8000_0000
  const LONG_MAX: int := 0x7FFF_FFFF

  /** `String::toInt`, which is `atol` of the ESP32's C library: skips white
      space, reads an optional sign and the longest run of digits after it,
      gives 0 when there are none, and saturates at the bounds of a 32-bit
      `long` when the number does not fit. */
  function Atol(s: string): (r: int)
    ensures LONG_MIN <= r <= LONG_MAX
    ensures r > 0 ==> |TrimStart(s)| > 0 && TrimStart(s)[0] != '-'
  {
    var t := TrimStart(s);
    var negative := |t| > 0 && t[0] == '-';
    var unsigned := if |t| > 0 && (t[0] == '-' || t[0] == '+') then t[1..] else t;
    var v: int := DigitsValue(LeadingDigits(unsigned));
    if negative then (if v > -LONG_MIN then LONG_MIN else -v)
    else (if v > LONG_MAX then LONG_MAX else v)
  }

  /** The longest digit prefix of a string of digits is all of it. */
  lemma LeadingDigitsOfDigits(s: string)
    requires forall i :: 0 <= i < |s| ==> IsDigit(s[i])
    ensures LeadingDigits(s) == s
  {
  }

  /** `toInt` reads back what `String(n)` writes, for every value a
      `long` holds. */
  lemma AtolDecimal(n: nat)
    requires n <= LONG_MAX
    ensures Atol(NatToDecimal(n)) == n
  {
    var t := NatToDecimal(n);
    assert !IsSpace(t[0]) && t[0] != '-' && t[0] != '+';
    assert TrimStart(t) == t;
    LeadingDigitsOfDigits(t);
  }

  /** And with a minus sign in front, the negated value. */
  lemma AtolNegatedDecimal(n: nat)
    requires n <= LONG_MAX
    ensures Atol("-" + NatToDecimal(n)) == -(n as int)
  {
    var t := NatToDecimal(n);
    var m := "-" + t;
    assert !IsSpace(m[0]);
    assert TrimStart(m) == m;
    assert m[1..] == t;
    LeadingDigitsOfDigits(t);
  }
}

=== FILE: transfer.dfy ===
/** How the engines push a payload (a catalog string or a file's contents)
    to the gateway: cut into pieces of at most `mtuSize` characters, one
    indication per piece, then an "EOF" indication. `Hublink` sends each
    indication through `sendIndication` (up to three attempts, each waiting
    for a status callback) and stops at the first one that reports failure;
    the node engines indicate without waiting. The radio is not modelled:
    whether the link is up when indication `k` is due, and whether
    `sendIndication` reports success for it, are given as functions of `k`.

    A reported success means only that a status callback arrived: the
    callback of `Hublink` records whether its code was a completion, but
    `sendIndication` never reads that record, so a time-out or an unknown
    code counts as success too. The lists of pieces below are the
    indications the engine asks for, not the ones the gateway received. */
module Transfer {

  const EOF_MARKER: string := "EOF"
  const NOT_FOUND_MARKER: string := "NFF"

  /** `maxRetries` of `Hublink::sendIndication`. */
  const MAX_INDICATION_TRIES: nat := 3

  function Min(a: int, b: int): int {
    if a <= b then a else b
  }

  /** The pieces from position `i` on: `substring(i, i + m)`, whose end is
      clamped to the length, for `i = 0, m, 2m, ...` while `i < |s|`. */
  function ChunksFrom(s: string, m: nat, i: nat): seq<string>
    requires m > 0 && i <= |s|
    decreases |s| - i
  {
    if i == |s| then []
    else [s[i..Min(i + m, |s|)]] + ChunksFrom(s, m, Min(i + m, |s|))
  }

  /** The pieces a payload is cut into. */
  function Chunks(s: string, m: nat): seq<string>
    requires m > 0
  {
    ChunksFrom(s, m, 0)
  }

  /** The receiver's reassembly: the pieces one after another. */
  function Concat(xs: seq<string>): string {
    if |xs| == 0 then "" else xs[0] + Concat(xs[1..])
  }


  lemma {:induction false} ChunksFromConcat(s: string, m: nat, i: nat)
    requires m > 0 && i <= |s|
    ensures Concat(ChunksFrom(s, m, i)) == s[i..]
    decreases |s| - i
  {
    if i < |s| {
      var j := Min(i + m, |s|);
      ChunksFromConcat(s, m, j);
      assert ChunksFrom(s, m, i)[1..] == ChunksFrom(s, m, j);
      assert s[i..] == s[i..j] + s[j..];
    }
  }

  /** Reassembling the pieces gives back the payload. */
  lemma ChunksConcat(s: string, m: nat)
    requires m > 0
    ensures Concat(Chunks(s, m)) == s
  {
    ChunksFromConcat(s, m, 0);
  }

  lemma {:induction false} ChunksFromCount(s: string, m: nat, i: nat)
    requires m > 0 && i <= |s|
    ensures (|ChunksFrom(s, m, i)| - 1) * m < |s| - i <= |ChunksFrom(s, m, i)| * m
    decreases |s| - i
  {
    if i < |s| {
      var j := Min(i + m, |s|);
      ChunksFromCount(s, m, j);
      var c := |ChunksFrom(s, m, j)|;
      assert |ChunksFrom(s, m, i)| == c + 1;
      assert (c + 1) * m == c * m + m;
    }
  }

  lemma {:induction false} ChunksFromSizes(s: string, m: nat, i: nat)
    requires m > 0 && i <= |s|
    ensures forall k :: 0 <= k < |ChunksFrom(s, m, i)| ==> 0 < |ChunksFrom(s, m, i)[k]| <= m
    ensures forall k :: 0 <= k < |ChunksFrom(s, m, i)| - 1 ==> |ChunksFrom(s, m, i)[k]| == m
    decreases |s| - i
  {
    if i < |s| {
      var j := Min(i + m, |s|);
      ChunksFromSizes(s, m, j);
      var tail := ChunksFrom(s, m, j);
      assert ChunksFrom(s, m, i) == [s[i..j]] + tail;
      if j == |s| {
        assert tail == [];
      }
    }
  }

  /** A payload of `n` characters takes the fewest pieces of `m` characters
      that cover it (`ceil(n / m)`), every one of them non-empty and at most
      `m` long, and all but the last exactly `m`. */
  lemma ChunksShape(s: string, m: nat)
    requires m > 0
    ensures (|Chunks(s, m)| - 1) * m < |s| <= |Chunks(s, m)| * m
    ensures forall k :: 0 <= k < |Chunks(s, m)| ==> 0 < |Chunks(s, m)[k]| <= m
    ensures forall k :: 0 <= k < |Chunks(s, m)| - 1 ==> |Chunks(s, m)[k]| == m
  {
    ChunksFromCount(s, m, 0);
    ChunksFromSizes(s, m, 0);
  }

  /** What one attempt of `sendIndication` does: `indicate()` refused the
      value, no status callback arrived within the second, or a status
      callback arrived, whatever its code (`Confirmed`). */
  datatype Attempt = NotQueued | TimedOut | Confirmed

  /** `Hublink::sendIndication`: gives up at once when disconnected, else
      tries up to three times while connected, stopping at the first
      confirmed attempt. `connected(i)` is the link state before attempt
      `i`; the result tells whether an attempt got its status callback and
      how many attempts were made. */
  method SendIndication(connected: nat -> bool, attempt: nat -> Attempt) returns (success: bool, tries: nat)
    ensures tries <= MAX_INDICATION_TRIES
    ensures success <==> tries > 0 && attempt(tries - 1) == Confirmed
    ensures forall i :: 0 <= i < tries ==> connected(i)
    ensures forall i :: 0 <= i < tries - 1 ==> attempt(i) != Confirmed
    ensures !success && tries < MAX_INDICATION_TRIES ==> !connected(tries)
  {
    success := false;
    tries := 0;
    if !connected(0) {
      return;
    }
    while tries < MAX_INDICATION_TRIES && !success && connected(tries)
      invariant tries <= MAX_INDICATION_TRIES
      invariant success <==> tries > 0 && attempt(tries - 1) == Confirmed
      invariant forall i :: 0 <= i < tries ==> connected(i)
      invariant forall i :: 0 <= i < tries - 1 ==> attempt(i) != Confirmed
    {
      success := attempt(tries) == Confirmed;
      tries := tries + 1;
    }
  }

  /** The piece loop of the catalog and file transfers: piece `k` is asked
      for while the link is up when it is due; with `confirmed` standing for
      `sendIndication`'s result, the loop stops after the first piece whose
      result was failure (the node engines, which do not wait, pass a
      `confirmed` that is always true). Returns the pieces asked for. */
  method SendPieces(payload: string, mtu: nat, connected: nat -> bool, confirmed: nat -> bool)
    returns (sent: seq<string>)
    requires mtu > 0
    ensures |sent| <= |Chunks(payload, mtu)|
    ensures sent == Chunks(payload, mtu)[..|sent|]
    ensures forall k :: 0 <= k < |sent| ==> connected(k)
    ensures forall k :: 0 <= k < |sent| - 1 ==> confirmed(k)
    ensures |sent| < |Chunks(payload, mtu)| ==>
      !connected(|sent|) || (|sent| > 0 && !confirmed(|sent| - 1))
    ensures (forall k :: 0 <= k < |Chunks(payload, mtu)| ==> connected(k) && confirmed(k)) ==>
      sent == Chunks(payload, mtu)
  {
    var index: nat := 0;
    sent := [];
    ghost var all := Chunks(payload, mtu);
    while index < |payload| && connected(|sent|)
      invariant index <= |payload|
      invariant |sent| <= |all|
      invariant sent == all[..|sent|]
      invariant ChunksFrom(payload, mtu, index) == all[|sent|..]
      invariant forall k :: 0 <= k < |sent| ==> connected(k)
      invariant forall k :: 0 <= k < |sent| ==> confirmed(k)
      decreases |payload| - index
    {
      var next := Min(index + mtu, |payload|);
      var chunk := payload[index..next];
      assert all[|sent|..] == [chunk] + ChunksFrom(payload, mtu, next);
      sent := sent + [chunk];
      if !confirmed(|sent| - 1) {
        return;
      }
      index := next;
    }
    if index == |payload| {
      assert ChunksFrom(payload, mtu, index) == [];
    }
  }

  /** The pieces and the final "EOF" of one transfer. The "EOF" is asked
      for in every case; `linkLost` tells whether the link was down when it
      was due, which is also when `Hublink::sendIndication` gives up on it
      without sending, and is the case whenever the piece loop stopped for a
      dropped link. */
  method SendPayload(payload: string, mtu: nat, connected: nat -> bool, confirmed: nat -> bool)
    returns (sent: seq<string>, linkLost: bool)
    requires mtu > 0
    ensures |sent| >= 1 && sent[|sent| - 1] == EOF_MARKER
    ensures |sent| - 1 <= |Chunks(payload, mtu)|
    ensures sent[..|sent| - 1] == Chunks(payload, mtu)[..|sent| - 1]
    ensures linkLost <==> !connected(|sent| - 1)
    ensures |sent| - 1 < |Chunks(payload, mtu)| && !linkLost ==> |sent| >= 2 && !confirmed(|sent| - 2)
    ensures (forall k :: 0 <= k < |Chunks(payload, mtu)| ==> connected(k) && confirmed(k)) ==>
      |sent| - 1 == |Chunks(payload, mtu)| && Concat(sent[..|sent| - 1]) == payload
  {
    var pieces := SendPieces(payload, mtu, connected, confirmed);
    linkLost := !connected(|pieces|);
    sent := pieces + [EOF_MARKER];
    assert sent[..|sent| - 1] == pieces;
    ChunksConcat(payload, mtu);
  }
}
